=== FILE: README.md ===
# go-kuzu: value conversion, parameter binding, result state and SQL-driver glue

A Dafny model of the Go side of go-kuzu, the cgo binding for the Kùzu graph database:

- **Time conversions** (`time_helper.go`): dates, timestamps and intervals between Go's
  `time.Time`/`time.Duration` and the engine's C structs, with Go's truncating division
  written out.
- **Value decoding** (`kuzuValueToGoValue` and its helpers in `value_helper.go`): engine
  values of every type id, lists, structs, maps, nodes, relationships and paths become Go
  values. Errors of children are collected and the partial value is kept.
- **Value encoding** (`goValueToKuzuValue` and its helpers): Go scalars, `[]any`,
  `map[string]any` (keys sorted with `sort.Strings`) and `[]MapItem` become engine values.
  Encoding stops at the first child that fails and refuses empty composites. The encoding
  and decoding round trip is proved up to the normalisations both directions make.
- **Parameter binding** (`connection.go`): `bindParameter`'s own type switch, one typed bind
  call per supported Go type. `Execute` ranges over the argument map in an order of the
  runtime's choosing, stops at the first failed bind, and executes only when all succeeded.
  `Close` destroys the connection at most once.
- **Query results** (`query_result.go`): the column-name cache, the column and row counts,
  and the idempotent `Close`.
- **`database/sql` glue** (`driver.go`): `parse` with the semantics of
  `strconv.ParseUint(s, 10, 64)`, the connector parameters of `OpenConnector`, named
  arguments for `Exec`/`Query`, the parameter map of `ExecContext`/`QueryContext`, and
  `rowSet.Next`.

The engine is never called. What it answers is a parameter: the `Natives` record (its
text rendering, `big.Int`/UUID/decimal parsing, its homogeneity checks for created
lists, structs and maps), the status a bind call gets, the error message of an execution,
and the column names and tuple count of a result. What the binding asks of the engine is
recorded as a log of native calls on the `Connection` and `QueryResult` classes. A string
that crosses the C boundary (`C.CString`/`C.GoString`) is cut at its first NUL (`CStr`).

Where the code and its documentation disagree, the model follows the code:

- `timeHasNanoseconds` tests the nanosecond offset within the second (`Time.Nanosecond()`).
  So a time 3 ms past a whole second is bound as TIMESTAMP_NS, not as a microsecond
  TIMESTAMP.
- `timeToKuzuDate` computes the day count in float64: `math.Floor(diff.Hours() / 24)`. Within
  a fraction of a microsecond before a UTC midnight the float64 hour count rounds up to a
  whole day, and the code answers the next day (see Findings). `TimeToKuzuDate` is the whole
  days elapsed, rounded down, that the computation stands for; `TimeToKuzuDateAsWritten` is
  the float64 computation itself, with IEEE round-to-nearest-even written out (`Binary64`).
- `bindParameter` has its own type switch and refuses `[]any`, `map[string]any` and
  `[]MapItem` with "unsupported type", although the repository's tests pass such values to
  `Execute`. Its `case int64, int` asserts `v.(int64)`, so a Go `int` makes it panic before
  any call; the model has an explicit `Panic` outcome for this.
- `GetNumberOfRows` answers the number of cached column names once `GetColumnNames` has run
  (see Findings).

Modules: `Wrappers` (Option, Result), `Binary64` (float64 rounding), `Temporal`, `Values` (the Go and engine value types,
error values, `CStr`), `KeyOrder` (Go's string order and `sort.Strings`), `Decoder`,
`Encoder`, `RoundTrip`, `Binding`, `Results`, `SqlDriver`.

## Model

| member | source | states |
|---|---|---|
| `Temporal.TruncDiv` | time_helper.go:35 | Go's `/` on a positive divisor: the remainder keeps the dividend's sign and is smaller than the divisor |
| `Temporal.TimeToKuzuDate` | time_helper.go:18-24 | the intended day count is the floor: the time lies within that day, `days*24h <= t < (days+1)*24h` |
| `Temporal.DateRoundsUpBeforeMidnight` | time_helper.go:18-24 | as written, the last nanosecond of day 19999 is dated 20000 and the last nanosecond of day -20001 is dated -20000, where the floor gives 19999 and -20001 |
| `Temporal.HoursJustBeforeDay20000` | time_helper.go:19-20 | `Duration.Hours()` of 20000 days minus 1 ns is exactly 480000.0 in float64 |
| `Temporal.HoursJustBeforeDayMinus20000` | time_helper.go:19-20 | `Duration.Hours()` of -20000 days minus 1 ns is exactly -480000.0 in float64 |
| `Temporal.WholeDaysAreDoubles` | time_helper.go:20 | dividing ±480000.0 hours by 24 in float64 gives exactly ±20000.0 |
| `Binary64.RoundingError` | time_helper.go:19-20 | a float64 operation's result is within half a spacing of the exact result |
| `Binary64.RoundsTo` | time_helper.go:19-20 | a value rounds to the multiple of its spacing `2^(k-52)` that lies closer than half a spacing |
| `Binary64.RoundingBound` | time_helper.go:19-20 | below 2^53 in magnitude, a float64 operation moves its result by at most 0.5 |
| `Binary64.IntegerIsDouble` | time_helper.go:19-20 | every integer below 2^53 in magnitude is a double, so rounding leaves it unchanged |
| `Temporal.AsWrittenDateOfDate` | time_helper.go:18-30 | as written, too, the date of `kuzuDateToTime(d)` is `d` for every `d` within ±106751 days, where Go's `Duration` holds that time: 24·d hours and their quotient by 24 are exact in float64 |
| `Temporal.DateTimeIsInt64` | time_helper.go:28 | `kuzuDateToTime(d)` stays within int64 nanoseconds exactly when `d` is within ±106751 days |
| `Temporal.AsWrittenDateFitsInt32` | time_helper.go:19-22 | as written, too, every int64 time gives a float64 day count within int32 before `C.int32_t(diffDays)` |
| `Temporal.AsWrittenWithinADay` | time_helper.go:18-24 | for every int64 time, the float64 day count as written is at most one day from the whole days elapsed |
| `Temporal.KuzuDateToTime` | time_helper.go:27-30 | a date becomes a whole-day time whose intended date is that day again; beyond ±106751 days this holds only because the model does not wrap (`AsWrittenDateOfDate` states it for the float64 path within that range) |
| `Temporal.TimeToKuzuTimestamp` | time_helper.go:33-39 | microseconds are `UnixNano / 1000` truncated toward zero: the lost part is below one microsecond and has the time's sign |
| `Temporal.Nanosecond` | time_helper.go:50-52 | `Time.Nanosecond()` is in [0, 10^9) and the time minus it is a whole second |
| `Temporal.DurationToKuzuInterval` | time_helper.go:55-61 | months and days stay zero, micros is the duration truncated toward zero |
| `Temporal.DateOfTimeIsMidnight` | time_helper.go:18-30 | with the intended day count, date and back gives the time rounded down to midnight |
| `Temporal.DateExamples` | time_helper.go:18-24 | 36 hours after the epoch is day 1; one nanosecond before it is day -1 |
| `Temporal.DateFitsInt32` | time_helper.go:22 | every int64 time gives an intended day count that fits the engine's int32 field (`AsWrittenDateFitsInt32` states it for the float64 path) |
| `Temporal.TimestampRoundTrip` | time_helper.go:33-39 | time to microsecond timestamp and back loses exactly Go's truncation remainder, nothing for a whole microsecond |
| `Temporal.TimestampNsRoundTrip` | time_helper.go:42-47 | the nanosecond timestamp keeps the time exactly |
| `Temporal.WholeSecondIsWholeMicro` | time_helper.go:50-52 | a time without within-second nanoseconds is a whole microsecond, so the TIMESTAMP path is exact |
| `Temporal.MillisecondsCountAsNanoseconds` | time_helper.go:50-52 | 3 ms past a second and -1 ns "have nanoseconds"; -2 s does not |
| `Temporal.IntervalRoundTrip` | time_helper.go:55-73 | duration to interval and back loses exactly the sub-microsecond remainder |
| `Temporal.MonthIsThirtyDays` | time_helper.go:64-73 | an interval's month counts as exactly 30 days |
| `Temporal.TwoDayInterval` | time_helper.go:64-73 | a two-day interval decodes to 48 hours, and 48 hours encode and decode unchanged |
| `Values.PrefixBefore` | value_helper.go:353-360 | what C sees of a string: a prefix without the stop character, cut exactly at the first one |
| `Decoder.Aggregate` | value_helper.go:186-189 | no error exactly when no child failed; otherwise one error listing the children's errors |
| `Decoder.AccessorFailure` | value_helper.go:260-266 | a failed accessor gives nil with "failed to get ... value with status" for the accessor called |
| `Decoder.DecodeScalar` | value_helper.go:255-426 | BOOL gives the payload's bool; INT64 and SERIAL an int64 of the payload; STRING and BLOB succeed on their payload and give exactly the part before the first NUL or zero byte; a force-cast type still yields a string |
| `Decoder.Int128ToBigInt` | value_helper.go:460-474 | the decoded value, returned as `any`, is always a `*big.Int` and never Go nil; it is a nil pointer exactly when the engine's text conversion or `SetString` failed, and exactly then an error is reported |
| `Decoder.ErrorsUpToEmpty` | value_helper.go:164-191 | a child loop records no error exactly when no child failed |
| `Decoder.ErrorsUpToFromChildren` | value_helper.go:164-191 | every recorded error is some child's error, at most one per child |
| `Decoder.PairErrorsUpToEmpty` | value_helper.go:222-248 | the map loop records no error exactly when no key and no value failed |
| `Decoder.FieldMapKeys` | value_helper.go:195-218 | the field loop's map has exactly the names seen as keys |
| `Decoder.FieldMapLastWins` | value_helper.go:195-218 | a name no later field repeats maps to its own field's value |
| `Decoder.ListDecoding` | value_helper.go:164-191 | a LIST/ARRAY decodes to a slice of the same length, element by element, null as nil; it fails exactly when an element fails and still carries every element |
| `Decoder.FieldMapSpec` | value_helper.go:195-218 | both facts about the field loop's map, for every name at once |
| `Decoder.PropertiesMap` | value_helper.go:195-218 | the keys are the fields' C names; the last field of a name gives its value |
| `Decoder.PropertiesErrors` | value_helper.go:195-218 | the field loop fails exactly when a field fails |
| `Decoder.StructDecoding` | value_helper.go:435-436 | a STRUCT/UNION with distinct names decodes to the map from each name to its decoded field; it fails exactly when a field fails |
| `Decoder.StructRepeatedNameKeepsLast` | value_helper.go:195-218 | with a repeated field name, the later field's value is kept |
| `Decoder.MapDecoding` | value_helper.go:222-248 | a MAP decodes to one MapItem per entry in order, duplicates kept; it fails exactly when a key or value fails |
| `Decoder.NodeDecoding` | value_helper.go:60-94 | a node keeps its id and its label as C sees it; its properties are the property loop's map, one key per name, each holding the decoded value of the last property of that name; it fails exactly when a property fails |
| `Decoder.RelDecoding` | value_helper.go:98-136 | a relationship keeps both end ids and its label; its properties are the property loop's map, with the last property of each name winning; it fails exactly when a property fails |
| `Decoder.PathDecodingNeverFails` | value_helper.go:140-160 | a path never reports an error and keeps its nodes and relationships in order |
| `Decoder.SharedCases` | value_helper.go:267-273 | SERIAL reads like INT64, ARRAY like LIST, UNION like STRUCT |
| `Decoder.UnsupportedTypeIsForceCast` | value_helper.go:452-455 | an unhandled type id yields the engine's text with an "unsupported data type" error |
| `Decoder.KuzuListValueToGoValue` | value_helper.go:164-191 | the element loop computes the list decoding |
| `Decoder.FieldsToGoMap` | value_helper.go:195-218 | the field loop computes the field map and its error |
| `Decoder.KuzuMapValueToGoValue` | value_helper.go:222-248 | the entry loop (key, then value, then item) computes the map decoding |
| `Encoder.TimeToKuzuValue` | value_helper.go:605-610 | TIMESTAMP_NS when the time has within-second nanoseconds, TIMESTAMP otherwise; either decodes back to the time |
| `Encoder.EncodeScalar` | value_helper.go:577-621 | a scalar encodes exactly when its Go type is listed; the result is null or a scalar; otherwise "unsupported type" with its `%T` name |
| `Encoder.ElementFailureSticks` | value_helper.go:553-560 | once an element fails, no later element changes the error |
| `Encoder.ElementsSucceed` | value_helper.go:553-560 | the elements encode exactly when each one does, and then each in order |
| `Encoder.FieldValuesSucceed` | value_helper.go:493-502 | encoded struct values are each key's own value's encoding |
| `Encoder.ItemsSucceed` | value_helper.go:523-537 | encoded map keys and values are each item's own encodings |
| `Encoder.FirstElementFailureAborts` | value_helper.go:553-560 | the first element that fails gives the slice's error, wrapped; later elements are not looked at |
| `Encoder.EmptyCompositesRefused` | value_helper.go:480-482 | empty slices, maps and MapItem slices are refused with the "is empty" errors |
| `Encoder.StructShape` | value_helper.go:478-510 | a struct is built from the sorted keys' C names and the encodings of their values |
| `Encoder.SameKeysSameFieldOrder` | value_helper.go:485-492 | maps with the same keys give the same field order, whatever order they are ranged in |
| `Encoder.StructFieldsSorted` | value_helper.go:485-492 | with NUL-free keys the field names are the keys in strictly increasing order, each once |
| `Encoder.GoValueToKuzuValue` | value_helper.go:571-624 | the type switch computes the encoding |
| `Encoder.GoSliceToKuzuList` | value_helper.go:548-568 | the slice loop computes the list encoding |
| `Encoder.GoMapToKuzuStruct` | value_helper.go:478-510 | collect, sort, and convert in key order computes the struct encoding |
| `Encoder.FieldFailureAborts` | value_helper.go:493-502 | a failed value makes the struct fail with that error, wrapped |
| `Encoder.StructFromFieldValues` | value_helper.go:504-509 | once every value encodes, the struct is what the engine makes of the names and values |
| `Encoder.SortMapKeys` | value_helper.go:485-492 | the collected and sorted keys are the map's keys in increasing order |
| `Encoder.CollectKeys` | value_helper.go:485-488 | ranging over the map collects every key exactly once |
| `Encoder.FieldFailureSticks` | value_helper.go:493-502 | once a value fails, no later key changes the error |
| `Encoder.GoSliceOfMapItemsToKuzuMap` | value_helper.go:516-543 | the item loop computes the map encoding |
| `Encoder.ItemFailureSticks` | value_helper.go:523-537 | once a key or value fails, no later item changes the error |
| `KeyOrder.SortStrings` | value_helper.go:492 | `sort.Strings` leaves the same strings in non-decreasing order |
| `KeyOrder.SortedKeys` | value_helper.go:489-492 | the keys of a set in strictly increasing order, each key once |
| `KeyOrder.SortedFromSet` | value_helper.go:485-492 | sorting keys collected in any order gives the same sequence |
| `RoundTrip.EncodeDecodeRoundTrip` | value_helper.go:571-624 | decoding an encoded value gives it back, normalised: `int`/`uint` widened, strings cut at NUL, durations truncated to microseconds |
| `RoundTrip.ScalarRoundTrip` | value_helper.go:577-613 | the round trip for every accepted scalar |
| `RoundTrip.TimeRoundTrip` | value_helper.go:605-610 | an int64 time comes back exactly on either timestamp flavour |
| `RoundTrip.StrRoundTrip` | value_helper.go:603-604 | a string comes back cut at its first NUL |
| `RoundTrip.DurationRoundTrip` | value_helper.go:611-613 | a duration comes back truncated to whole microseconds |
| `RoundTrip.ListRoundTrip` | value_helper.go:548-568 | a slice comes back element by element |
| `RoundTrip.StructRoundTrip` | value_helper.go:478-510 | a map with NUL-free keys comes back as the same map, values normalised |
| `RoundTrip.MapRoundTrip` | value_helper.go:516-543 | a MapItem slice comes back item by item in order |
| `Binding.CallsOf` | connection.go:117-165 | binding one parameter makes at most one native call: the null bind for nil, the typed bind with the switch's type and payload, none for an unsupported value or a panic |
| `Binding.BindAgreesWithEncoding` | connection.go:126-165 | the bind switch and the encoder agree on every value but `int` and composites: same null, same type tag and payload, same refusals |
| `Binding.UnsupportedMakesNoCall` | connection.go:163-164 | an unlisted type (composites included) makes no call and fails with "unsupported type"; a Go `int` makes no call and panics |
| `Binding.StatusDecidesBind` | connection.go:166-168 | a supported value makes one call for the key as C sees it; the bind succeeds exactly when that call does, otherwise the error carries its status |
| `Binding.UnsignedBindsAsUint64` | connection.go:141-144 | `uint` and `uint64` both bind as UINT64 with the same payload |
| `Binding.ExecuteOnlyWhenAllBound` | connection.go:94-109 | the statement is executed exactly when every bind succeeds; a run ends normally exactly when also the engine reports no error |
| `Binding.RunCallsBound` | connection.go:94-109 | a run makes at most one call per key plus the execution |
| `Binding.RunAfterBoundPrefix` | connection.go:94-99 | after keys that all bind, the run continues as the rest of the order runs |
| `Binding.StopAtFailedBind` | connection.go:95-98 | a failed bind ends the run with its error; nothing after it is bound or executed |
| `Binding.AllBound` | connection.go:100-109 | when every key binds, the statement is executed after the binds |
| `Binding.CompleteOrder` | connection.go:94 | the keys visited followed by the others form an iteration order of the map |
| `Binding.FinishRun` | connection.go:94-109 | where the bind loop stops is a run of the binds over an iteration order |
| `Binding.Connection.Close` | connection.go:37-43 | the connection is closed afterwards, and the native destroy happens only if it was open |
| `Binding.Connection.BindParameter` | connection.go:113-170 | appends exactly the plan's calls and ends as the plan and the engine's status say |
| `Binding.Connection.BindArguments` | connection.go:94-99 | the loop visits distinct keys and stops at the first bind that fails, or binds every key |
| `Binding.Connection.Execute` | connection.go:91-110 | for some iteration order of the map, outcome and calls are exactly those of running the binds in that order |
| `Results.GoStrings` | query_result.go:60 | each engine string after `C.GoString`, same length and order, NUL-free |
| `Results.NameQueries` | query_result.go:56-61 | one column-name request per index, in increasing order |
| `Results.NumberOfRowsAsWritten` | query_result.go:72-77 | the tuple count while the cache is nil, the cache's length once filled |
| `Results.RowCountReportsColumns` | query_result.go:72-77 | with two cached column names and five tuples the row count answers 2 |
| `Results.RowCountDependsOnCache` | query_result.go:72-77 | as written, the cache changes the answer exactly when the column and tuple counts differ |
| `Results.QueryResult.Close` | query_result.go:35-41 | the result is closed afterwards; the native destroy happens only if it was open |
| `Results.QueryResult.GetColumnNames` | query_result.go:50-64 | the engine's names in column order; the first call asks for the count and each name, later calls ask nothing |
| `Results.QueryResult.GetNumberOfColumns` | query_result.go:67-69 | always asks the engine and ignores the cache |
| `Results.QueryResult.GetNumberOfRows` | query_result.go:72-77 | the tuple count while the cache is nil, the column count once it is filled |
| `Results.QueryResult.NumberOfRows` | query_result.go:71 | the documented row count: the engine's tuple count whatever the cache holds |
| `SqlDriver.ScanDigitsCorrect` | driver.go:365 | the digit loop of `ParseUint` from any point: success, range error and syntax error exactly as the whole-string lemma says |
| `SqlDriver.ParseUintCorrect` | driver.go:365-368 | `ParseUint(s, 10, 64)` accepts exactly non-empty decimal digit strings below 2^64, with their value; overflow of the leading digits is a range error, anything else a syntax error |
| `SqlDriver.Parse` | driver.go:361-371 | a value handed to the setter always fits in 64 bits |
| `SqlDriver.ParseCorrect` | driver.go:361-371 | "" and only "" leaves the setting alone; a digit string within 64 bits sets its decimal value; anything else returns `ParseUint`'s own error without calling the setter |
| `SqlDriver.Get` | driver.go:62 | a missing parameter reads as ""; otherwise its first value |
| `SqlDriver.FirstParamErrorIsFirst` | driver.go:62-86 | the reported error is that of the earliest parameter that fails to parse, and there is one exactly when some parameter fails |
| `SqlDriver.ParamErrorsInOrder` | driver.go:62-86 | the parameters are checked in the order poolSize, threads, dbSize, compression, readOnly |
| `SqlDriver.NoParametersKeepDefaults` | driver.go:61-86 | without parameters nothing fails and every setting keeps the engine's default |
| `SqlDriver.OpenConnector` | driver.go:60-86 | fails with the first parameter error; otherwise sizes take the given value, flags are true exactly when the value is 1, absent ones keep defaults |
| `SqlDriver.NamedValuesOf` | driver.go:238-250 | succeeds exactly when every argument is named, with ordinals from 1; otherwise "only support named arguments" |
| `SqlDriver.ToNamedValues` | driver.go:267-279 | the conversion loop computes the named values |
| `SqlDriver.ArgMap` | driver.go:221-224 | the map's keys are exactly the argument names |
| `SqlDriver.LastArgumentWins` | driver.go:255-258 | each name maps to the value of its last occurrence |
| `SqlDriver.BuildArgMap` | driver.go:255-258 | the map-building loop computes that map |
| `SqlDriver.Int64FromUint64` | driver.go:234 | Go's `int64(uint64)`: unchanged below 2^63, wrapped by 2^64 above |
| `SqlDriver.ExecContext` | driver.go:220-236 | executes over the argument map; on success rows affected is the engine's tuple count as int64 |
| `SqlDriver.QueryContext` | driver.go:254-265 | executes over the argument map; a fresh result with an empty cache exactly on success |
| `SqlDriver.Exec` | driver.go:238-252 | an unnamed argument is refused before any engine call; otherwise as `ExecContext` over the named values |
| `SqlDriver.Query` | driver.go:267-281 | an unnamed argument is refused before any engine call; otherwise as `QueryContext` over the named values |
| `SqlDriver.RowSetNext` | driver.go:309-331 | EOF without a next row; the row's error otherwise; else the first min(len(dest), len(values)) slots are copied and the rest are untouched |

## Left out

- Memory management is not modelled: the destroy calls on values, strings and tuples, `defer`, finalizers, and `C.free`. Neither is the C string `goMapToKuzuStruct` allocates per field name and never frees (value_helper.go:501).
- Floating-point values that the codec passes through are opaque bit patterns (`FloatBits`). The one float64 computation of the core, `timeToKuzuDate`'s, is modelled on reals with round-to-nearest-even; overflow to infinity is not, since its values stay below 2^22.
- Time zones (`time.Location`) are not modelled: a Go time is its instant, `UnixNano`. `kuzuDateToTime` returns a UTC time (time_helper.go:29) and the TIMESTAMP cases return local time through `time.Unix` (value_helper.go:367). Go's `==` on `time.Time` also compares the location, so two times equal in the model can differ under `==`; the round trips hold for the instant.
- `Values.KuzuNode` and `Values.KuzuRel` hold a typed id and label, so the assertions `nodeId.(InternalID)` and `nodeLabel.(string)` (value_helper.go:66, 71, 104, 108, 113) always succeed in the model. In the code they panic when the id or label value does not decode to that type, for instance when its accessor fails and the decoded value is nil.
- `Decoder.PathDecodingNeverFails`: a RECURSIVE_REL holds typed node and relationship lists, so the assertions `n.(Node)` and `r.(Relationship)` (value_helper.go:152, 156) always succeed in the model. In the code a null element decodes to nil (value_helper.go:252-254) and that assertion panics.
- Go strings are byte sequences and may hold invalid UTF-8; a Dafny `string` is a sequence of Unicode characters, so such keys and values cannot be written in the model. `KeyOrder.Less` agrees with `sort.Strings`' byte order only on valid UTF-8, where byte order and code point order coincide.
- `url.Parse` is not part of this model. `OpenConnector` takes the parsed query parameters and returns the configuration the database would be opened with. `OpenDatabase`, `Connect` and the connector cache with its `RWMutex` (driver.go:99-117) are left out, as concurrency and foreign calls.
- database.go, prepared_statement.go and flat_tuple.go are not part of this model. The default `SystemConfig` comes from the engine and is a parameter; `GetAsSlice` and the rows of a result are the inputs of `RowSetNext`.
- Go's int64 wrap-around in the time arithmetic (`UnixNano` of far dates, `kuzuDateToTime` beyond 106751 days, `kuzuIntervalToDuration` overflow) is not modelled: integers are unbounded. The round trips state their int64 hypotheses instead, and `AsWrittenDateOfDate` requires the ±106751-day range (`DateTimeIsInt64`).
- `Temporal.KuzuDateToTime`: `time.Duration(days) * 24 * time.Hour` (time_helper.go:28) wraps around int64 beyond ±106751 days, so a DATE further out decodes to a wrong time in Go (106752 gives a time dated -106752). The model multiplies unbounded integers, so its ensures, and the DATE case of `Decoder.DecodeScalar`, hold there only because the model does not wrap.
- A Go time is modelled by its `UnixNano`, so times more than about 292 years from the epoch are not represented. For those, `inputTime.Sub(unixEpoch())` (time_helper.go:19) saturates at the largest or smallest `Duration` instead of wrapping, and `timeToKuzuDate` answers 106751 days for the largest and -106752 for the smallest.
- The element count an ARRAY type declares is taken to equal the size of the value's list. The engine guarantees it, and the binding never reads it separately.
- Error texts are the `Error` datatype's constructors, not formatted strings. `fmt.Errorf(C.GoString(cErrMsg))` would treat `%` in the engine's message as a verb; the model keeps the message as it is.
- `Connection.Execute`'s returned `*QueryResult` and its finalizer are not modelled; an execution's outcome and its native calls are.
- `ExecContext`: `release(rs)` on an error path and the deferred `rs.Close()` are not recorded beyond the `QueryResult`'s own log.
- `QueryResult.ToString`, `ResetIterator`, `HasNext`, `Next` and the timing accessors are native calls outside the model.
- `Results.QueryResult.GetColumnNames`: the `int64` conversion of the engine's `uint64` column count is not modelled; a count of 2^63 or more would make `make` panic.
- `SqlDriver.ExecContext`: only the answer of `GetNumberOfRows` on the fresh result is stated. The `resultSet` it is wrapped in has no further behaviour.

## Findings

| source | as written | input that shows it | evidently intended | confidence | as-written member | corrected member |
|---|---|---|---|---|---|---|
| query_result.go:72-77 | once `columnNames` is filled, `GetNumberOfRows` returns `uint64(len(queryResult.columnNames))`, the number of columns | a result with columns `name`, `age` and 5 tuples, after `GetColumnNames`: answers 2 | the number of tuples from `kuzu_query_result_get_num_tuples`, as the doc comment says, whatever the cache holds | high (not executed) | `Results.RowCountReportsColumns` | `Results.QueryResult.NumberOfRows` |
| time_helper.go:18-24 | the day count is `math.Floor(diff.Hours() / 24)` in float64, and `Hours()` rounds the hour count to the nearest double | 20000 days minus 1 ns after the epoch: dated 20000; -20000 days minus 1 ns: dated -20000 | the whole days elapsed, rounded down: 19999 and -20001 | medium (not executed) | `Temporal.DateRoundsUpBeforeMidnight` | `Temporal.TimeToKuzuDate` |

`ExecContext` calls `GetNumberOfRows` on a fresh result whose cache is still nil. There the
code as written and the corrected accessor give the same answer, so the driver model keeps
the call the source makes.

No modelled code calls `timeToKuzuDate`. The date facts hold for both: date to time to date
is the identity (`KuzuDateToTime` for the intended count, `AsWrittenDateOfDate` for the float64
one), and the count fits int32 (`DateFitsInt32`, `AsWrittenDateFitsInt32`). The two counts are
never more than a day apart (`AsWrittenWithinADay`). `DateOfTimeIsMidnight` is stated for the
intended count only, and `DateRoundsUpBeforeMidnight` shows where the float64 one departs.

=== FILE: binary64.dfy ===
/**
 * IEEE 754 binary64 ("float64") rounding, as far as the date codec needs it:
 * an exact real result is rounded to the nearest double, ties to even.
 * Overflow to infinity is not modelled; the values rounded here stay far
 * below 2^1024.
 */
module Binary64 {

  /** Two to the power `n`, for a natural `n`. */
  function Pow2Nat(n: nat): (p: nat)
    ensures p > 0
  {
    if n == 0 then 1 else 2 * Pow2Nat(n - 1)
  }

  /** Two to the power `e`, for any integer `e`. */
  function Pow2(e: int): (p: real)
    ensures p > 0.0
  {
    if e >= 0 then Pow2Nat(e) as real else 1.0 / Pow2Nat(-e) as real
  }

  function Abs(x: real): real {
    if x < 0.0 then -x else x
  }

  /** The smallest exponent of a normal double; below it the spacing stays fixed (subnormals). */
  const MinExponent: int := -1022

  /**
   * The exponent of a positive `x`: the `k` with `2^k <= x < 2^(k+1)`, found by halving or
   * doubling `x` at most `fuel` times.
   */
  function Exponent(x: real, fuel: nat): int
    decreases fuel
  {
    if fuel == 0 || x <= 0.0 then 0
    else if 2.0 <= x then Exponent(x / 2.0, fuel - 1) + 1
    else if x < 1.0 then Exponent(x * 2.0, fuel - 1) - 1
    else 0
  }

  /** Enough halvings or doublings for every finite double. */
  const ExponentFuel: nat := 1100

  /** The distance between consecutive doubles around `x`: 52 binary places below its leading bit. */
  function Ulp(x: real): (u: real)
    ensures u > 0.0
  {
    var k := Exponent(Abs(x), ExponentFuel);
    Pow2((if k < MinExponent then MinExponent else k) - 52)
  }

  /** The integer nearest to `y`, ties to the even one. */
  function RoundHalfEven(y: real): (n: int)
    ensures Abs(y - n as real) <= 0.5
  {
    var f := y.Floor;
    var frac := y - f as real;
    if frac < 0.5 then f
    else if frac > 0.5 then f + 1
    else if f % 2 == 0 then f
    else f + 1
  }

  /** The multiple of `u` nearest to `x`, ties to the even multiple. */
  function RoundToMultiple(x: real, u: real): real
    requires u > 0.0
  {
    RoundHalfEven(x / u) as real * u
  }

  /** The double nearest to `x`: a whole multiple of the spacing around `x`. */
  function RoundToDouble(x: real): real
  {
    RoundToMultiple(x, Ulp(x))
  }

  // ---------------------------------------------------------------- lemmas

  /** Rounding moves a value by at most half the spacing of doubles around it. */
  lemma RoundingError(x: real)
    ensures Abs(x - RoundToDouble(x)) <= Ulp(x) / 2.0
  {
    MultipleError(x, Ulp(x));
  }

  /** Rounding to a multiple of `u` moves a value by at most half of `u`. */
  lemma MultipleError(x: real, u: real)
    requires u > 0.0
    ensures Abs(x - RoundToMultiple(x, u)) <= u / 2.0
  {
    ScaledError(x, u, RoundHalfEven(x / u) as real);
  }

  /** Rounding `x / u` to within a half moves `x` by at most half of `u`. */
  lemma ScaledError(x: real, u: real, n: real)
    requires u > 0.0
    requires Abs(x / u - n) <= 0.5
    ensures Abs(x - n * u) <= u / 2.0
  {
    var y := x / u;
    assert x == y * u;
    assert x - n * u == (y - n) * u;
    if y - n < 0.0 {
      assert Abs(x - n * u) == (n - y) * u;
    } else {
      assert Abs(x - n * u) == (y - n) * u;
    }
  }

  /** An integer closer than a half to `y` is the one `y` rounds to. */
  lemma NearestIsUnique(y: real, n: int)
    requires Abs(y - n as real) < 0.5
    ensures RoundHalfEven(y) == n
  {
    if y < n as real {
      assert y.Floor == n - 1;
    } else {
      assert y.Floor == n;
    }
  }

  /**
   * A value with leading bit `2^k` lies closer than half a spacing `u = 2^(k-52)` to exactly
   * one multiple `n * u`; that multiple is the double it rounds to.
   */
  lemma RoundsTo(x: real, k: int, u: real, n: int)
    requires MinExponent <= k <= ExponentFuel
    requires Pow2(k) <= Abs(x) < Pow2(k + 1)
    requires u == Pow2(k - 52)
    requires Abs(x - n as real * u) < u / 2.0
    ensures RoundToDouble(x) == n as real * u
  {
    UlpIs(x, k);
    NearestMultiple(x, u, n);
  }

  /** A multiple of the spacing around `x` closer than half a spacing is the double `x` rounds to. */
  lemma NearestMultiple(x: real, u: real, n: int)
    requires Ulp(x) == u
    requires Abs(x - n as real * u) < u / 2.0
    ensures RoundToDouble(x) == n as real * u
  {
    ScaledClose(x, u, n as real);
    MultipleIs(x, u, n);
  }

  /** The spacing around a value with leading bit `2^k` is `2^(k-52)`. */
  lemma UlpIs(x: real, k: int)
    requires MinExponent <= k <= ExponentFuel
    requires Pow2(k) <= Abs(x) < Pow2(k + 1)
    ensures Ulp(x) == Pow2(k - 52)
  {
    ExponentIs(Abs(x), k, ExponentFuel);
  }

  /** Closer than half of `u` to `n * u` means closer than a half to `n` after dividing by `u`. */
  lemma ScaledClose(x: real, u: real, n: real)
    requires u > 0.0
    requires Abs(x - n * u) < u / 2.0
    ensures Abs(x / u - n) < 0.5
  {
    var e := x / u - n;
    assert x - n * u == e * u;
    HalfBound(e, u);
  }

  /** Scaling by a positive `u` keeps a bound of a half relative to `u`. */
  lemma HalfBound(e: real, u: real)
    requires u > 0.0
    requires Abs(e * u) < u / 2.0
    ensures Abs(e) < 0.5
  {
    if e < 0.0 {
      assert (-e) * u == -(e * u);
      assert (-e - 0.5) * u < 0.0;
    } else {
      assert (e - 0.5) * u < 0.0;
    }
  }

  /** A multiple of `u` closer than half of `u` to `x` is the one `x` rounds to. */
  lemma MultipleIs(x: real, u: real, n: int)
    requires u > 0.0
    requires Abs(x / u - n as real) < 0.5
    ensures RoundToMultiple(x, u) == n as real * u
  {
    NearestIsUnique(x / u, n);
  }

  /** Below 2^53 the spacing of doubles is one over a power of two `p`, so at most 1. */
  lemma SmallUlp(x: real) returns (p: nat)
    requires Abs(x) < Pow2Nat(53) as real
    ensures p > 0 && Ulp(x) == 1.0 / p as real
    ensures Ulp(x) <= 1.0
  {
    var k := Exponent(Abs(x), ExponentFuel);
    if Abs(x) > 0.0 {
      ExponentBelow(Abs(x), 53, ExponentFuel);
    }
    var e := (if k < MinExponent then MinExponent else k) - 52;
    assert Ulp(x) == Pow2(e);
    p := Pow2NonPositive(e);
  }

  /** A power of two with a non-positive exponent is one over a natural power, at most 1. */
  lemma Pow2NonPositive(e: int) returns (p: nat)
    requires e <= 0
    ensures p > 0 && Pow2(e) == 1.0 / p as real
    ensures Pow2(e) <= 1.0
  {
    p := Pow2Nat(-e);
    if e == 0 {
      assert Pow2Nat(0) == 1;
    }
    assert 1.0 <= p as real;
    assert p as real * (1.0 / p as real) == 1.0;
  }

  /** A positive value below `2^b` has an exponent below `b`. */
  lemma {:induction false} ExponentBelow(x: real, b: nat, fuel: nat)
    requires 1 <= b
    requires 0.0 < x < Pow2Nat(b) as real
    ensures Exponent(x, fuel) <= b - 1
    decreases fuel
  {
    if fuel > 0 {
      assert Pow2Nat(1) == 2;
      if 2.0 <= x {
        assert Pow2Nat(b) == 2 * Pow2Nat(b - 1);
        ExponentBelow(x / 2.0, b - 1, fuel - 1);
      } else if x < 1.0 {
        ExponentBelow(x * 2.0, 1, fuel - 1);
      }
    }
  }

  /** Below 2^53 rounding moves a value by at most a half. */
  lemma RoundingBound(x: real)
    requires -9_007_199_254_740_992.0 < x < 9_007_199_254_740_992.0
    ensures x - 0.5 <= RoundToDouble(x) <= x + 0.5
  {
    PowersOfTwo();
    RoundingError(x);
    var _ := SmallUlp(x);
  }

  /** Every integer below 2^53 in magnitude is a double: rounding leaves it unchanged. */
  lemma IntegerIsDouble(m: int)
    requires -9_007_199_254_740_992 < m < 9_007_199_254_740_992
    ensures RoundToDouble(m as real) == m as real
  {
    PowersOfTwo();
    var p := SmallUlp(m as real);
    WholeOverPower(m, p);
  }

  /** An integer is a whole multiple of `1 / p`, so rounding to that spacing keeps it. */
  lemma WholeOverPower(m: int, p: nat)
    requires p > 0
    ensures RoundToMultiple(m as real, 1.0 / p as real) == m as real
  {
    var u := 1.0 / p as real;
    WholeMultiple(m, p, u);
    ExactMultiple(m as real, u, m * p);
  }

  /** `m` is `m * p` times `1 / p`. */
  lemma WholeMultiple(m: int, p: nat, u: real)
    requires p > 0 && u == 1.0 / p as real
    ensures m as real == (m * p) as real * u
  {
    assert (m * p) as real == m as real * p as real;
    assert p as real * (1.0 / p as real) == 1.0;
  }

  /** A whole multiple of `u` rounds to itself. */
  lemma ExactMultiple(x: real, u: real, n: int)
    requires u > 0.0
    requires x == n as real * u
    ensures RoundToMultiple(x, u) == x
  {
    assert x / u == n as real;
    NearestIsUnique(x / u, n);
  }

  lemma {:induction false} Pow2Monotone(a: int, b: int)
    requires a <= b
    ensures Pow2(a) <= Pow2(b)
    decreases b - a
  {
    if a < b {
      Pow2Monotone(a, b - 1);
      Pow2Step(b - 1);
    }
  }

  lemma Pow2Step(e: int)
    ensures Pow2(e) < Pow2(e + 1)
  {
    if e < 0 {
      assert Pow2Nat(-e) == 2 * Pow2Nat(-e - 1);
    }
  }

  /** A value between `2^k` and `2^(k+1)` has exponent `k`, given fuel for `|k|` steps. */
  lemma {:induction false} ExponentIs(x: real, k: int, fuel: nat)
    requires Pow2(k) <= x < Pow2(k + 1)
    requires -(fuel as int) <= k <= fuel
    ensures Exponent(x, fuel) == k
    decreases fuel
  {
    Pow2Step(k);
    if k > 0 {
      Pow2Half(k);
      Pow2Half(k + 1);
      Pow2Monotone(0, k - 1);
      ExponentIs(x / 2.0, k - 1, fuel - 1);
    } else if k < 0 {
      Pow2Half(k + 1);
      Pow2Half(k + 2);
      Pow2Monotone(k + 1, 0);
      ExponentIs(x * 2.0, k + 1, fuel - 1);
    } else {
      assert Pow2(0) == 1.0 && Pow2(1) == 2.0;
    }
  }

  lemma Pow2Half(e: int)
    ensures Pow2(e - 1) == Pow2(e) / 2.0
  {
    if e <= 0 {
      assert Pow2Nat(-(e - 1)) == 2 * Pow2Nat(-e);
    } else {
      assert Pow2Nat(e) == 2 * Pow2Nat(e - 1);
    }
  }

  /** The powers of two that give the spacing of doubles up to 2^20 and down to 2^-94. */
  lemma PowersOfTwo()
    ensures Pow2Nat(1) == 2 && Pow2Nat(14) == 16384 && Pow2Nat(15) == 32768
    ensures Pow2Nat(18) == 262144 && Pow2Nat(19) == 524288
    ensures Pow2Nat(34) == 17_179_869_184 && Pow2Nat(38) == 274_877_906_944
    ensures Pow2Nat(41) == 2_199_023_255_552 && Pow2Nat(42) == 4_398_046_511_104
    ensures Pow2Nat(53) == 9_007_199_254_740_992
    ensures Pow2Nat(94) == 19_807_040_628_566_084_398_385_987_584
  {
    assert Pow2Nat(1) == 2;
    Pow2Sum(1, 1);
    assert Pow2Nat(2) == 4;
    Pow2Sum(2, 1);
    assert Pow2Nat(3) == 8;
    Pow2Sum(3, 3);
    assert Pow2Nat(6) == 64;
    Pow2Sum(6, 6);
    assert Pow2Nat(12) == 4096;
    Pow2Sum(12, 2);
    assert Pow2Nat(14) == 16384;
    Pow2Sum(14, 1);
    Pow2Sum(12, 6);
    assert Pow2Nat(18) == 262144;
    Pow2Sum(18, 1);
    Pow2Sum(14, 3);
    assert Pow2Nat(17) == 131072;
    Pow2Sum(17, 17);
    assert Pow2Nat(34) == 17_179_869_184;
    Pow2Sum(34, 2);
    assert Pow2Nat(36) == 68_719_476_736;
    Pow2Sum(36, 2);
    assert Pow2Nat(38) == 274_877_906_944;
    Pow2Sum(38, 3);
    assert Pow2Nat(41) == 2_199_023_255_552;
    Pow2Sum(41, 1);
    assert Pow2Nat(42) == 4_398_046_511_104;
    Pow2Sum(41, 12);
    assert Pow2Nat(53) == 9_007_199_254_740_992;
    Pow2Sum(53, 41);
  }

  lemma {:induction false} Pow2Sum(a: nat, b: nat)
    ensures Pow2Nat(a + b) == Pow2Nat(a) * Pow2Nat(b)
    decreases b
  {
    if b > 0 {
      Pow2Sum(a, b - 1);
      calc {
        Pow2Nat(a + b);
        2 * Pow2Nat(a + b - 1);
        2 * (Pow2Nat(a) * Pow2Nat(b - 1));
        Pow2Nat(a) * (2 * Pow2Nat(b - 1));
        Pow2Nat(a) * Pow2Nat(b);
      }
    }
  }
}

=== FILE: connection.dfy ===
/**
 * Binding the parameters of a prepared statement (`Connection.bindParameter`,
 * `Connection.Execute`) and closing a connection (`Connection.Close`).
 *
 * The engine is seen only through the calls the binding makes on it: the
 * connection keeps a log of them, and the status the engine answers each bind
 * call with is a parameter. Binding does not go through the value encoder: it
 * has its own type switch, with one typed bind call per supported Go type.
 */
module Binding {
  import opened Wrappers
  import opened Temporal
  import opened Values
  import opened KeyOrder
  import Encoder

  /** The native calls a connection makes, in the order it makes them. */
  datatype NativeCall =
    | BindNull(key: string)                                      // bind_value with a fresh null value
    | Bind(key: string, tag: ScalarTypeId, payload: Payload)     // the typed bind_<tag> call
    | ExecuteStatement                                           // kuzu_connection_execute
    | DestroyConnection                                          // kuzu_connection_destroy

  /** How a Go call ends: normally, by returning an error, or by panicking. */
  datatype Outcome = Ok | Err(error: Error) | Panic

  /** What `bindParameter`'s type switch decides to do with a value. */
  datatype Plan =
    | NullBind
    | TypedBind(tag: ScalarTypeId, payload: Payload)
    | Unsupported
    | Panics          // `case int64, int` asserts `v.(int64)`, which panics for a Go `int`

  /**
   * The branch of `bindParameter`'s type switch a value takes: the typed bind call and its
   * payload for each supported Go type, nothing for the others.
   */
  function PlanOf(value: GoValue): Plan {
    match value
    case Nil => NullBind
    case Str(s) => TypedBind(STRING, TextP(CStr(s)))
    case Bool(b) => TypedBind(BOOL, BoolP(b))
    case Int64(i) => TypedBind(INT64, IntP(i))
    case Int(_) => Panics
    case Int32(i) => TypedBind(INT32, IntP(i))
    case Int16(i) => TypedBind(INT16, IntP(i))
    case Int8(i) => TypedBind(INT8, IntP(i))
    case Uint(u) => TypedBind(UINT64, IntP(u))
    case Uint64(u) => TypedBind(UINT64, IntP(u))
    case Uint32(u) => TypedBind(UINT32, IntP(u))
    case Uint16(u) => TypedBind(UINT16, IntP(u))
    case Uint8(u) => TypedBind(UINT8, IntP(u))
    case Float64(f) => TypedBind(DOUBLE, FloatP(f))
    case Float32(f) => TypedBind(FLOAT, FloatP(f))
    case Time(t) =>
      if TimeHasNanoseconds(t) then TypedBind(TIMESTAMP_NS, IntP(TimeToKuzuTimestampNs(t)))
      else TypedBind(TIMESTAMP, IntP(TimeToKuzuTimestamp(t)))
    case Duration(d) => TypedBind(INTERVAL, IntervalP(DurationToKuzuInterval(d)))
    case _ => Unsupported
  }

  /** The native calls a plan makes for a key: at most one, with the key as C sees it. */
  function CallsOf(key: string, plan: Plan): (calls: seq<NativeCall>)
    ensures |calls| <= 1
    ensures plan.NullBind? ==> calls == [BindNull(CStr(key))]
    ensures plan.TypedBind? ==> calls == [Bind(CStr(key), plan.tag, plan.payload)]
    ensures plan.Unsupported? || plan.Panics? ==> calls == []
  {
    match plan
    case NullBind => [BindNull(CStr(key))]
    case TypedBind(tag, payload) => [Bind(CStr(key), tag, payload)]
    case _ => []
  }

  /** How `bindParameter` ends, given the status the engine answers its call with. */
  function BindOutcome(key: string, value: GoValue, status: NativeCall -> int): Outcome {
    match PlanOf(value)
    case NullBind =>
      var s := status(BindNull(CStr(key)));
      if s == KuzuSuccess then Ok else Err(BindNullFailed(s))
    case TypedBind(tag, payload) =>
      var s := status(Bind(CStr(key), tag, payload));
      if s == KuzuSuccess then Ok else Err(BindFailed(s))
    case Unsupported => Err(BindUnsupportedType)
    case Panics => Panic
  }

  /** The calls binding the keys of `order` in turn make, if every bind succeeds. */
  function BindLog(order: seq<string>, args: map<string, GoValue>): seq<NativeCall>
    requires forall k :: k in order ==> k in args
  {
    if order == [] then []
    else CallsOf(order[0], PlanOf(args[order[0]])) + BindLog(order[1..], args)
  }

  /** How the execution of a fully bound statement ends, given the engine's error message if any. */
  function ExecutionOutcome(reply: Option<string>): Outcome {
    match reply
    case None => Ok
    case Some(message) => Err(QueryFailed(CStr(message)))
  }

  /**
   * `Execute` when the map is ranged over in the order `order`: bind each key in turn,
   * stop at the first bind that does not succeed, and execute only when all did.
   */
  function RunBinds(order: seq<string>, args: map<string, GoValue>, status: NativeCall -> int, reply: Option<string>)
    : (Outcome, seq<NativeCall>)
    requires forall k :: k in order ==> k in args
  {
    if order == [] then (ExecutionOutcome(reply), [ExecuteStatement])
    else
      var key := order[0];
      var outcome := BindOutcome(key, args[key], status);
      var calls := CallsOf(key, PlanOf(args[key]));
      if outcome != Ok then (outcome, calls)
      else
        var rest := RunBinds(order[1..], args, status, reply);
        (rest.0, calls + rest.1)
  }

  /** An order of iteration over a map: each key exactly once. */
  ghost predicate IsIterationOrder(order: seq<string>, keys: set<string>) {
    && |order| == |keys|
    && (forall i, j :: 0 <= i < j < |order| ==> order[i] != order[j])
    && (forall k :: k in order <==> k in keys)
  }

  class Connection {
    var isClosed: bool
    /** The native calls made so far on this connection. */
    var calls: seq<NativeCall>

    constructor ()
      ensures !isClosed && calls == []
    {
      isClosed := false;
      calls := [];
    }

    /** `Close`: destroy the native connection unless it is already closed. */
    method Close()
      modifies this
      ensures isClosed
      ensures calls == if old(isClosed) then old(calls) else old(calls) + [DestroyConnection]
    {
      if isClosed {
        return;
      }
      calls := calls + [DestroyConnection];
      isClosed := true;
    }

    /**
     * `bindParameter`: the type switch (`PlanOf`) picks the bind call for the value's Go type;
     * the call is made with the key as C sees it and its status decides the outcome.
     */
    method BindParameter(key: string, value: GoValue, status: NativeCall -> int) returns (outcome: Outcome)
      modifies this
      ensures calls == old(calls) + CallsOf(key, PlanOf(value))
      ensures outcome == BindOutcome(key, value, status)
      ensures isClosed == old(isClosed)
    {
      var cKey := CStr(key);
      match PlanOf(value) {
        case Panics =>
          return Panic;
        case Unsupported =>
          return Err(BindUnsupportedType);
        case NullBind =>
          var s := status(BindNull(cKey));
          calls := calls + [BindNull(cKey)];
          if s != KuzuSuccess {
            return Err(BindNullFailed(s));
          }
          return Ok;
        case TypedBind(tag, payload) =>
          var s := status(Bind(cKey, tag, payload));
          calls := calls + [Bind(cKey, tag, payload)];
          if s != KuzuSuccess {
            return Err(BindFailed(s));
          }
          return Ok;
      }
    }

    /**
     * `Execute`: bind every argument, in the order the Go runtime ranges over the map,
     * returning at the first bind that fails; execute the statement only after all bound.
     * `order` is that iteration order, and the calls and outcome are `RunBinds` over it.
     */
    method Execute(args: map<string, GoValue>, status: NativeCall -> int, reply: Option<string>)
      returns (outcome: Outcome, ghost order: seq<string>)
      modifies this
      ensures IsIterationOrder(order, args.Keys)
      ensures outcome == RunBinds(order, args, status, reply).0
      ensures calls == old(calls) + RunBinds(order, args, status, reply).1
      ensures isClosed == old(isClosed)
    {
      ghost var visited, rest;
      outcome, visited, rest := BindArguments(args, status);
      FinishRun(visited, rest, args, status, reply, outcome);
      order := visited + SortedKeys(rest);
      if outcome == Ok {
        outcome := ExecutionOutcome(reply);
        calls := calls + [ExecuteStatement];
      }
    }

    /**
     * The argument-binding loop of `Execute`: `visited` holds the keys ranged over, in order,
     * and `rest` the keys never reached; how the loop ended is `Stopped`.
     */
    method BindArguments(args: map<string, GoValue>, status: NativeCall -> int)
      returns (outcome: Outcome, ghost visited: seq<string>, ghost rest: set<string>)
      modifies this
      ensures Stopped(visited, rest, args, status, outcome)
      ensures calls == old(calls) + BindLog(visited, args)
      ensures isClosed == old(isClosed)
    {
      var pending := args.Keys;
      visited := [];
      outcome := Ok;
      while pending != {}
        invariant Progress(visited, pending, args, status)
        invariant calls == old(calls) + BindLog(visited, args)
        invariant isClosed == old(isClosed)
        invariant outcome == Ok
        decreases pending
      {
        var key :| key in pending;
        outcome := BindParameter(key, args[key], status);
        BindStep(visited, key, pending, args, status, outcome);
        visited := visited + [key];
        pending := pending - {key};
        if outcome != Ok {
          rest := pending;
          return;
        }
      }
      rest := pending;
    }
  }

  /** Part way through ranging over a map: `order` holds the keys visited, `rest` the others. */
  ghost predicate Ranged(order: seq<string>, rest: set<string>, keys: set<string>) {
    && rest <= keys
    && (forall k :: k in order ==> k in keys && k !in rest)
    && (forall k :: k in keys ==> k in rest || k in order)
    && (forall i, j :: 0 <= i < j < |order| ==> order[i] != order[j])
  }

  /** Every key visited so far bound successfully. */
  ghost predicate BoundSoFar(order: seq<string>, args: map<string, GoValue>, status: NativeCall -> int) {
    && (forall k :: k in order ==> k in args)
    && (forall i :: 0 <= i < |order| ==> BindOutcome(order[i], args[order[i]], status) == Ok)
  }

  /** The state of the binding loop: the keys visited so far all bound, the others are still to come. */
  ghost predicate Progress(visited: seq<string>, rest: set<string>, args: map<string, GoValue>, status: NativeCall -> int) {
    Ranged(visited, rest, args.Keys) && BoundSoFar(visited, args, status)
  }

  /**
   * How the binding loop ended: either every key was visited and bound, or the last key
   * visited is the first whose bind did not succeed, and `outcome` is how that bind ended.
   */
  ghost predicate Stopped(visited: seq<string>, rest: set<string>, args: map<string, GoValue>,
                          status: NativeCall -> int, outcome: Outcome) {
    && Ranged(visited, rest, args.Keys)
    && if outcome == Ok then rest == {} && BoundSoFar(visited, args, status)
       else
         && |visited| > 0
         && BoundSoFar(visited[..|visited| - 1], args, status)
         && outcome == BindOutcome(visited[|visited| - 1], args[visited[|visited| - 1]], status)
  }

  // ---------------------------------------------------------------- lemmas

  /**
   * The bind dispatch and the value encoder agree on every value the binding accepts:
   * the typed bind call carries exactly the type and payload the encoder would build.
   * They differ only on a Go `int`, which the encoder widens to INT64 but the binding
   * panics on, and on composites, which the encoder builds but the binding refuses.
   */
  lemma BindAgreesWithEncoding(v: GoValue)
    requires !v.Int? && !Encoder.IsComposite(v)
    ensures PlanOf(v) == NullBind <==> Encoder.EncodeScalar(v) == Success(NullValue)
    ensures PlanOf(v).TypedBind? <==> Encoder.EncodeScalar(v).Success? && Encoder.EncodeScalar(v).value.ScalarValue?
    ensures PlanOf(v).TypedBind? ==>
              Encoder.EncodeScalar(v).value == ScalarValue(PlanOf(v).tag, PlanOf(v).payload)
    ensures PlanOf(v) == Unsupported <==> Encoder.EncodeScalar(v).Failure?
  {
    if v.Time? {
      assert Encoder.EncodeScalar(v) == Success(Encoder.TimeToKuzuValue(v.unixNano));
    }
  }

  /**
   * A value outside the binding's type switch (composites included) makes no native call and
   * ends in the "unsupported type" error; a Go `int` makes no call either and panics.
   */
  lemma UnsupportedMakesNoCall(key: string, v: GoValue, status: NativeCall -> int)
    ensures !Encoder.Bindable(v) ==> CallsOf(key, PlanOf(v)) == [] && BindOutcome(key, v, status) == Err(BindUnsupportedType)
    ensures v.Int? ==> CallsOf(key, PlanOf(v)) == [] && BindOutcome(key, v, status) == Panic
  {
  }

  /**
   * A supported value makes exactly one native call, for the key cut at its first NUL, and the
   * bind succeeds exactly when the engine answers that call with success; otherwise the error
   * carries the engine's status, as a null-bind or a value-bind failure.
   */
  lemma StatusDecidesBind(key: string, v: GoValue, status: NativeCall -> int)
    requires Encoder.Bindable(v) && !v.Int?
    ensures |CallsOf(key, PlanOf(v))| == 1
    ensures CallsOf(key, PlanOf(v))[0].key == CStr(key)
    ensures BindOutcome(key, v, status) == Ok <==> status(CallsOf(key, PlanOf(v))[0]) == KuzuSuccess
    ensures BindOutcome(key, v, status) != Ok ==>
              BindOutcome(key, v, status)
              == Err(if v.Nil? then BindNullFailed(status(CallsOf(key, PlanOf(v))[0]))
                     else BindFailed(status(CallsOf(key, PlanOf(v))[0])))
  {
    assert PlanOf(v).NullBind? || PlanOf(v).TypedBind?;
  }

  /** Both Go `uint` and `uint64` bind as UINT64, with the same payload. */
  lemma UnsignedBindsAsUint64(u: uint64)
    ensures PlanOf(Uint(u)) == PlanOf(Uint64(u)) == TypedBind(UINT64, IntP(u))
  {
  }

  /**
   * The statement is executed exactly when every key in the order binds successfully, and a
   * run ends normally exactly when, in addition, the engine reports no error.
   */
  lemma {:induction false} ExecuteOnlyWhenAllBound(order: seq<string>, args: map<string, GoValue>,
                                                   status: NativeCall -> int, reply: Option<string>)
    requires forall k :: k in order ==> k in args
    ensures ExecuteStatement in RunBinds(order, args, status, reply).1
            <==> forall i :: 0 <= i < |order| ==> BindOutcome(order[i], args[order[i]], status) == Ok
    ensures RunBinds(order, args, status, reply).0 == Ok
            <==> (forall i :: 0 <= i < |order| ==> BindOutcome(order[i], args[order[i]], status) == Ok) && reply.None?
  {
    if order != [] {
      var key := order[0];
      ExecuteOnlyWhenAllBound(order[1..], args, status, reply);
      var calls := CallsOf(key, PlanOf(args[key]));
      assert ExecuteStatement !in calls;
      if BindOutcome(key, args[key], status) == Ok {
        var rest := RunBinds(order[1..], args, status, reply);
        assert ExecuteStatement in calls + rest.1 <==> ExecuteStatement in rest.1;
        forall i | 1 <= i < |order|
          ensures order[i] == order[1..][i - 1]
        {
        }
      }
    }
  }

  /** A run makes at most one bind call per key, plus the execution. */
  lemma {:induction false} RunCallsBound(order: seq<string>, args: map<string, GoValue>,
                                         status: NativeCall -> int, reply: Option<string>)
    requires forall k :: k in order ==> k in args
    ensures |RunBinds(order, args, status, reply).1| <= |order| + 1
  {
    if order != [] {
      RunCallsBound(order[1..], args, status, reply);
    }
  }

  /** Binding one more key appends its call to the log. */
  lemma {:induction false} BindLogSnoc(order: seq<string>, args: map<string, GoValue>, key: string)
    requires forall k :: k in order ==> k in args
    requires key in args
    ensures BindLog(order + [key], args) == BindLog(order, args) + CallsOf(key, PlanOf(args[key]))
  {
    if order == [] {
      assert [key][1..] == [];
    } else {
      assert (order + [key])[1..] == order[1..] + [key];
      BindLogSnoc(order[1..], args, key);
    }
  }

  /** After a prefix of keys that all bind, the run continues exactly as the rest of the order runs. */
  lemma {:induction false} RunAfterBoundPrefix(prefix: seq<string>, suffix: seq<string>, args: map<string, GoValue>,
                                               status: NativeCall -> int, reply: Option<string>)
    requires forall k :: k in prefix ==> k in args
    requires forall k :: k in suffix ==> k in args
    requires forall i :: 0 <= i < |prefix| ==> BindOutcome(prefix[i], args[prefix[i]], status) == Ok
    ensures RunBinds(prefix + suffix, args, status, reply)
         == (RunBinds(suffix, args, status, reply).0, BindLog(prefix, args) + RunBinds(suffix, args, status, reply).1)
  {
    if prefix == [] {
      assert prefix + suffix == suffix;
      assert BindLog(prefix, args) == [];
      assert BindLog(prefix, args) + RunBinds(suffix, args, status, reply).1 == RunBinds(suffix, args, status, reply).1;
    } else {
      var order := prefix + suffix;
      assert order[0] == prefix[0] && order[1..] == prefix[1..] + suffix;
      assert BindOutcome(prefix[0], args[prefix[0]], status) == Ok;
      RunAfterBoundPrefix(prefix[1..], suffix, args, status, reply);
      var r := RunBinds(suffix, args, status, reply);
      var c := CallsOf(prefix[0], PlanOf(args[prefix[0]]));
      assert RunBinds(order[1..], args, status, reply) == (r.0, BindLog(prefix[1..], args) + r.1);
      assert RunBinds(order, args, status, reply) == (r.0, c + (BindLog(prefix[1..], args) + r.1));
      assert BindLog(prefix, args) == c + BindLog(prefix[1..], args);
      assert c + (BindLog(prefix[1..], args) + r.1) == BindLog(prefix, args) + r.1;
    }
  }

  /** A bind that fails after all before it succeeded ends the run: nothing after it is bound or executed. */
  lemma StopAtFailedBind(order: seq<string>, key: string, tail: seq<string>, args: map<string, GoValue>,
                         status: NativeCall -> int, reply: Option<string>)
    requires BoundSoFar(order, args, status)
    requires key in args
    requires forall k :: k in tail ==> k in args
    requires BindOutcome(key, args[key], status) != Ok
    ensures RunBinds(order + [key] + tail, args, status, reply)
         == (BindOutcome(key, args[key], status), BindLog(order, args) + CallsOf(key, PlanOf(args[key])))
  {
    assert order + [key] + tail == order + ([key] + tail);
    RunAfterBoundPrefix(order, [key] + tail, args, status, reply);
  }

  /** When every key binds, the run executes the statement after the binds. */
  lemma AllBound(order: seq<string>, args: map<string, GoValue>, status: NativeCall -> int, reply: Option<string>)
    requires BoundSoFar(order, args, status)
    ensures RunBinds(order, args, status, reply)
         == (ExecutionOutcome(reply), BindLog(order, args) + [ExecuteStatement])
  {
    assert order + [] == order;
    RunAfterBoundPrefix(order, [], args, status, reply);
  }

  /** The keys ranged over so far followed by the others, in any order, make an iteration order. */
  lemma CompleteOrder(order: seq<string>, rest: set<string>, keys: set<string>)
    requires Ranged(order, rest, keys)
    ensures IsIterationOrder(order + SortedKeys(rest), keys)
  {
    var tail := SortedKeys(rest);
    var all := order + tail;
    forall i, j | 0 <= i < j < |all|
      ensures all[i] != all[j]
    {
      if i >= |order| {
        LessIrreflexive(all[i]);
        assert Less(tail[i - |order|], tail[j - |order|]);
      } else if j >= |order| {
        assert all[j] in tail;
      }
    }
    forall k
      ensures k in all <==> k in keys
    {
      if k in keys && k !in order {
        assert k in tail;
      }
    }
    IterationOrderFromParts(all, keys);
  }

  /** One turn of the binding loop: the key's calls join the log, and the loop goes on or stops. */
  lemma BindStep(visited: seq<string>, key: string, rest: set<string>, args: map<string, GoValue>,
                 status: NativeCall -> int, outcome: Outcome)
    requires Progress(visited, rest, args, status) && key in rest
    requires outcome == BindOutcome(key, args[key], status)
    ensures BindLog(visited + [key], args) == BindLog(visited, args) + CallsOf(key, PlanOf(args[key]))
    ensures outcome == Ok ==> Progress(visited + [key], rest - {key}, args, status)
    ensures outcome != Ok ==> Stopped(visited + [key], rest - {key}, args, status, outcome)
  {
    BindLogSnoc(visited, args, key);
    RangedStep(visited, key, rest, args.Keys);
    if outcome == Ok {
      BoundStep(visited, key, args, status);
    } else {
      InitLast(visited + [key]);
    }
  }

  /** A non-empty sequence is its prefix without the last element, then that element. */
  lemma InitLast(s: seq<string>)
    requires |s| > 0
    ensures s[..|s| - 1] + [s[|s| - 1]] == s
    ensures (s[..|s| - 1] + [s[|s| - 1]])[..|s| - 1] == s[..|s| - 1]
  {
  }

  /** Visiting one more key moves it from the keys still to come to the keys ranged over. */
  lemma RangedStep(visited: seq<string>, key: string, rest: set<string>, keys: set<string>)
    requires Ranged(visited, rest, keys) && key in rest
    ensures Ranged(visited + [key], rest - {key}, keys)
  {
  }

  /** A key that binds extends the keys bound so far. */
  lemma BoundStep(visited: seq<string>, key: string, args: map<string, GoValue>, status: NativeCall -> int)
    requires BoundSoFar(visited, args, status) && key in args
    requires BindOutcome(key, args[key], status) == Ok
    ensures BoundSoFar(visited + [key], args, status)
  {
  }

  /**
   * What the binding loop leaves behind is a run of `RunBinds`: the keys visited, followed by
   * those never reached, form an iteration order, and running the binds in that order ends
   * where the loop ended, executing the statement only if every bind succeeded.
   */
  lemma FinishRun(visited: seq<string>, rest: set<string>, args: map<string, GoValue>,
                  status: NativeCall -> int, reply: Option<string>, outcome: Outcome)
    requires Stopped(visited, rest, args, status, outcome)
    ensures IsIterationOrder(visited + SortedKeys(rest), args.Keys)
    ensures RunBinds(visited + SortedKeys(rest), args, status, reply)
         == if outcome == Ok then (ExecutionOutcome(reply), BindLog(visited, args) + [ExecuteStatement])
            else (outcome, BindLog(visited, args))
  {
    CompleteOrder(visited, rest, args.Keys);
    if outcome == Ok {
      assert visited + SortedKeys(rest) == visited;
      AllBound(visited, args, status, reply);
    } else {
      StoppedEarly(visited, SortedKeys(rest), args, status, reply, outcome);
    }
  }

  /** A run over an order whose prefix stops the loop ends with that prefix's failed bind. */
  lemma StoppedEarly(visited: seq<string>, tail: seq<string>, args: map<string, GoValue>,
                     status: NativeCall -> int, reply: Option<string>, outcome: Outcome)
    requires |visited| > 0 && forall k :: k in visited + tail ==> k in args
    requires BoundSoFar(visited[..|visited| - 1], args, status)
    requires outcome != Ok && outcome == BindOutcome(visited[|visited| - 1], args[visited[|visited| - 1]], status)
    ensures RunBinds(visited + tail, args, status, reply) == (outcome, BindLog(visited, args))
  {
    var n := |visited| - 1;
    StopAtFailedBind(visited[..n], visited[n], tail, args, status, reply);
    InitLast(visited);
    BindLogSnoc(visited[..n], args, visited[n]);
  }

  /** A sequence of distinct keys drawn from a set, covering it, is an iteration order of it. */
  lemma IterationOrderFromParts(order: seq<string>, keys: set<string>)
    requires forall i, j :: 0 <= i < j < |order| ==> order[i] != order[j]
    requires forall k :: k in order <==> k in keys
    ensures IsIterationOrder(order, keys)
  {
    DistinctLength(order, keys);
  }

  lemma {:induction false} DistinctLength(order: seq<string>, keys: set<string>)
    requires forall i, j :: 0 <= i < j < |order| ==> order[i] != order[j]
    requires forall k :: k in order <==> k in keys
    ensures |order| == |keys|
    decreases |order|
  {
    if order != [] {
      var last := order[|order| - 1];
      var init := order[..|order| - 1];
      forall k
        ensures k in init <==> k in keys - {last}
      {
        if k in init {
          var i :| 0 <= i < |init| && init[i] == k;
          assert order[i] == k;
        }
        if k in keys - {last} {
          var i :| 0 <= i < |order| && order[i] == k;
          assert i < |order| - 1;
          assert init[i] == k;
        }
      }
      DistinctLength(init, keys - {last});
    } else {
      assert forall k :: k !in keys;
      assert keys == {};
    }
  }
}

=== FILE: decoder.dfy ===
/**
 * Decoding an engine value into a Go value (`kuzuValueToGoValue` and its
 * helpers for nodes, relationships, paths, lists, structs and maps).
 *
 * Go returns a value and an error side by side, and several branches return
 * both a usable value and an error: a composite whose children failed keeps
 * every child it decoded, and an unsupported type is force-cast to its text.
 * `Decoded` keeps both halves.
 *
 * The functions are the specification; the methods further down mirror the
 * source's loops and are proved equal to them.
 */
module Decoder {
  import opened Wrappers
  import opened Temporal
  import opened Values

  /** `if len(errors) > 0 { ... fmt.Errorf("failed to get values: %v", errors) }`. */
  function Aggregate(errs: seq<Error>): (r: Option<Error>)
    ensures r.None? <==> errs == []
    ensures r.Some? ==> r.value == ChildrenFailed(errs)
  {
    if |errs| > 0 then Some(ChildrenFailed(errs)) else None
  }

  /** The error of one child, appended to the list when there is one. */
  function ErrorsOf(err: Option<Error>): seq<Error> {
    if err.Some? then [err.value] else []
  }

  /** A scalar accessor that returned a status other than `KuzuSuccess`. */
  function AccessorFailure(accessor: TypeId): (r: Decoded)
    ensures r.value == Nil && r.err == Some(AccessorFailed(accessor, KuzuError))
  {
    Decoded(Nil, Some(AccessorFailed(accessor, KuzuError)))
  }

  /**
   * The scalar cases of `kuzuValueToGoValue`. An accessor succeeds when the payload has the
   * shape (and, for integers, the width) its type id promises; `accessor` in the error names
   * the accessor called, so SERIAL reports the INT64 accessor like INT64 does.
   */
  function DecodeScalar(natives: Natives, tag: ScalarTypeId, p: Payload): (r: Decoded)
    ensures r.err.None? && tag == BOOL ==> r.value.Bool?
    ensures tag == BOOL && p.BoolP? ==> r.err.None? && r.value == Bool(p.b)
    ensures r.err.None? && (tag == INT64 || tag == SERIAL) ==> r.value.Int64? && p == IntP(r.value.i64)
    ensures r.err.None? && tag == STRING ==> r.value.Str? && '\0' !in r.value.s
    ensures r.err.None? && tag == BLOB ==> r.value.Bytes? && 0 !in r.value.bytes
    ensures tag == STRING && p.TextP? ==>
      r.err.None? && r.value.s <= p.s && (|r.value.s| < |p.s| ==> p.s[|r.value.s|] == '\0')
    ensures tag == BLOB && p.BlobP? ==>
      r.err.None? && r.value.bytes <= p.bytes && (|r.value.bytes| < |p.bytes| ==> p.bytes[|r.value.bytes|] == 0)
    ensures r.err.Some? && r.err.value.UnsupportedDataType? ==> r.value.Str?
  {
    match tag
    case BOOL =>
      if p.BoolP? then Decoded(Bool(p.b), None) else AccessorFailure(BOOL)
    case INT64 | SERIAL =>
      if p.IntP? && IsInt64(p.i) then Decoded(Int64(p.i), None) else AccessorFailure(INT64)
    case INT32 =>
      if p.IntP? && IsInt32(p.i) then Decoded(Int32(p.i), None) else AccessorFailure(INT32)
    case INT16 =>
      if p.IntP? && IsInt16(p.i) then Decoded(Int16(p.i), None) else AccessorFailure(INT16)
    case INT8 =>
      if p.IntP? && IsInt8(p.i) then Decoded(Int8(p.i), None) else AccessorFailure(INT8)
    case INT128 =>
      if p.IntP? && IsInt128(p.i) then Int128ToBigInt(natives, p.i) else AccessorFailure(INT128)
    case UUID =>
      if p.TextP? then
        var text := CStr(p.s);
        var (u, ok) := natives.parseUuid(text);
        Decoded(Uuid(u), if ok then None else Some(UuidParseFailed(text)))
      else AccessorFailure(UUID)
    case UINT64 =>
      if p.IntP? && IsUint64(p.i) then Decoded(Uint64(p.i), None) else AccessorFailure(UINT64)
    case UINT32 =>
      if p.IntP? && IsUint32(p.i) then Decoded(Uint32(p.i), None) else AccessorFailure(UINT32)
    case UINT16 =>
      if p.IntP? && IsUint16(p.i) then Decoded(Uint16(p.i), None) else AccessorFailure(UINT16)
    case UINT8 =>
      if p.IntP? && IsUint8(p.i) then Decoded(Uint8(p.i), None) else AccessorFailure(UINT8)
    case DOUBLE =>
      if p.FloatP? then Decoded(Float64(p.f), None) else AccessorFailure(DOUBLE)
    case FLOAT =>
      if p.FloatP? then Decoded(Float32(p.f), None) else AccessorFailure(FLOAT)
    case STRING =>
      if p.TextP? then Decoded(Str(CStr(p.s)), None) else AccessorFailure(STRING)
    case TIMESTAMP =>
      if p.IntP? && IsInt64(p.i) then Decoded(Time(KuzuTimestampToTime(p.i)), None) else AccessorFailure(TIMESTAMP)
    case TIMESTAMP_NS =>
      if p.IntP? && IsInt64(p.i) then Decoded(Time(KuzuTimestampNsToTime(p.i)), None) else AccessorFailure(TIMESTAMP_NS)
    case TIMESTAMP_MS =>
      if p.IntP? && IsInt64(p.i) then Decoded(Time(KuzuTimestampMsToTime(p.i)), None) else AccessorFailure(TIMESTAMP_MS)
    case TIMESTAMP_SEC =>
      if p.IntP? && IsInt64(p.i) then Decoded(Time(KuzuTimestampSecToTime(p.i)), None) else AccessorFailure(TIMESTAMP_SEC)
    case TIMESTAMP_TZ =>
      if p.IntP? && IsInt64(p.i) then Decoded(Time(KuzuTimestampTzToTime(p.i)), None) else AccessorFailure(TIMESTAMP_TZ)
    case DATE =>
      if p.IntP? && IsInt32(p.i) then Decoded(Time(KuzuDateToTime(p.i)), None) else AccessorFailure(DATE)
    case INTERVAL =>
      if p.IntervalP? then Decoded(Duration(KuzuIntervalToDuration(p.interval)), None) else AccessorFailure(INTERVAL)
    case INTERNAL_ID =>
      if p.IdP? then Decoded(Id(p.id), None) else AccessorFailure(INTERNAL_ID)
    case BLOB =>
      // the blob's length is taken with strlen, so it ends at the first zero byte
      if p.BlobP? then Decoded(Bytes(PrefixBefore(p.bytes, 0)), None) else AccessorFailure(BLOB)
    case DECIMAL =>
      if p.TextP? then
        var text := CStr(p.s);
        match natives.parseDecimal(text)
        case Some(d) => Decoded(Decimal(d), None)
        case None => Decoded(Nil, Some(DecimalParseFailed(text)))
      else AccessorFailure(DECIMAL)
    case _ =>
      // ANY, PTR and ids this binding does not know: force-cast to the engine's text
      Decoded(Str(CStr(natives.render(tag, p))), Some(UnsupportedDataType(tag)))
  }

  /**
   * `int128ToBigInt`: through the engine's decimal text and `big.Int.SetString`. Its result
   * is returned as `any`, so a failure's nil `*big.Int` is a non-nil value of that type.
   */
  function Int128ToBigInt(natives: Natives, i: int): (r: Decoded)
    ensures r.value.BigInt? && r.value != Nil
    ensures r.err.None? <==> r.value.n.Some?
    ensures r.err.None? <==> natives.int128ToString(i).Some? && natives.parseBigInt(CStr(natives.int128ToString(i).value)).Some?
  {
    match natives.int128ToString(i)
    case None => Decoded(BigInt(None), Some(Int128ToStringFailed(KuzuError)))
    case Some(text) =>
      match natives.parseBigInt(CStr(text))
      case Some(n) => Decoded(BigInt(Some(n)), None)
      case None => Decoded(BigInt(None), Some(BigIntParseFailed))
  }

  /** `kuzuValueToGoValue`. */
  function DecodeValue(natives: Natives, v: KuzuValue): (r: Decoded)
    decreases v, 2
  {
    match v
    case NullValue => Decoded(Nil, None)
    case ScalarValue(tag, p) => DecodeScalar(natives, tag, p)
    case ListValue(_, elems) => DecodeList(natives, elems)
    case StructValue(_, fields) =>
      var (m, err) := DecodeProperties(natives, fields);
      Decoded(StringMap(m), err)
    case MapValue(entries) => DecodeMap(natives, entries)
    case NodeValue(n) =>
      var (node, err) := DecodeNode(natives, n);
      Decoded(NodeRecord(node), err)
    case RelValue(rel) =>
      var (relationship, err) := DecodeRel(natives, rel);
      Decoded(RelRecord(relationship), err)
    case RecursiveRelValue(nodes, rels) =>
      // the errors of the node and relationship lists are dropped
      Decoded(PathRecord(RecursiveRelationship(
        seq(|nodes|, i requires 0 <= i < |nodes| => DecodeNode(natives, nodes[i]).0),
        seq(|rels|, i requires 0 <= i < |rels| => DecodeRel(natives, rels[i]).0))), None)
  }

  /** Each child decoded on its own, in the engine's order. */
  function DecodeAll(natives: Natives, elems: seq<KuzuValue>): (ds: seq<Decoded>)
    decreases elems, 0
  {
    seq(|elems|, i requires 0 <= i < |elems| => DecodeValue(natives, elems[i]))
  }

  /** `kuzuListValueToGoValue`: every element in order, each value kept even when it failed. */
  function DecodeList(natives: Natives, elems: seq<KuzuValue>): (r: Decoded)
    decreases elems, 1
  {
    var ds := DecodeAll(natives, elems);
    Decoded(Slice(ValuesOf(ds)), Aggregate(ErrorsUpTo(ds, |ds|)))
  }

  /** The values of decoded children, errors or not. */
  function ValuesOf(ds: seq<Decoded>): (r: seq<GoValue>) {
    seq(|ds|, i requires 0 <= i < |ds| => ds[i].value)
  }

  /** The errors the first `n` iterations of a child loop append, in order. */
  function ErrorsUpTo(ds: seq<Decoded>, n: nat): seq<Error>
    requires n <= |ds|
  {
    if n == 0 then [] else ErrorsUpTo(ds, n - 1) + ErrorsOf(ds[n - 1].err)
  }

  /** The field names as they come out of `C.GoString`. */
  function NamesOf(fields: seq<Field>): (names: seq<string>) {
    seq(|fields|, i requires 0 <= i < |fields| => CStr(fields[i].name))
  }

  /** Each field's value decoded on its own. */
  function DecodeFieldValues(natives: Natives, fields: seq<Field>): (ds: seq<Decoded>)
    decreases fields, 0
  {
    seq(|fields|, i requires 0 <= i < |fields| => DecodeValue(natives, fields[i].value))
  }

  /** The map the first `n` iterations of a field loop build: `m[names[i]] = values[i]`. */
  function FieldMapUpTo(names: seq<string>, ds: seq<Decoded>, n: nat): map<string, GoValue>
    requires n <= |names| == |ds|
  {
    if n == 0 then map[] else FieldMapUpTo(names, ds, n - 1)[names[n - 1] := ds[n - 1].value]
  }

  /**
   * The field loop shared by `kuzuStructValueToGoValue` (STRUCT and UNION) and the property
   * loops of nodes and relationships: name to decoded value, the last field of a name winning.
   */
  function DecodeProperties(natives: Natives, fields: seq<Field>): (r: (map<string, GoValue>, Option<Error>))
    decreases fields, 1
  {
    var ds := DecodeFieldValues(natives, fields);
    (FieldMapUpTo(NamesOf(fields), ds, |fields|), Aggregate(ErrorsUpTo(ds, |ds|)))
  }

  /** Each entry's key and value decoded on their own. */
  function DecodeEntryParts(natives: Natives, entries: seq<Entry>): (r: (seq<Decoded>, seq<Decoded>))
    decreases entries, 0
  {
    (seq(|entries|, i requires 0 <= i < |entries| =>
       var e := entries[i]; assert e.key < e; DecodeValue(natives, e.key)),
     seq(|entries|, i requires 0 <= i < |entries| =>
       var e := entries[i]; assert e.value < e; DecodeValue(natives, e.value)))
  }

  /** The errors the first `n` iterations of the map loop append: the key's before the value's. */
  function PairErrorsUpTo(keys: seq<Decoded>, values: seq<Decoded>, n: nat): seq<Error>
    requires n <= |keys| == |values|
  {
    if n == 0 then []
    else PairErrorsUpTo(keys, values, n - 1) + ErrorsOf(keys[n - 1].err) + ErrorsOf(values[n - 1].err)
  }

  /** `kuzuMapValueToGoValue`: one MapItem per entry, in the engine's order. */
  function DecodeMap(natives: Natives, entries: seq<Entry>): (r: Decoded)
    decreases entries, 1
  {
    var (keys, values) := DecodeEntryParts(natives, entries);
    Decoded(MapItems(seq(|entries|, i requires 0 <= i < |entries| => MapItem(keys[i].value, values[i].value))),
            Aggregate(PairErrorsUpTo(keys, values, |entries|)))
  }

  /** `kuzuNodeValueToGoValue`: the id and label as read, the properties like a struct's fields. */
  function DecodeNode(natives: Natives, n: KuzuNode): (r: (Node, Option<Error>))
    decreases n, 2
  {
    var (properties, err) := DecodeProperties(natives, n.props);
    (Node(n.id, CStr(n.labelName), properties), err)
  }

  /** `kuzuRelValueToGoValue`: both end ids, the label, and the properties. */
  function DecodeRel(natives: Natives, rel: KuzuRel): (r: (Relationship, Option<Error>))
    decreases rel, 2
  {
    var (properties, err) := DecodeProperties(natives, rel.props);
    (Relationship(rel.src, rel.dst, CStr(rel.labelName), properties), err)
  }

  // ---------------------------------------------------------------- lemmas

  /** A child loop records no error exactly when no child failed. */
  lemma {:induction false} ErrorsUpToEmpty(ds: seq<Decoded>, n: nat)
    requires n <= |ds|
    ensures ErrorsUpTo(ds, n) == [] <==> forall i :: 0 <= i < n ==> ds[i].err.None?
  {
    if n > 0 {
      ErrorsUpToEmpty(ds, n - 1);
    }
  }

  /** Every recorded error is the error of some child, and no more errors than children are recorded. */
  lemma {:induction false} ErrorsUpToFromChildren(ds: seq<Decoded>, n: nat)
    requires n <= |ds|
    ensures |ErrorsUpTo(ds, n)| <= n
    ensures forall e :: e in ErrorsUpTo(ds, n) ==> exists i :: 0 <= i < n && ds[i].err == Some(e)
  {
    if n > 0 {
      ErrorsUpToFromChildren(ds, n - 1);
    }
  }

  /** The map loop records no error exactly when no key and no value failed. */
  lemma {:induction false} PairErrorsUpToEmpty(keys: seq<Decoded>, values: seq<Decoded>, n: nat)
    requires n <= |keys| == |values|
    ensures PairErrorsUpTo(keys, values, n) == []
        <==> forall i :: 0 <= i < n ==> keys[i].err.None? && values[i].err.None?
  {
    if n > 0 {
      PairErrorsUpToEmpty(keys, values, n - 1);
    }
  }

  /** A field loop's map has exactly the names seen so far as keys. */
  lemma {:induction false} FieldMapKeys(names: seq<string>, ds: seq<Decoded>, n: nat)
    requires n <= |names| == |ds|
    ensures FieldMapUpTo(names, ds, n).Keys == set i | 0 <= i < n :: names[i]
  {
    if n > 0 {
      FieldMapKeys(names, ds, n - 1);
      var keys := set i | 0 <= i < n :: names[i];
      var prevKeys := set i | 0 <= i < n - 1 :: names[i];
      forall k | k in keys ensures k in prevKeys + {names[n - 1]} {
        var i :| 0 <= i < n && k == names[i];
        if i < n - 1 {
          assert k in prevKeys;
        }
      }
      assert keys == prevKeys + {names[n - 1]};
    }
  }

  /** A name that no later field repeats maps to its own field's value: the last write wins. */
  lemma {:induction false} FieldMapLastWins(names: seq<string>, ds: seq<Decoded>, n: nat, i: nat)
    requires i < n <= |names| == |ds|
    requires forall j :: i < j < n ==> names[j] != names[i]
    ensures names[i] in FieldMapUpTo(names, ds, n)
    ensures FieldMapUpTo(names, ds, n)[names[i]] == ds[i].value
  {
    if i < n - 1 {
      FieldMapLastWins(names, ds, n - 1, i);
    }
  }

  /**
   * A LIST or ARRAY decodes to a slice of the same length whose i-th entry is the i-th
   * element decoded (a null element becomes nil); it fails exactly when some element
   * fails, and then still carries every element.
   */
  lemma ListDecoding(natives: Natives, isArray: bool, elems: seq<KuzuValue>)
    ensures DecodeValue(natives, ListValue(isArray, elems)).value.Slice?
    ensures |DecodeValue(natives, ListValue(isArray, elems)).value.elems| == |elems|
    ensures forall i :: 0 <= i < |elems| ==>
              DecodeValue(natives, ListValue(isArray, elems)).value.elems[i] == DecodeValue(natives, elems[i]).value
    ensures forall i :: 0 <= i < |elems| && elems[i] == NullValue ==>
              DecodeValue(natives, ListValue(isArray, elems)).value.elems[i] == Nil
    ensures DecodeValue(natives, ListValue(isArray, elems)).err.None?
        <==> forall i :: 0 <= i < |elems| ==> DecodeValue(natives, elems[i]).err.None?
  {
    ErrorsUpToEmpty(DecodeAll(natives, elems), |elems|);
  }

  /** No field after the `i`-th carries its name, so the `i`-th field's value is the one kept. */
  predicate LastWithName(names: seq<string>, i: nat)
    requires i < |names|
  {
    forall j :: i < j < |names| ==> names[j] != names[i]
  }

  /** Both facts about a field loop's map, for every name at once. */
  lemma FieldMapSpec(names: seq<string>, ds: seq<Decoded>)
    requires |names| == |ds|
    ensures FieldMapUpTo(names, ds, |names|).Keys == set i | 0 <= i < |names| :: names[i]
    ensures forall i :: 0 <= i < |names| && LastWithName(names, i) ==>
              FieldMapUpTo(names, ds, |names|)[names[i]] == ds[i].value
  {
    FieldMapKeys(names, ds, |names|);
    forall i | 0 <= i < |names| && LastWithName(names, i)
      ensures FieldMapUpTo(names, ds, |names|)[names[i]] == ds[i].value
    {
      FieldMapLastWins(names, ds, |names|, i);
    }
  }

  /** The field loop's map has exactly the names C sees as keys; the last field of each name gives its value. */
  lemma PropertiesMap(natives: Natives, fields: seq<Field>)
    ensures DecodeProperties(natives, fields).0.Keys == set i | 0 <= i < |fields| :: NamesOf(fields)[i]
    ensures forall i :: 0 <= i < |fields| && LastWithName(NamesOf(fields), i) ==>
              DecodeProperties(natives, fields).0[NamesOf(fields)[i]] == DecodeValue(natives, fields[i].value).value
  {
    var ds := DecodeFieldValues(natives, fields);
    assert DecodeProperties(natives, fields).0 == FieldMapUpTo(NamesOf(fields), ds, |fields|);
    FieldMapSpec(NamesOf(fields), ds);
  }

  /** The field loop fails exactly when a field fails. */
  lemma PropertiesErrors(natives: Natives, fields: seq<Field>)
    ensures DecodeProperties(natives, fields).1.None?
        <==> forall i :: 0 <= i < |fields| ==> DecodeValue(natives, fields[i].value).err.None?
  {
    var ds := DecodeFieldValues(natives, fields);
    assert DecodeProperties(natives, fields).1 == Aggregate(ErrorsUpTo(ds, |ds|));
    assert forall i :: 0 <= i < |fields| ==> ds[i] == DecodeValue(natives, fields[i].value);
    ErrorsUpToEmpty(ds, |fields|);
  }

  /**
   * A STRUCT or UNION decodes to a map from field name to decoded field value: with distinct
   * names every field is found under its own name, and a repeated name keeps its last value.
   * It fails exactly when some field fails.
   */
  lemma StructDecoding(natives: Natives, isUnion: bool, fields: seq<Field>)
    requires forall i, j :: 0 <= i < j < |fields| ==> NamesOf(fields)[i] != NamesOf(fields)[j]
    ensures DecodeValue(natives, StructValue(isUnion, fields)).value.StringMap?
    ensures DecodeValue(natives, StructValue(isUnion, fields)).value.m.Keys
         == set i | 0 <= i < |fields| :: NamesOf(fields)[i]
    ensures forall i :: 0 <= i < |fields| ==>
              DecodeValue(natives, StructValue(isUnion, fields)).value.m[NamesOf(fields)[i]]
                == DecodeValue(natives, fields[i].value).value
    ensures DecodeValue(natives, StructValue(isUnion, fields)).err.None?
        <==> forall i :: 0 <= i < |fields| ==> DecodeValue(natives, fields[i].value).err.None?
  {
    PropertiesMap(natives, fields);
    PropertiesErrors(natives, fields);
  }

  /** With a repeated field name, the struct keeps the value of the later field. */
  lemma StructRepeatedNameKeepsLast(natives: Natives, a: KuzuValue, b: KuzuValue)
    ensures DecodeValue(natives, StructValue(false, [Field("k", a), Field("k", b)])).value
         == StringMap(map["k" := DecodeValue(natives, b).value])
  {
    var fields := [Field("k", a), Field("k", b)];
    assert CStr("k") == "k" by {
      PrefixBeforeWithoutStop("k", '\0');
    }
    assert NamesOf(fields) == ["k", "k"];
    var ds := DecodeFieldValues(natives, fields);
    assert FieldMapUpTo(["k", "k"], ds, 1) == map["k" := ds[0].value];
    assert FieldMapUpTo(["k", "k"], ds, 2) == map["k" := ds[1].value];
  }

  /**
   * A MAP decodes to one MapItem per entry in the engine's order, duplicates included; it
   * fails exactly when some key or value fails.
   */
  lemma MapDecoding(natives: Natives, entries: seq<Entry>)
    ensures DecodeValue(natives, MapValue(entries)).value.MapItems?
    ensures |DecodeValue(natives, MapValue(entries)).value.items| == |entries|
    ensures forall i :: 0 <= i < |entries| ==>
              DecodeValue(natives, MapValue(entries)).value.items[i]
                == MapItem(DecodeValue(natives, entries[i].key).value, DecodeValue(natives, entries[i].value).value)
    ensures DecodeValue(natives, MapValue(entries)).err.None?
        <==> forall i :: 0 <= i < |entries| ==>
               DecodeValue(natives, entries[i].key).err.None? && DecodeValue(natives, entries[i].value).err.None?
  {
    var (keys, values) := DecodeEntryParts(natives, entries);
    PairErrorsUpToEmpty(keys, values, |entries|);
  }

  /**
   * A node decodes to its id, its label as C sees it, and one property per property name;
   * it fails exactly when a property fails, and keeps the record either way.
   */
  lemma NodeDecoding(natives: Natives, n: KuzuNode)
    ensures DecodeValue(natives, NodeValue(n)).value.NodeRecord?
    ensures DecodeValue(natives, NodeValue(n)).value.node.id == n.id
    ensures DecodeValue(natives, NodeValue(n)).value.node.labelName == CStr(n.labelName)
    ensures DecodeValue(natives, NodeValue(n)).value.node.properties == DecodeProperties(natives, n.props).0
    ensures DecodeValue(natives, NodeValue(n)).value.node.properties.Keys
         == set i | 0 <= i < |n.props| :: NamesOf(n.props)[i]
    ensures forall i :: 0 <= i < |n.props| && LastWithName(NamesOf(n.props), i) ==>
              DecodeValue(natives, NodeValue(n)).value.node.properties[NamesOf(n.props)[i]]
              == DecodeValue(natives, n.props[i].value).value
    ensures DecodeValue(natives, NodeValue(n)).err.None?
        <==> forall i :: 0 <= i < |n.props| ==> DecodeValue(natives, n.props[i].value).err.None?
  {
    PropertiesMap(natives, n.props);
    PropertiesErrors(natives, n.props);
  }

  /** A relationship decodes to both end ids, its label and its properties, like a node. */
  lemma RelDecoding(natives: Natives, rel: KuzuRel)
    ensures DecodeValue(natives, RelValue(rel)).value.RelRecord?
    ensures DecodeValue(natives, RelValue(rel)).value.rel.sourceId == rel.src
    ensures DecodeValue(natives, RelValue(rel)).value.rel.destinationId == rel.dst
    ensures DecodeValue(natives, RelValue(rel)).value.rel.labelName == CStr(rel.labelName)
    ensures DecodeValue(natives, RelValue(rel)).value.rel.properties == DecodeProperties(natives, rel.props).0
    ensures DecodeValue(natives, RelValue(rel)).value.rel.properties.Keys
         == set i | 0 <= i < |rel.props| :: NamesOf(rel.props)[i]
    ensures forall i :: 0 <= i < |rel.props| && LastWithName(NamesOf(rel.props), i) ==>
              DecodeValue(natives, RelValue(rel)).value.rel.properties[NamesOf(rel.props)[i]]
              == DecodeValue(natives, rel.props[i].value).value
    ensures DecodeValue(natives, RelValue(rel)).err.None?
        <==> forall i :: 0 <= i < |rel.props| ==> DecodeValue(natives, rel.props[i].value).err.None?
  {
    PropertiesMap(natives, rel.props);
    PropertiesErrors(natives, rel.props);
  }

  /**
   * A path never reports an error, even when a property of one of its nodes or
   * relationships fails to decode; its nodes and relationships keep their order.
   */
  lemma PathDecodingNeverFails(natives: Natives, nodes: seq<KuzuNode>, rels: seq<KuzuRel>)
    ensures DecodeValue(natives, RecursiveRelValue(nodes, rels)).err == None
    ensures DecodeValue(natives, RecursiveRelValue(nodes, rels)).value.PathRecord?
    ensures |DecodeValue(natives, RecursiveRelValue(nodes, rels)).value.path.nodes| == |nodes|
    ensures forall i :: 0 <= i < |nodes| ==>
              DecodeValue(natives, RecursiveRelValue(nodes, rels)).value.path.nodes[i]
                == DecodeValue(natives, NodeValue(nodes[i])).value.node
    ensures |DecodeValue(natives, RecursiveRelValue(nodes, rels)).value.path.relationships| == |rels|
    ensures forall i :: 0 <= i < |rels| ==>
              DecodeValue(natives, RecursiveRelValue(nodes, rels)).value.path.relationships[i]
                == DecodeValue(natives, RelValue(rels[i])).value.rel
  {
  }

  /** SERIAL reads like INT64, ARRAY like LIST, UNION like STRUCT. */
  lemma SharedCases(natives: Natives, p: Payload, elems: seq<KuzuValue>, fields: seq<Field>)
    ensures DecodeValue(natives, ScalarValue(SERIAL, p)) == DecodeValue(natives, ScalarValue(INT64, p))
    ensures DecodeValue(natives, ListValue(true, elems)) == DecodeValue(natives, ListValue(false, elems))
    ensures DecodeValue(natives, StructValue(true, fields)) == DecodeValue(natives, StructValue(false, fields))
  {
  }

  /** A type id the binding does not handle still yields the engine's text, together with an error. */
  lemma UnsupportedTypeIsForceCast(natives: Natives, tag: ScalarTypeId, p: Payload)
    requires tag == ANY || tag == PTR || tag.FutureType?
    ensures DecodeValue(natives, ScalarValue(tag, p))
         == Decoded(Str(CStr(natives.render(tag, p))), Some(UnsupportedDataType(tag)))
  {
  }

  // ---------------------------------------------------------------- the loops

  /** The loop of `kuzuListValueToGoValue`, one element at a time. */
  method KuzuListValueToGoValue(natives: Natives, list: KuzuValue) returns (values: seq<GoValue>, err: Option<Error>)
    requires list.ListValue?
    ensures Decoded(Slice(values), err) == DecodeValue(natives, list)
  {
    var elems := list.elems;
    ghost var ds := DecodeAll(natives, elems);
    values := [];
    var errors: seq<Error> := [];
    var i := 0;
    while i < |elems|
      invariant 0 <= i <= |elems|
      invariant values == ValuesOf(ds)[..i]
      invariant errors == ErrorsUpTo(ds, i)
    {
      var d := DecodeValue(natives, elems[i]);
      if d.err.Some? {
        errors := errors + [d.err.value];
      }
      values := values + [d.value];
      i := i + 1;
    }
    assert ValuesOf(ds)[..i] == ValuesOf(ds);
    err := if |errors| > 0 then Some(ChildrenFailed(errors)) else None;
  }

  /**
   * The field loop of `kuzuStructValueToGoValue`, which `kuzuNodeValueToGoValue` and
   * `kuzuRelValueToGoValue` repeat for properties: `m[name] = value`, one field at a time.
   */
  method FieldsToGoMap(natives: Natives, fields: seq<Field>) returns (m: map<string, GoValue>, err: Option<Error>)
    ensures (m, err) == DecodeProperties(natives, fields)
  {
    ghost var ds := DecodeFieldValues(natives, fields);
    m := map[];
    var errors: seq<Error> := [];
    var i := 0;
    while i < |fields|
      invariant 0 <= i <= |fields|
      invariant m == FieldMapUpTo(NamesOf(fields), ds, i)
      invariant errors == ErrorsUpTo(ds, i)
    {
      var keyString := CStr(fields[i].name);
      var d := DecodeValue(natives, fields[i].value);
      FieldStep(natives, fields, ds, i, keyString, d);
      if d.err.Some? {
        errors := errors + [d.err.value];
      }
      m := m[keyString := d.value];
      i := i + 1;
    }
    err := if |errors| > 0 then Some(ChildrenFailed(errors)) else None;
  }

  /** One iteration of the field loop extends the map and the errors by field `i`. */
  lemma FieldStep(natives: Natives, fields: seq<Field>, ds: seq<Decoded>, i: nat, key: string, d: Decoded)
    requires ds == DecodeFieldValues(natives, fields) && i < |fields|
    requires key == CStr(fields[i].name) && d == DecodeValue(natives, fields[i].value)
    ensures FieldMapUpTo(NamesOf(fields), ds, i + 1) == FieldMapUpTo(NamesOf(fields), ds, i)[key := d.value]
    ensures ErrorsUpTo(ds, i + 1) == ErrorsUpTo(ds, i) + ErrorsOf(d.err)
  {
  }

  /** The loop of `kuzuMapValueToGoValue`: key, then value, then the item. */
  method KuzuMapValueToGoValue(natives: Natives, mapValue: KuzuValue) returns (items: seq<MapItem>, err: Option<Error>)
    requires mapValue.MapValue?
    ensures Decoded(MapItems(items), err) == DecodeValue(natives, mapValue)
  {
    var entries := mapValue.entries;
    ghost var (keys, values) := DecodeEntryParts(natives, entries);
    items := [];
    var errors: seq<Error> := [];
    var i := 0;
    while i < |entries|
      invariant 0 <= i <= |entries|
      invariant |items| == i
      invariant forall j :: 0 <= j < i ==> items[j] == MapItem(keys[j].value, values[j].value)
      invariant errors == PairErrorsUpTo(keys, values, i)
    {
      var key := DecodeValue(natives, entries[i].key);
      if key.err.Some? {
        errors := errors + [key.err.value];
      }
      var value := DecodeValue(natives, entries[i].value);
      if value.err.Some? {
        errors := errors + [value.err.value];
      }
      items := items + [MapItem(key.value, value.value)];
      i := i + 1;
    }
    assert DecodeValue(natives, mapValue) == DecodeMap(natives, entries);
    assert items == seq(|entries|, j requires 0 <= j < |entries| => MapItem(keys[j].value, values[j].value));
    err := if |errors| > 0 then Some(ChildrenFailed(errors)) else None;
  }
}

=== FILE: driver.dfy ===
/**
 * The `database/sql` driver glue: reading the connector parameters of a data source
 * name, turning `Exec`/`Query` arguments into named values and then into the
 * parameter map a prepared statement is executed with, and copying a row into the
 * caller's destination slice.
 *
 * `url.Parse` is not part of the model: a data source name arrives already split,
 * as the query parameters `url.Values` holds (each name with its list of values).
 */
module SqlDriver {
  import opened Wrappers
  import opened Values
  import opened Binding
  import opened Results

  // ------------------------------------------------------------ strconv.ParseUint

  const MaxUint64: nat := 0xFFFF_FFFF_FFFF_FFFF
  /** `strconv.ParseUint`'s overflow threshold for base 10: `maxUint64/10 + 1`. */
  const Cutoff: nat := MaxUint64 / 10 + 1

  predicate IsDigit(c: char) {
    '0' <= c <= '9'
  }

  predicate AllDigits(s: string) {
    forall i :: 0 <= i < |s| ==> IsDigit(s[i])
  }

  function DigitValue(c: char): nat
    requires IsDigit(c)
  {
    c as int - '0' as int
  }

  /** The number a string of decimal digits denotes. */
  function DecimalValue(s: string): nat
    requires AllDigits(s)
  {
    if s == [] then 0 else DecimalValue(s[..|s| - 1]) * 10 + DigitValue(s[|s| - 1])
  }

  /** The length of the longest all-digit prefix of `s`. */
  function DigitPrefixLength(s: string): (n: nat)
    ensures n <= |s|
    ensures AllDigits(s[..n])
    ensures n < |s| ==> !IsDigit(s[n])
  {
    if s == [] || !IsDigit(s[0]) then 0
    else
      var n := 1 + DigitPrefixLength(s[1..]);
      assert s[..n] == [s[0]] + s[1..][..n - 1];
      n
  }

  /**
   * The digit loop of `strconv.ParseUint(s, 10, 64)` from position `i`, with `n` the value
   * of the digits read so far: a non-digit is a syntax error at once, and a value past the
   * 64-bit range a range error at once (the two checks against `Cutoff` and `MaxUint64`).
   */
  function ScanDigits(s: string, i: nat, n: nat): Result<nat, Error>
    requires i <= |s| && n <= MaxUint64
    decreases |s| - i
  {
    if i == |s| then Success(n)
    else if !IsDigit(s[i]) then Failure(ParseUintSyntax(s))
    else if n >= Cutoff then Failure(ParseUintRange(s))
    else
      var n1 := n * 10 + DigitValue(s[i]);
      if n1 > MaxUint64 then Failure(ParseUintRange(s))
      else ScanDigits(s, i + 1, n1)
  }

  /** `strconv.ParseUint(s, 10, 64)`: the empty string is a syntax error. */
  function ParseUint(s: string): Result<nat, Error> {
    if s == "" then Failure(ParseUintSyntax(s)) else ScanDigits(s, 0, 0)
  }

  /** Appending a digit multiplies by ten and adds it. */
  lemma DecimalSnoc(s: string, i: nat)
    requires i < |s| && AllDigits(s[..i + 1])
    ensures AllDigits(s[..i])
    ensures DecimalValue(s[..i + 1]) == DecimalValue(s[..i]) * 10 + DigitValue(s[i])
  {
    assert s[..i + 1][..i] == s[..i];
  }

  /** A longer run of digits never denotes a smaller number. */
  lemma {:induction false} DecimalMonotone(s: string, i: nat, j: nat)
    requires i <= j <= |s| && AllDigits(s[..j])
    ensures AllDigits(s[..i])
    ensures DecimalValue(s[..i]) <= DecimalValue(s[..j])
    decreases j - i
  {
    assert forall k :: 0 <= k < i ==> s[..i][k] == s[..j][k];
    if i < j {
      assert forall k :: 0 <= k < j - 1 ==> s[..j - 1][k] == s[..j][k];
      DecimalMonotone(s, i, j - 1);
      DecimalSnoc(s, j - 1);
    }
  }

  /** Go's two overflow checks together reject exactly the values past `MaxUint64`. */
  lemma CutoffIsOverflow(n: nat, d: nat)
    requires n <= MaxUint64 && d < 10
    ensures n >= Cutoff ==> n * 10 + d > MaxUint64
  {
  }

  /**
   * The digit loop from `i` on, when the first `i` characters are digits denoting `n`: it
   * succeeds exactly on an all-digit string within range, with its value, and otherwise
   * fails with a range error exactly when the digits before the first non-digit already
   * overflow, and a syntax error otherwise.
   */
  lemma {:induction false} ScanDigitsCorrect(s: string, i: nat, n: nat)
    requires i <= |s| && n <= MaxUint64
    requires AllDigits(s[..i]) && n == DecimalValue(s[..i])
    ensures ScanDigits(s, i, n).Success? <==> AllDigits(s) && DecimalValue(s) <= MaxUint64
    ensures ScanDigits(s, i, n).Success? ==> AllDigits(s) && ScanDigits(s, i, n).value == DecimalValue(s)
    ensures ScanDigits(s, i, n).Failure? ==>
              ScanDigits(s, i, n).error
              == if DecimalValue(s[..DigitPrefixLength(s)]) > MaxUint64 then ParseUintRange(s) else ParseUintSyntax(s)
    decreases |s| - i
  {
    if i == |s| || !IsDigit(s[i]) {
      ScanStops(s, i, n);
    } else if n * 10 + DigitValue(s[i]) > MaxUint64 {
      ScanOverflows(s, i, n);
    } else {
      var n1 := n * 10 + DigitValue(s[i]);
      CutoffIsOverflow(n, DigitValue(s[i]));
      assert ScanDigits(s, i, n) == ScanDigits(s, i + 1, n1);
      PrefixAt(s, i);
      DecimalSnoc(s, i);
      ScanDigitsCorrect(s, i + 1, n1);
    }
  }

  /** The digit loop at the end of the string, or at a non-digit. */
  lemma ScanStops(s: string, i: nat, n: nat)
    requires i <= |s| && n <= MaxUint64
    requires AllDigits(s[..i]) && n == DecimalValue(s[..i])
    requires i == |s| || !IsDigit(s[i])
    ensures ScanDigits(s, i, n).Success? <==> AllDigits(s) && DecimalValue(s) <= MaxUint64
    ensures ScanDigits(s, i, n).Success? ==> AllDigits(s) && ScanDigits(s, i, n).value == DecimalValue(s)
    ensures ScanDigits(s, i, n).Failure? ==>
              ScanDigits(s, i, n).error
              == if DecimalValue(s[..DigitPrefixLength(s)]) > MaxUint64 then ParseUintRange(s) else ParseUintSyntax(s)
  {
    PrefixAt(s, i);
    if i == |s| {
      assert s[..i] == s;
    }
  }

  /** The digit loop at a digit that takes the value past 64 bits. */
  lemma ScanOverflows(s: string, i: nat, n: nat)
    requires i < |s| && n <= MaxUint64
    requires AllDigits(s[..i]) && n == DecimalValue(s[..i])
    requires IsDigit(s[i]) && n * 10 + DigitValue(s[i]) > MaxUint64
    ensures ScanDigits(s, i, n) == Failure(ParseUintRange(s))
    ensures !(AllDigits(s) && DecimalValue(s) <= MaxUint64)
    ensures DecimalValue(s[..DigitPrefixLength(s)]) > MaxUint64
  {
    PrefixAt(s, i);
    DecimalSnoc(s, i);
    CutoffIsOverflow(n, DigitValue(s[i]));
    Overflowed(s, i + 1);
  }

  /** Where the digit loop stands: no further than the first non-digit, and there if it is one. */
  lemma PrefixAt(s: string, i: nat)
    requires i <= |s| && AllDigits(s[..i])
    ensures i <= DigitPrefixLength(s)
    ensures i < |s| && !IsDigit(s[i]) ==> DigitPrefixLength(s) == i
    ensures i < |s| && IsDigit(s[i]) ==> AllDigits(s[..i + 1])
    ensures AllDigits(s) ==> DigitPrefixLength(s) == |s|
  {
    DigitsBelow(s, i);
    DigitsBelow(s, DigitPrefixLength(s));
    if i < |s| && IsDigit(s[i]) {
      DigitsExtend(s, i);
    }
  }

  /** A digit prefix of length `i` means every character below `i` is a digit. */
  lemma DigitsBelow(s: string, i: nat)
    requires i <= |s| && AllDigits(s[..i])
    ensures forall k :: 0 <= k < i ==> IsDigit(s[k])
  {
    forall k | 0 <= k < i
      ensures IsDigit(s[k])
    {
      assert s[..i][k] == s[k];
    }
  }

  lemma DigitsExtend(s: string, i: nat)
    requires i < |s| && AllDigits(s[..i]) && IsDigit(s[i])
    ensures AllDigits(s[..i + 1])
  {
    assert forall k :: 0 <= k < i ==> s[..i + 1][k] == s[..i][k];
  }

  /** Once the digits read overflow, so do all digits before the first non-digit, and the whole string. */
  lemma Overflowed(s: string, i: nat)
    requires i <= |s| && AllDigits(s[..i]) && DecimalValue(s[..i]) > MaxUint64
    ensures DecimalValue(s[..DigitPrefixLength(s)]) > MaxUint64
    ensures !(AllDigits(s) && DecimalValue(s) <= MaxUint64)
  {
    PrefixAt(s, i);
    DecimalMonotone(s, i, DigitPrefixLength(s));
    if AllDigits(s) {
      assert s[..|s|] == s;
    }
  }

  /**
   * `strconv.ParseUint(s, 10, 64)` accepts exactly the non-empty strings of decimal digits
   * whose value fits in 64 bits, and returns that value. A rejected string gives a range
   * error when its leading digits already overflow, and a syntax error otherwise.
   */
  lemma ParseUintCorrect(s: string)
    ensures ParseUint(s).Success? <==> s != "" && AllDigits(s) && DecimalValue(s) <= MaxUint64
    ensures ParseUint(s).Success? ==> AllDigits(s) && ParseUint(s).value == DecimalValue(s)
    ensures ParseUint(s).Failure? ==>
              ParseUint(s).error
              == if DecimalValue(s[..DigitPrefixLength(s)]) > MaxUint64 then ParseUintRange(s) else ParseUintSyntax(s)
  {
    if s != "" {
      assert s[..0] == [];
      ScanDigitsCorrect(s, 0, 0);
    } else {
      assert s[..DigitPrefixLength(s)] == [];
    }
  }

  // ------------------------------------------------------------ parse and OpenConnector

  /**
   * `parse`: an empty value leaves the setting alone (`None`, the setter is not called);
   * otherwise the setter gets the parsed value, which fits in 64 bits, or the parse error
   * is returned.
   */
  function Parse(v: string): (r: Result<Option<nat>, Error>)
    ensures r.Success? && r.value.Some? ==> r.value.value <= MaxUint64
  {
    if v == "" then Success(None)
    else
      ParseUintCorrect(v);
      match ParseUint(v)
      case Success(n) => Success(Some(n))
      case Failure(e) => Failure(e)
  }

  /**
   * What `parse` makes of a value: nothing for "", the decimal value of a digit string
   * within 64 bits, and `ParseUint`'s own error for everything else.
   */
  lemma ParseCorrect(v: string)
    ensures Parse(v) == Success(None) <==> v == ""
    ensures Parse(v).Success? && v != "" ==> AllDigits(v) && Parse(v).value == Some(DecimalValue(v))
    ensures Parse(v).Failure? <==> v != "" && !(AllDigits(v) && DecimalValue(v) <= MaxUint64)
    ensures Parse(v).Failure? ==> ParseUint(v).Failure? && Parse(v).error == ParseUint(v).error
  {
    ParseUintCorrect(v);
  }

  /** `SystemConfig`: the settings a database is opened with. */
  datatype SystemConfig = SystemConfig(
    bufferPoolSize: uint64,
    maxNumThreads: uint64,
    enableCompression: bool,
    readOnly: bool,
    maxDbSize: uint64)

  /** `url.Values.Get`: the first value given for a parameter, or "" when it has none. */
  function Get(query: map<string, seq<string>>, key: string): (v: string)
    ensures key !in query ==> v == ""
    ensures key in query && |query[key]| > 0 ==> v == query[key][0]
  {
    if key in query && |query[key]| > 0 then query[key][0] else ""
  }

  /** The connector parameters in the order `OpenConnector` reads them. */
  const ParamNames: seq<string> := ["poolSize", "threads", "dbSize", "compression", "readOnly"]

  /** A size setting after `parse`: the parameter's value when given, the default otherwise. */
  function SizeSetting(query: map<string, seq<string>>, key: string, default: uint64): uint64 {
    match Parse(Get(query, key))
    case Success(Some(n)) => n
    case _ => default
  }

  /** A flag setting after `parse`: whether the parameter's value is 1 when given, the default otherwise. */
  function FlagSetting(query: map<string, seq<string>>, key: string, default: bool): bool {
    match Parse(Get(query, key))
    case Success(Some(n)) => n == 1
    case _ => default
  }

  /** The error of the first parameter in `keys` that does not parse, if any. */
  function FirstParamError(query: map<string, seq<string>>, keys: seq<string>): Option<Error> {
    if keys == [] then None
    else if Parse(Get(query, keys[0])).Failure? then Some(Parse(Get(query, keys[0])).error)
    else FirstParamError(query, keys[1..])
  }

  /** `FirstParamError` finds the earliest failing parameter, and only a failing one. */
  lemma {:induction false} FirstParamErrorIsFirst(query: map<string, seq<string>>, keys: seq<string>)
    ensures FirstParamError(query, keys).None? <==> forall i :: 0 <= i < |keys| ==> Parse(Get(query, keys[i])).Success?
    ensures FirstParamError(query, keys).Some? ==>
              exists i :: 0 <= i < |keys|
                && Parse(Get(query, keys[i])) == Failure(FirstParamError(query, keys).value)
                && forall j :: 0 <= j < i ==> Parse(Get(query, keys[j])).Success?
  {
    if keys != [] {
      FirstParamErrorIsFirst(query, keys[1..]);
      if Parse(Get(query, keys[0])).Success? && FirstParamError(query, keys[1..]).Some? {
        var i :| 0 <= i < |keys[1..]|
          && Parse(Get(query, keys[1..][i])) == Failure(FirstParamError(query, keys[1..]).value)
          && forall j :: 0 <= j < i ==> Parse(Get(query, keys[1..][j])).Success?;
        assert forall j :: 0 <= j < i + 1 ==> Parse(Get(query, keys[j])).Success? by {
          forall j | 1 <= j < i + 1
            ensures Parse(Get(query, keys[j])).Success?
          {
            assert keys[j] == keys[1..][j - 1];
          }
        }
        assert Parse(Get(query, keys[i + 1])) == Failure(FirstParamError(query, keys).value);
      }
      if FirstParamError(query, keys[1..]).None? && Parse(Get(query, keys[0])).Success? {
        forall i | 0 <= i < |keys|
          ensures Parse(Get(query, keys[i])).Success?
        {
          if i > 0 {
            assert keys[i] == keys[1..][i - 1];
          }
        }
      }
    }
  }

  /** A data source name without parameters opens the database with the engine's defaults. */
  lemma NoParametersKeepDefaults(query: map<string, seq<string>>, defaults: SystemConfig)
    requires forall k :: k in ParamNames ==> k !in query
    ensures FirstParamError(query, ParamNames).None?
    ensures SizeSetting(query, "poolSize", defaults.bufferPoolSize) == defaults.bufferPoolSize
    ensures SizeSetting(query, "threads", defaults.maxNumThreads) == defaults.maxNumThreads
    ensures SizeSetting(query, "dbSize", defaults.maxDbSize) == defaults.maxDbSize
    ensures FlagSetting(query, "compression", defaults.enableCompression) == defaults.enableCompression
    ensures FlagSetting(query, "readOnly", defaults.readOnly) == defaults.readOnly
  {
    FirstParamErrorIsFirst(query, ParamNames);
  }

  /** The first parameter error, spelled out over the five parameters in the order they are read. */
  lemma ParamErrorsInOrder(query: map<string, seq<string>>)
    ensures FirstParamError(query, ParamNames)
         == if Parse(Get(query, "poolSize")).Failure? then Some(Parse(Get(query, "poolSize")).error)
            else if Parse(Get(query, "threads")).Failure? then Some(Parse(Get(query, "threads")).error)
            else if Parse(Get(query, "dbSize")).Failure? then Some(Parse(Get(query, "dbSize")).error)
            else if Parse(Get(query, "compression")).Failure? then Some(Parse(Get(query, "compression")).error)
            else if Parse(Get(query, "readOnly")).Failure? then Some(Parse(Get(query, "readOnly")).error)
            else None
  {
    FirstParamErrorCons(query, "readOnly", []);
    FirstParamErrorCons(query, "compression", ["readOnly"]);
    FirstParamErrorCons(query, "dbSize", ["compression", "readOnly"]);
    FirstParamErrorCons(query, "threads", ["dbSize", "compression", "readOnly"]);
    FirstParamErrorCons(query, "poolSize", ["threads", "dbSize", "compression", "readOnly"]);
  }

  lemma FirstParamErrorCons(query: map<string, seq<string>>, key: string, rest: seq<string>)
    ensures FirstParamError(query, [key] + rest)
         == if Parse(Get(query, key)).Failure? then Some(Parse(Get(query, key)).error)
            else FirstParamError(query, rest)
  {
    assert ([key] + rest)[1..] == rest;
  }

  /**
   * The parameter handling of `OpenConnector`: starting from the engine's default
   * configuration, each parameter in turn is parsed and, when given, sets its field; the
   * first one that does not parse is returned as the error and nothing is opened. The
   * result is the configuration the database would be opened with.
   */
  method OpenConnector(query: map<string, seq<string>>, defaults: SystemConfig) returns (r: Result<SystemConfig, Error>)
    ensures r.Failure? <==> FirstParamError(query, ParamNames).Some?
    ensures r.Failure? ==> r.error == FirstParamError(query, ParamNames).value
    ensures r.Success? ==> r.value.bufferPoolSize == SizeSetting(query, "poolSize", defaults.bufferPoolSize)
    ensures r.Success? ==> r.value.maxNumThreads == SizeSetting(query, "threads", defaults.maxNumThreads)
    ensures r.Success? ==> r.value.maxDbSize == SizeSetting(query, "dbSize", defaults.maxDbSize)
    ensures r.Success? ==> r.value.enableCompression == FlagSetting(query, "compression", defaults.enableCompression)
    ensures r.Success? ==> r.value.readOnly == FlagSetting(query, "readOnly", defaults.readOnly)
  {
    ParamErrorsInOrder(query);
    var config := defaults;
    var p := Parse(Get(query, "poolSize"));
    if p.Failure? {
      return Failure(p.error);
    }
    if p.value.Some? {
      config := config.(bufferPoolSize := p.value.value);
    }
    assert config.bufferPoolSize == SizeSetting(query, "poolSize", defaults.bufferPoolSize);
    p := Parse(Get(query, "threads"));
    if p.Failure? {
      return Failure(p.error);
    }
    if p.value.Some? {
      config := config.(maxNumThreads := p.value.value);
    }
    assert config.maxNumThreads == SizeSetting(query, "threads", defaults.maxNumThreads);
    p := Parse(Get(query, "dbSize"));
    if p.Failure? {
      return Failure(p.error);
    }
    if p.value.Some? {
      config := config.(maxDbSize := p.value.value);
    }
    assert config.maxDbSize == SizeSetting(query, "dbSize", defaults.maxDbSize);
    p := Parse(Get(query, "compression"));
    if p.Failure? {
      return Failure(p.error);
    }
    if p.value.Some? {
      config := config.(enableCompression := p.value.value == 1);
    }
    assert config.enableCompression == FlagSetting(query, "compression", defaults.enableCompression);
    p := Parse(Get(query, "readOnly"));
    if p.Failure? {
      return Failure(p.error);
    }
    if p.value.Some? {
      config := config.(readOnly := p.value.value == 1);
    }
    assert config.readOnly == FlagSetting(query, "readOnly", defaults.readOnly);
    return Success(config);
  }

  // ------------------------------------------------------------ arguments

  /** A `driver.Value` handed to `Exec` or `Query`: a `sql.NamedArg`, or anything else. */
  datatype DriverArg = NamedArg(name: string, value: GoValue) | Unnamed(value: GoValue)

  /** `driver.NamedValue`. */
  datatype NamedValue = NamedValue(name: string, ordinal: int, value: GoValue)

  /** The named values `Exec` and `Query` build: every argument must be named; ordinals count from 1. */
  function NamedValuesOf(args: seq<DriverArg>): (r: Result<seq<NamedValue>, Error>)
    ensures r.Success? <==> forall i :: 0 <= i < |args| ==> args[i].NamedArg?
    ensures r.Failure? ==> r.error == OnlyNamedArguments
    ensures r.Success? ==> |r.value| == |args|
    ensures r.Success? ==> forall i :: 0 <= i < |args| ==>
              r.value[i] == NamedValue(args[i].name, i + 1, args[i].value)
  {
    if forall i :: 0 <= i < |args| ==> args[i].NamedArg? then
      Success(seq(|args|, i requires 0 <= i < |args| => NamedValue(args[i].name, i + 1, args[i].value)))
    else Failure(OnlyNamedArguments)
  }

  /**
   * The conversion loop of `statement.Exec` and `statement.Query`: fill a slice of
   * `len(args)` named values, returning "only support named arguments" at the first
   * argument that is not a `sql.NamedArg`.
   */
  method ToNamedValues(args: seq<DriverArg>) returns (r: Result<seq<NamedValue>, Error>)
    ensures r == NamedValuesOf(args)
  {
    var list := new NamedValue[|args|](_ => NamedValue("", 0, Nil));
    var i := 0;
    while i < |args|
      invariant 0 <= i <= |args|
      invariant forall j :: 0 <= j < i ==> args[j].NamedArg?
      invariant forall j :: 0 <= j < i ==> list[j] == NamedValue(args[j].name, j + 1, args[j].value)
    {
      if !args[i].NamedArg? {
        return Failure(OnlyNamedArguments);
      }
      list[i] := NamedValue(args[i].name, i + 1, args[i].value);
      i := i + 1;
    }
    assert NamedValuesOf(args).Success?;
    assert forall j :: 0 <= j < |args| ==> list[..][j] == NamedValuesOf(args).value[j];
    assert list[..] == NamedValuesOf(args).value;
    return Success(list[..]);
  }

  /** The parameter map `ExecContext` and `QueryContext` build: a later name overwrites an earlier one. */
  function ArgMap(args: seq<NamedValue>): (m: map<string, GoValue>)
    ensures forall k :: k in m <==> exists i :: 0 <= i < |args| && args[i].name == k
  {
    if args == [] then map[]
    else
      var m := ArgMap(args[..|args| - 1]);
      assert forall i :: 0 <= i < |args| - 1 ==> args[..|args| - 1][i] == args[i];
      m[args[|args| - 1].name := args[|args| - 1].value]
  }

  /** Each name maps to the value of its last occurrence. */
  lemma {:induction false} LastArgumentWins(args: seq<NamedValue>, i: nat)
    requires i < |args|
    requires forall j :: i < j < |args| ==> args[j].name != args[i].name
    ensures ArgMap(args)[args[i].name] == args[i].value
  {
    if i < |args| - 1 {
      var init := args[..|args| - 1];
      assert init[i] == args[i];
      forall j | i < j < |init|
        ensures init[j].name != init[i].name
      {
        assert init[j] == args[j];
      }
      LastArgumentWins(init, i);
    }
  }

  /** The map-building loop of `ExecContext` and `QueryContext`. */
  method BuildArgMap(args: seq<NamedValue>) returns (raw: map<string, GoValue>)
    ensures raw == ArgMap(args)
  {
    raw := map[];
    for i := 0 to |args|
      invariant raw == ArgMap(args[..i])
    {
      assert args[..i + 1][..i] == args[..i];
      raw := raw[args[i].name := args[i].value];
    }
    assert args[..|args|] == args;
  }

  // ------------------------------------------------------------ statements and rows

  /** `resultSet`: what `ExecContext` reports. */
  datatype ResultSummary = ResultSummary(lastInsertId: int64, rowsAffected: int64)

  /** Go's `int64(n)` of a `uint64`: two's-complement reinterpretation. */
  function Int64FromUint64(n: uint64): (r: int64)
    ensures n < 0x8000_0000_0000_0000 ==> r == n
    ensures n >= 0x8000_0000_0000_0000 ==> r == n - 0x1_0000_0000_0000_0000
  {
    if n < 0x8000_0000_0000_0000 then n else n - 0x1_0000_0000_0000_0000
  }

  /**
   * `statement.ExecContext`: execute with the parameter map built from the arguments; on
   * success the summary's affected-row count is the row count of the fresh result, whose
   * column-name cache is still empty, so it is the engine's tuple count.
   */
  method ExecContext(conn: Connection, args: seq<NamedValue>, status: NativeCall -> int, reply: Option<string>,
                     columns: seq<string>, tuples: uint64)
    returns (outcome: Outcome, summary: ResultSummary, ghost order: seq<string>)
    modifies conn
    ensures IsIterationOrder(order, ArgMap(args).Keys)
    ensures outcome == RunBinds(order, ArgMap(args), status, reply).0
    ensures conn.calls == old(conn.calls) + RunBinds(order, ArgMap(args), status, reply).1
    ensures outcome == Ok ==> summary == ResultSummary(0, Int64FromUint64(tuples))
  {
    var raw := BuildArgMap(args);
    outcome, order := conn.Execute(raw, status, reply);
    summary := ResultSummary(0, 0);
    if outcome != Ok {
      return;
    }
    var rs := new QueryResult(columns, tuples);
    var n := rs.GetNumberOfRows();
    rs.Close();
    summary := ResultSummary(0, Int64FromUint64(n));
  }

  /**
   * `statement.QueryContext`: execute with the parameter map built from the arguments and,
   * on success, hand back the fresh result for the rows to be read from.
   */
  method QueryContext(conn: Connection, args: seq<NamedValue>, status: NativeCall -> int, reply: Option<string>,
                      columns: seq<string>, tuples: uint64)
    returns (outcome: Outcome, rows: Option<QueryResult>, ghost order: seq<string>)
    modifies conn
    ensures IsIterationOrder(order, ArgMap(args).Keys)
    ensures outcome == RunBinds(order, ArgMap(args), status, reply).0
    ensures conn.calls == old(conn.calls) + RunBinds(order, ArgMap(args), status, reply).1
    ensures rows.Some? <==> outcome == Ok
    ensures rows.Some? ==> fresh(rows.value) && rows.value.Valid() && rows.value.columnNames.None?
    ensures rows.Some? ==> rows.value.engineColumns == columns && rows.value.engineTuples == tuples
  {
    var raw := BuildArgMap(args);
    outcome, order := conn.Execute(raw, status, reply);
    rows := None;
    if outcome == Ok {
      var rs := new QueryResult(columns, tuples);
      rows := Some(rs);
    }
  }

  /**
   * `statement.Exec`: convert the arguments to named values, then `ExecContext`. An
   * unnamed argument is refused before anything reaches the engine.
   */
  method Exec(conn: Connection, args: seq<DriverArg>, status: NativeCall -> int, reply: Option<string>,
              columns: seq<string>, tuples: uint64)
    returns (outcome: Outcome, summary: ResultSummary, ghost order: seq<string>)
    modifies conn
    ensures NamedValuesOf(args).Failure? ==> outcome == Err(OnlyNamedArguments) && conn.calls == old(conn.calls)
    ensures NamedValuesOf(args).Success? ==>
              var raw := ArgMap(NamedValuesOf(args).value);
              && IsIterationOrder(order, raw.Keys)
              && outcome == RunBinds(order, raw, status, reply).0
              && conn.calls == old(conn.calls) + RunBinds(order, raw, status, reply).1
              && (outcome == Ok ==> summary == ResultSummary(0, Int64FromUint64(tuples)))
  {
    var list := ToNamedValues(args);
    if list.Failure? {
      return Err(list.error), ResultSummary(0, 0), [];
    }
    outcome, summary, order := ExecContext(conn, list.value, status, reply, columns, tuples);
  }

  /**
   * `statement.Query`: convert the arguments to named values, then `QueryContext`. An
   * unnamed argument is refused before anything reaches the engine.
   */
  method Query(conn: Connection, args: seq<DriverArg>, status: NativeCall -> int, reply: Option<string>,
               columns: seq<string>, tuples: uint64)
    returns (outcome: Outcome, rows: Option<QueryResult>, ghost order: seq<string>)
    modifies conn
    ensures NamedValuesOf(args).Failure? ==> outcome == Err(OnlyNamedArguments) && rows.None? && conn.calls == old(conn.calls)
    ensures NamedValuesOf(args).Success? ==>
              var raw := ArgMap(NamedValuesOf(args).value);
              && IsIterationOrder(order, raw.Keys)
              && outcome == RunBinds(order, raw, status, reply).0
              && conn.calls == old(conn.calls) + RunBinds(order, raw, status, reply).1
              && (rows.Some? <==> outcome == Ok)
  {
    var list := ToNamedValues(args);
    if list.Failure? {
      return Err(list.error), None, [];
    }
    outcome, rows, order := QueryContext(conn, list.value, status, reply, columns, tuples);
  }

  /**
   * `rowSet.Next`: `io.EOF` when the result has no next row; the error of fetching or
   * flattening the row when there is one; otherwise the row's values are copied into
   * `dest` position by position, as far as both reach, and the other slots keep what
   * they held.
   */
  method RowSetNext(hasNext: bool, row: Result<seq<GoValue>, Error>, dest: array<GoValue>) returns (err: Option<Error>)
    modifies dest
    ensures !hasNext ==> err == Some(EndOfRows) && dest[..] == old(dest[..])
    ensures hasNext && row.Failure? ==> err == Some(row.error) && dest[..] == old(dest[..])
    ensures hasNext && row.Success? ==> err.None?
    ensures hasNext && row.Success? ==> forall i :: 0 <= i < dest.Length ==>
              dest[i] == if i < |row.value| then row.value[i] else old(dest[i])
  {
    if !hasNext {
      return Some(EndOfRows);
    }
    if row.Failure? {
      return Some(row.error);
    }
    var values := row.value;
    var idx := 0;
    while idx < dest.Length
      invariant 0 <= idx <= dest.Length
      invariant forall i :: 0 <= i < dest.Length ==>
                  dest[i] == if i < idx && i < |values| then values[i] else old(dest[i])
    {
      if |values| <= idx {
        break;
      }
      dest[idx] := values[idx];
      idx := idx + 1;
    }
    return None;
  }
}

=== FILE: encoder.dfy ===
/**
 * Encoding a Go value as an engine value (`goValueToKuzuValue` and its helpers
 * for slices, string-keyed maps and slices of MapItem).
 *
 * Unlike decoding, encoding stops at the first child that fails and returns no
 * value with the error. The ghost functions are the specification; the methods
 * mirror the source's loops, including the collection and sorting of map keys,
 * and are proved to compute the specification.
 */
module Encoder {
  import opened Wrappers
  import opened Temporal
  import opened Values
  import opened KeyOrder

  /** A `time.Time` parameter: TIMESTAMP_NS when the time is not on a whole second, else TIMESTAMP. */
  function TimeToKuzuValue(t: int): (r: KuzuValue)
    ensures r.ScalarValue? && r.payload.IntP?
    ensures TimeHasNanoseconds(t) ==> r.tag == TIMESTAMP_NS && KuzuTimestampNsToTime(r.payload.i) == t
    ensures !TimeHasNanoseconds(t) ==> r.tag == TIMESTAMP && KuzuTimestampToTime(r.payload.i) == t
  {
    if TimeHasNanoseconds(t) then
      TimestampNsRoundTrip(t);
      ScalarValue(TIMESTAMP_NS, IntP(TimeToKuzuTimestampNs(t)))
    else
      WholeSecondIsWholeMicro(t);
      TimestampRoundTrip(t);
      ScalarValue(TIMESTAMP, IntP(TimeToKuzuTimestamp(t)))
  }

  /** The Go values `goValueToKuzuValue` hands to a composite helper. */
  predicate IsComposite(v: GoValue) {
    v.Slice? || v.StringMap? || v.MapItems?
  }

  /** The non-composite Go types `goValueToKuzuValue` lists. */
  predicate Bindable(v: GoValue) {
    || v.Nil? || v.Bool? || v.Int? || v.Int64? || v.Int32? || v.Int16? || v.Int8?
    || v.Uint? || v.Uint64? || v.Uint32? || v.Uint16? || v.Uint8?
    || v.Float64? || v.Float32? || v.Str? || v.Time? || v.Duration?
  }

  /**
   * The non-composite cases of `goValueToKuzuValue`'s type switch. A Go `int` becomes an
   * INT64 and a `uint` a UINT64; a string crosses as a C string; a type the switch does
   * not list (including []byte, *big.Int, uuid.UUID, decimal.Decimal and the binding's
   * own Node and Relationship records) is refused with its `%T` name.
   */
  function EncodeScalar(v: GoValue): (r: Result<KuzuValue, Error>)
    requires !IsComposite(v)
    ensures r.Success? ==> r.value.NullValue? || r.value.ScalarValue?
    ensures r.Success? <==> Bindable(v)
    ensures r.Failure? ==> r.error == UnsupportedGoType(GoTypeName(v))
  {
    match v
    case Nil => Success(NullValue)
    case Bool(b) => Success(ScalarValue(BOOL, BoolP(b)))
    case Int(i) => Success(ScalarValue(INT64, IntP(i)))
    case Int64(i) => Success(ScalarValue(INT64, IntP(i)))
    case Int32(i) => Success(ScalarValue(INT32, IntP(i)))
    case Int16(i) => Success(ScalarValue(INT16, IntP(i)))
    case Int8(i) => Success(ScalarValue(INT8, IntP(i)))
    case Uint(u) => Success(ScalarValue(UINT64, IntP(u)))
    case Uint64(u) => Success(ScalarValue(UINT64, IntP(u)))
    case Uint32(u) => Success(ScalarValue(UINT32, IntP(u)))
    case Uint16(u) => Success(ScalarValue(UINT16, IntP(u)))
    case Uint8(u) => Success(ScalarValue(UINT8, IntP(u)))
    case Float64(f) => Success(ScalarValue(DOUBLE, FloatP(f)))
    case Float32(f) => Success(ScalarValue(FLOAT, FloatP(f)))
    case Str(s) => Success(ScalarValue(STRING, TextP(CStr(s))))
    case Time(t) => Success(TimeToKuzuValue(t))
    case Duration(d) => Success(ScalarValue(INTERVAL, IntervalP(DurationToKuzuInterval(d))))
    case _ => Failure(UnsupportedGoType(GoTypeName(v)))
  }

  /** `goValueToKuzuValue`. */
  ghost function Encode(natives: Natives, v: GoValue): Result<KuzuValue, Error>
    decreases v, 2
  {
    if v.Slice? then EncodeList(natives, v.elems)
    else if v.StringMap? then EncodeStruct(natives, v.m)
    else if v.MapItems? then EncodeMap(natives, v.items)
    else EncodeScalar(v)
  }

  /** The first `n` elements encoded, stopping at the first that fails. */
  ghost function EncodeElements(natives: Natives, elems: seq<GoValue>, n: nat): (r: Result<seq<KuzuValue>, Error>)
    requires n <= |elems|
    ensures r.Success? ==> |r.value| == n
    decreases Slice(elems), 0, n
  {
    if n == 0 then Success([])
    else
      match EncodeElements(natives, elems, n - 1)
      case Failure(e) => Failure(e)
      case Success(values) =>
        match Encode(natives, elems[n - 1])
        case Failure(e) => Failure(e)
        case Success(x) => Success(values + [x])
  }

  /** `goSliceToKuzuList`. */
  ghost function EncodeList(natives: Natives, elems: seq<GoValue>): Result<KuzuValue, Error>
    decreases Slice(elems), 1
  {
    if |elems| == 0 then Failure(EmptyComposite(LIST_KIND))
    else
      match EncodeElements(natives, elems, |elems|)
      case Failure(e) => Failure(ChildConversionFailed(ValueInSlice, e))
      case Success(values) =>
        if natives.listAccepts(values) then Success(ListValue(false, values))
        else Failure(CreateFailed(LIST_KIND, KuzuError))
  }

  /** The values of the first `n` sorted keys encoded, stopping at the first that fails. */
  ghost function EncodeFieldValues(natives: Natives, m: map<string, GoValue>, keys: seq<string>, n: nat)
    : (r: Result<seq<KuzuValue>, Error>)
    requires n <= |keys|
    requires forall k :: k in keys ==> k in m
    ensures r.Success? ==> |r.value| == n
    decreases StringMap(m), 0, n
  {
    if n == 0 then Success([])
    else
      match EncodeFieldValues(natives, m, keys, n - 1)
      case Failure(e) => Failure(e)
      case Success(values) =>
        assert keys[n - 1] in m;
        match Encode(natives, m[keys[n - 1]])
        case Failure(e) => Failure(e)
        case Success(x) => Success(values + [x])
  }

  /** The fields of a struct: each C name with its value. */
  function Fields(names: seq<string>, values: seq<KuzuValue>): (fields: seq<Field>)
    requires |names| == |values|
    ensures |fields| == |names|
  {
    seq(|names|, i requires 0 <= i < |names| => Field(names[i], values[i]))
  }

  /** The field names the engine receives: each sorted key through `C.CString`. */
  function CNames(keys: seq<string>): (names: seq<string>)
    ensures |names| == |keys|
  {
    seq(|keys|, i requires 0 <= i < |keys| => CStr(keys[i]))
  }

  /** `goMapToKuzuStruct`: fields in sorted key order. */
  ghost function EncodeStruct(natives: Natives, m: map<string, GoValue>): Result<KuzuValue, Error>
    decreases StringMap(m), 1
  {
    if |m| == 0 then Failure(EmptyComposite(STRUCT_KIND))
    else
      var keys := SortedKeys(m.Keys);
      match EncodeFieldValues(natives, m, keys, |keys|)
      case Failure(e) => Failure(ChildConversionFailed(ValueInMap, e))
      case Success(values) =>
        var names := CNames(keys);
        if natives.structAccepts(names, values) then Success(StructValue(false, Fields(names, values)))
        else Failure(CreateFailed(STRUCT_KIND, KuzuError))
  }

  /** The first `n` items encoded, key before value, stopping at the first failure. */
  ghost function EncodeItems(natives: Natives, items: seq<MapItem>, n: nat)
    : (r: Result<(seq<KuzuValue>, seq<KuzuValue>), Error>)
    requires n <= |items|
    ensures r.Success? ==> |r.value.0| == n && |r.value.1| == n
    decreases MapItems(items), 0, n
  {
    if n == 0 then Success(([], []))
    else
      match EncodeItems(natives, items, n - 1)
      case Failure(e) => Failure(e)
      case Success(prefix) =>
        var item := items[n - 1];
        assert item.key < item && item.value < item;
        match Encode(natives, item.key)
        case Failure(e) => Failure(ChildConversionFailed(KeyInSlice, e))
        case Success(k) =>
          match Encode(natives, item.value)
          case Failure(e) => Failure(ChildConversionFailed(ValueInSlice, e))
          case Success(x) => Success((prefix.0 + [k], prefix.1 + [x]))
  }

  /** The entries of a map value, pairing keys and values by position. */
  function Entries(keys: seq<KuzuValue>, values: seq<KuzuValue>): (entries: seq<Entry>)
    requires |keys| == |values|
    ensures |entries| == |keys|
  {
    seq(|keys|, i requires 0 <= i < |keys| => Entry(keys[i], values[i]))
  }

  /** `goSliceOfMapItemsToKuzuMap`. */
  ghost function EncodeMap(natives: Natives, items: seq<MapItem>): Result<KuzuValue, Error>
    decreases MapItems(items), 1
  {
    if |items| == 0 then Failure(EmptyComposite(MAP_KIND))
    else
      match EncodeItems(natives, items, |items|)
      case Failure(e) => Failure(e)
      case Success((keys, values)) =>
        if natives.mapAccepts(keys, values) then Success(MapValue(Entries(keys, values)))
        else Failure(CreateFailed(MAP_KIND, KuzuError))
  }

  // ---------------------------------------------------------------- lemmas

  /** Once a prefix of the elements fails, every longer prefix fails with the same error. */
  lemma {:induction false} ElementFailureSticks(natives: Natives, elems: seq<GoValue>, i: nat, n: nat)
    requires i <= n <= |elems|
    requires EncodeElements(natives, elems, i).Failure?
    ensures EncodeElements(natives, elems, n) == EncodeElements(natives, elems, i)
    decreases n
  {
    if n > i {
      ElementFailureSticks(natives, elems, i, n - 1);
    }
  }

  /** The elements encode exactly when each one does, and then in order. */
  lemma ElementsSucceed(natives: Natives, elems: seq<GoValue>, n: nat)
    requires n <= |elems|
    ensures EncodeElements(natives, elems, n).Success?
        <==> forall i :: 0 <= i < n ==> Encode(natives, elems[i]).Success?
    ensures EncodeElements(natives, elems, n).Success? ==>
              forall i :: 0 <= i < n ==> EncodeElements(natives, elems, n).value[i] == Encode(natives, elems[i]).value
  {
    ElementsSucceedExactly(natives, elems, n);
    if EncodeElements(natives, elems, n).Success? {
      ElementsInOrder(natives, elems, n);
    }
  }

  lemma {:induction false} ElementsSucceedExactly(natives: Natives, elems: seq<GoValue>, n: nat)
    requires n <= |elems|
    ensures EncodeElements(natives, elems, n).Success?
        <==> forall i :: 0 <= i < n ==> Encode(natives, elems[i]).Success?
  {
    if n > 0 {
      ElementsSucceedExactly(natives, elems, n - 1);
      if EncodeElements(natives, elems, n - 1).Failure? {
        assert EncodeElements(natives, elems, n).Failure?;
      }
    }
  }

  lemma {:induction false} ElementsInOrder(natives: Natives, elems: seq<GoValue>, n: nat)
    requires n <= |elems|
    requires EncodeElements(natives, elems, n).Success?
    ensures forall i :: 0 <= i < n ==>
              Encode(natives, elems[i]).Success? && EncodeElements(natives, elems, n).value[i] == Encode(natives, elems[i]).value
  {
    if n > 0 {
      var prev := EncodeElements(natives, elems, n - 1);
      assert prev.Success? && Encode(natives, elems[n - 1]).Success?;
      ElementsInOrder(natives, elems, n - 1);
      var values := prev.value + [Encode(natives, elems[n - 1]).value];
      assert EncodeElements(natives, elems, n) == Success(values);
      forall i | 0 <= i < n
        ensures Encode(natives, elems[i]).Success? && values[i] == Encode(natives, elems[i]).value
      {
        if i < n - 1 {
          assert values[i] == prev.value[i];
        }
      }
    }
  }

  /** When the values of the first `n` sorted keys encode, each entry is its own value's encoding. */
  lemma {:induction false} FieldValuesSucceed(natives: Natives, m: map<string, GoValue>, keys: seq<string>, n: nat)
    requires n <= |keys|
    requires forall k :: k in keys ==> k in m
    requires EncodeFieldValues(natives, m, keys, n).Success?
    ensures forall i :: 0 <= i < n ==>
              && Encode(natives, m[keys[i]]).Success?
              && EncodeFieldValues(natives, m, keys, n).value[i] == Encode(natives, m[keys[i]]).value
  {
    if n > 0 {
      FieldValuesSucceed(natives, m, keys, n - 1);
    }
  }

  /** When the first `n` items encode, each key and value in the result is that item's own encoding. */
  lemma {:induction false} ItemsSucceed(natives: Natives, items: seq<MapItem>, n: nat)
    requires n <= |items|
    requires EncodeItems(natives, items, n).Success?
    ensures forall i :: 0 <= i < n ==>
              && Encode(natives, items[i].key).Success?
              && Encode(natives, items[i].value).Success?
              && EncodeItems(natives, items, n).value.0[i] == Encode(natives, items[i].key).value
              && EncodeItems(natives, items, n).value.1[i] == Encode(natives, items[i].value).value
  {
    if n > 0 {
      ItemsSucceed(natives, items, n - 1);
    }
  }

  /**
   * A slice whose `i`-th element is the first that cannot be encoded fails with that
   * element's error, wrapped as a failed slice value; nothing after it is looked at.
   */
  lemma FirstElementFailureAborts(natives: Natives, elems: seq<GoValue>, i: nat)
    requires i < |elems|
    requires forall j :: 0 <= j < i ==> Encode(natives, elems[j]).Success?
    requires Encode(natives, elems[i]).Failure?
    ensures Encode(natives, Slice(elems)) == Failure(ChildConversionFailed(ValueInSlice, Encode(natives, elems[i]).error))
  {
    ElementsSucceed(natives, elems, i);
    assert EncodeElements(natives, elems, i + 1) == Failure(Encode(natives, elems[i]).error);
    ElementFailureSticks(natives, elems, i + 1, |elems|);
  }

  /** An empty slice, map or MapItem slice is refused before anything is created. */
  lemma EmptyCompositesRefused(natives: Natives)
    ensures Encode(natives, Slice([])) == Failure(EmptyComposite(LIST_KIND))
    ensures Encode(natives, StringMap(map[])) == Failure(EmptyComposite(STRUCT_KIND))
    ensures Encode(natives, MapItems([])) == Failure(EmptyComposite(MAP_KIND))
  {
    var empty: map<string, GoValue> := map[];
    assert |empty| == 0;
  }

  /** A struct that encodes is built from the sorted keys' C names and their values' encodings. */
  lemma StructShape(natives: Natives, m: map<string, GoValue>)
    requires Encode(natives, StringMap(m)).Success?
    ensures var keys := SortedKeys(m.Keys);
      && EncodeFieldValues(natives, m, keys, |keys|).Success?
      && Encode(natives, StringMap(m)).value
         == StructValue(false, Fields(CNames(keys), EncodeFieldValues(natives, m, keys, |keys|).value))
  {
  }

  /** The names of a struct's fields, in order. */
  function FieldNames(fields: seq<Field>): (names: seq<string>)
    ensures |names| == |fields|
    ensures forall i :: 0 <= i < |fields| ==> names[i] == fields[i].name
  {
    seq(|fields|, i requires 0 <= i < |fields| => fields[i].name)
  }

  /**
   * Two maps with the same keys give structs whose fields come in the same order, the
   * keys' sorted order, whatever order each map is ranged over: what lets a LIST of
   * STRUCTs built from such maps share one element type.
   */
  lemma SameKeysSameFieldOrder(natives: Natives, m1: map<string, GoValue>, m2: map<string, GoValue>)
    requires m1.Keys == m2.Keys
    requires Encode(natives, StringMap(m1)).Success? && Encode(natives, StringMap(m2)).Success?
    ensures Encode(natives, StringMap(m1)).value.StructValue?
    ensures Encode(natives, StringMap(m2)).value.StructValue?
    ensures FieldNames(Encode(natives, StringMap(m1)).value.fields)
         == FieldNames(Encode(natives, StringMap(m2)).value.fields)
  {
    StructShape(natives, m1);
    StructShape(natives, m2);
  }

  /** With NUL-free keys the C names are the keys themselves. */
  lemma CNamesOfNulFree(keys: seq<string>)
    requires forall i :: 0 <= i < |keys| ==> '\0' !in keys[i]
    ensures CNames(keys) == keys
  {
    forall i | 0 <= i < |keys|
      ensures CNames(keys)[i] == keys[i]
    {
      PrefixBeforeWithoutStop(keys[i], '\0');
    }
  }

  /**
   * With NUL-free keys, a struct's field names are the map's keys in strictly increasing
   * order, each key once.
   */
  lemma StructFieldsSorted(natives: Natives, m: map<string, GoValue>)
    requires forall k :: k in m ==> '\0' !in k
    requires Encode(natives, StringMap(m)).Success?
    ensures Encode(natives, StringMap(m)).value.StructValue?
    ensures var names := FieldNames(Encode(natives, StringMap(m)).value.fields);
      && names == SortedKeys(m.Keys)
      && StrictlySorted(names)
      && (forall k :: k in m <==> k in names)
  {
    StructShape(natives, m);
    var keys := SortedKeys(m.Keys);
    CNamesOfNulFree(keys);
  }

  // ---------------------------------------------------------------- the loops

  /** `goValueToKuzuValue`: the type switch, handing composites to their helpers. */
  method GoValueToKuzuValue(natives: Natives, v: GoValue) returns (r: Result<KuzuValue, Error>)
    ensures r == Encode(natives, v)
    decreases v, 2
  {
    if v.Slice? {
      r := GoSliceToKuzuList(natives, v.elems);
    } else if v.StringMap? {
      r := GoMapToKuzuStruct(natives, v.m);
    } else if v.MapItems? {
      r := GoSliceOfMapItemsToKuzuMap(natives, v.items);
    } else {
      r := EncodeScalar(v);
    }
  }

  /** `goSliceToKuzuList`: convert each element in turn, returning at the first failure. */
  method GoSliceToKuzuList(natives: Natives, slice: seq<GoValue>) returns (r: Result<KuzuValue, Error>)
    ensures r == EncodeList(natives, slice)
    decreases Slice(slice), 1
  {
    if |slice| == 0 {
      return Failure(EmptyComposite(LIST_KIND));
    }
    var values: seq<KuzuValue> := [];
    var i := 0;
    while i < |slice|
      invariant 0 <= i <= |slice|
      invariant EncodeElements(natives, slice, i) == Success(values)
    {
      var value := GoValueToKuzuValue(natives, slice[i]);
      if value.Failure? {
        ElementFailureSticks(natives, slice, i + 1, |slice|);
        return Failure(ChildConversionFailed(ValueInSlice, value.error));
      }
      values := values + [value.value];
      i := i + 1;
    }
    if natives.listAccepts(values) {
      r := Success(ListValue(false, values));
    } else {
      r := Failure(CreateFailed(LIST_KIND, KuzuError));
    }
  }

  /**
   * `goMapToKuzuStruct`: range over the map in an order of the runtime's choosing, sort the
   * keys with `sort.Strings`, then convert the values in key order.
   */
  method GoMapToKuzuStruct(natives: Natives, m: map<string, GoValue>) returns (r: Result<KuzuValue, Error>)
    ensures r == EncodeStruct(natives, m)
    decreases StringMap(m), 1
  {
    if |m| == 0 {
      return Failure(EmptyComposite(STRUCT_KIND));
    }
    var sortedKeys := SortMapKeys(m);
    var names: seq<string> := [];
    var values: seq<KuzuValue> := [];
    var i := 0;
    while i < |sortedKeys|
      invariant 0 <= i <= |sortedKeys|
      invariant sortedKeys == SortedKeys(m.Keys)
      invariant EncodeFieldValues(natives, m, sortedKeys, i) == Success(values)
      invariant names == CNames(sortedKeys[..i])
    {
      var k := sortedKeys[i];
      CNamesStep(sortedKeys, i);
      names := names + [CStr(k)];
      var value := GoValueToKuzuValue(natives, m[k]);
      if value.Failure? {
        FieldFailureAborts(natives, m, sortedKeys, i + 1, value.error);
        return Failure(ChildConversionFailed(ValueInMap, value.error));
      }
      FieldValuesStep(natives, m, sortedKeys, i, values, value.value);
      values := values + [value.value];
      i := i + 1;
    }
    assert sortedKeys[..i] == sortedKeys;
    StructFromFieldValues(natives, m, values);
    if natives.structAccepts(names, values) {
      r := Success(StructValue(false, Fields(names, values)));
    } else {
      r := Failure(CreateFailed(STRUCT_KIND, KuzuError));
    }
  }

  /** Naming one more key appends its C name. */
  lemma CNamesStep(keys: seq<string>, i: nat)
    requires i < |keys|
    ensures CNames(keys[..i + 1]) == CNames(keys[..i]) + [CStr(keys[i])]
  {
  }

  /** One more key whose value encodes appends that value. */
  lemma FieldValuesStep(natives: Natives, m: map<string, GoValue>, keys: seq<string>, i: nat,
                        values: seq<KuzuValue>, x: KuzuValue)
    requires i < |keys|
    requires forall k :: k in keys ==> k in m
    requires EncodeFieldValues(natives, m, keys, i) == Success(values)
    requires Encode(natives, m[keys[i]]) == Success(x)
    ensures EncodeFieldValues(natives, m, keys, i + 1) == Success(values + [x])
  {
  }

  /** Once the values of a prefix of the sorted keys fail, the struct fails with their error. */
  lemma FieldFailureAborts(natives: Natives, m: map<string, GoValue>, keys: seq<string>, i: nat, e: Error)
    requires keys == SortedKeys(m.Keys)
    requires i <= |keys|
    requires EncodeFieldValues(natives, m, keys, i) == Failure(e)
    ensures EncodeStruct(natives, m) == Failure(ChildConversionFailed(ValueInMap, e))
  {
    FieldFailureSticks(natives, m, keys, i, |keys|);
  }

  /** Once every value encodes, the struct is what the engine makes of the C names and values. */
  lemma StructFromFieldValues(natives: Natives, m: map<string, GoValue>, values: seq<KuzuValue>)
    requires |m| > 0
    requires EncodeFieldValues(natives, m, SortedKeys(m.Keys), |SortedKeys(m.Keys)|) == Success(values)
    ensures var names := CNames(SortedKeys(m.Keys));
      EncodeStruct(natives, m)
      == if natives.structAccepts(names, values) then Success(StructValue(false, Fields(names, values)))
         else Failure(CreateFailed(STRUCT_KIND, KuzuError))
  {
  }

  /** The keys of `m` collected into a slice and sorted with `sort.Strings`. */
  method SortMapKeys(m: map<string, GoValue>) returns (sortedKeys: seq<string>)
    ensures sortedKeys == SortedKeys(m.Keys)
  {
    var a := CollectKeys(m.Keys);
    SortStrings(a);
    SortedFromSet(a[..], m.Keys);
    sortedKeys := a[..];
  }

  /** `for k := range value { sortedKeys = append(sortedKeys, k) }`: every key once, in any order. */
  method CollectKeys(keySet: set<string>) returns (keys: array<string>)
    ensures fresh(keys)
    ensures multiset(keys[..]) == multiset(keySet)
  {
    keys := new string[|keySet|](_ => "");
    var rest := keySet;
    ghost var seen: set<string> := {};
    var i := 0;
    while rest != {}
      invariant 0 <= i <= keys.Length
      invariant seen !! rest && seen + rest == keySet
      invariant i + |rest| == keys.Length
      invariant multiset(keys[..i]) == multiset(seen)
      decreases rest
    {
      var k :| k in rest;
      keys[i] := k;
      AddKey(keys[..i], seen, k);
      assert keys[..i + 1] == keys[..i] + [k];
      seen := seen + {k};
      rest := rest - {k};
      i := i + 1;
    }
    assert keys[..i] == keys[..];
  }

  /** Appending a key not seen before adds it to the multiset. */
  lemma AddKey(s: seq<string>, seen: set<string>, k: string)
    requires multiset(s) == multiset(seen)
    requires k !in seen
    ensures multiset(s + [k]) == multiset(seen + {k})
  {
  }

  /** Once a prefix of the sorted keys fails, every longer prefix fails with the same error. */
  lemma {:induction false} FieldFailureSticks(natives: Natives, m: map<string, GoValue>, keys: seq<string>, i: nat, n: nat)
    requires i <= n <= |keys|
    requires forall k :: k in keys ==> k in m
    requires EncodeFieldValues(natives, m, keys, i).Failure?
    ensures EncodeFieldValues(natives, m, keys, n) == EncodeFieldValues(natives, m, keys, i)
    decreases n
  {
    if n > i {
      FieldFailureSticks(natives, m, keys, i, n - 1);
    }
  }

  /** `goSliceOfMapItemsToKuzuMap`: convert each key, then its value, returning at the first failure. */
  method GoSliceOfMapItemsToKuzuMap(natives: Natives, slice: seq<MapItem>) returns (r: Result<KuzuValue, Error>)
    ensures r == EncodeMap(natives, slice)
    decreases MapItems(slice), 1
  {
    if |slice| == 0 {
      return Failure(EmptyComposite(MAP_KIND));
    }
    var keys: seq<KuzuValue> := [];
    var values: seq<KuzuValue> := [];
    var i := 0;
    while i < |slice|
      invariant 0 <= i <= |slice|
      invariant EncodeItems(natives, slice, i) == Success((keys, values))
    {
      var item := slice[i];
      assert item.key < item && item.value < item;
      var key := GoValueToKuzuValue(natives, item.key);
      if key.Failure? {
        ItemFailureSticks(natives, slice, i + 1, |slice|);
        return Failure(ChildConversionFailed(KeyInSlice, key.error));
      }
      keys := keys + [key.value];
      var value := GoValueToKuzuValue(natives, item.value);
      if value.Failure? {
        ItemFailureSticks(natives, slice, i + 1, |slice|);
        return Failure(ChildConversionFailed(ValueInSlice, value.error));
      }
      values := values + [value.value];
      i := i + 1;
    }
    if natives.mapAccepts(keys, values) {
      r := Success(MapValue(Entries(keys, values)));
    } else {
      r := Failure(CreateFailed(MAP_KIND, KuzuError));
    }
  }

  /** Once a prefix of the items fails, every longer prefix fails with the same error. */
  lemma {:induction false} ItemFailureSticks(natives: Natives, items: seq<MapItem>, i: nat, n: nat)
    requires i <= n <= |items|
    requires EncodeItems(natives, items, i).Failure?
    ensures EncodeItems(natives, items, n) == EncodeItems(natives, items, i)
    decreases n
  {
    if n > i {
      ItemFailureSticks(natives, items, i, n - 1);
    }
  }
}

=== FILE: keyorder.dfy ===
/**
 * The order `sort.Strings` puts map keys in before a Go map becomes an engine
 * STRUCT. Go compares strings byte by byte; on valid UTF-8, which preserves code
 * point order, that is the lexicographic order on characters that Dafny strings
 * (sequences of code points) are compared in here, a proper prefix coming first.
 */
module KeyOrder {

  /** Go's `a < b` on strings. */
  predicate Less(a: string, b: string)
    decreases |a|
  {
    if |b| == 0 then false
    else if |a| == 0 then true
    else if a[0] != b[0] then a[0] < b[0]
    else Less(a[1..], b[1..])
  }

  lemma {:induction false} LessIrreflexive(a: string)
    ensures !Less(a, a)
    decreases |a|
  {
    if |a| > 0 {
      LessIrreflexive(a[1..]);
    }
  }

  lemma {:induction false} LessAsymmetric(a: string, b: string)
    requires Less(a, b)
    ensures !Less(b, a)
    decreases |a|
  {
    if |a| > 0 && |b| > 0 && a[0] == b[0] {
      LessAsymmetric(a[1..], b[1..]);
    }
  }

  lemma {:induction false} LessTransitive(a: string, b: string, c: string)
    requires Less(a, b) && Less(b, c)
    ensures Less(a, c)
    decreases |a|
  {
    if |a| > 0 && a[0] == b[0] && b[0] == c[0] {
      LessTransitive(a[1..], b[1..], c[1..]);
    }
  }

  /** Any two different strings are ordered one way or the other. */
  lemma {:induction false} LessTotal(a: string, b: string)
    requires a != b
    ensures Less(a, b) || Less(b, a)
    decreases |a|
  {
    if |a| > 0 && |b| > 0 && a[0] == b[0] {
      assert a == [a[0]] + a[1..] && b == [b[0]] + b[1..];
      LessTotal(a[1..], b[1..]);
    }
  }

  /** Every adjacent pair in order: what a sort produces. */
  predicate NonDecreasing(s: seq<string>) {
    forall k :: 0 < k < |s| ==> !Less(s[k], s[k - 1])
  }

  /** Strictly increasing: the order of distinct keys after sorting. */
  predicate StrictlySorted(s: seq<string>) {
    forall i, j :: 0 <= i < j < |s| ==> Less(s[i], s[j])
  }

  /** Distinct keys in non-decreasing adjacent order are strictly increasing throughout. */
  lemma {:induction false} NonDecreasingDistinctIsStrict(s: seq<string>)
    requires NonDecreasing(s)
    requires forall i, j :: 0 <= i < j < |s| ==> s[i] != s[j]
    ensures StrictlySorted(s)
    decreases |s|
  {
    if |s| > 1 {
      var t := s[..|s| - 1];
      assert NonDecreasing(t);
      NonDecreasingDistinctIsStrict(t);
      var n := |s| - 1;
      LessTotal(s[n - 1], s[n]);
      forall i | 0 <= i < n
        ensures Less(s[i], s[n])
      {
        if i < n - 1 {
          assert Less(t[i], t[n - 1]);
          LessTransitive(s[i], s[n - 1], s[n]);
        }
      }
    }
  }

  /** In a strictly sorted sequence the first element is less than every other element. */
  lemma FirstIsLeast(s: seq<string>, x: string)
    requires StrictlySorted(s)
    requires x in s && x != s[0]
    ensures Less(s[0], x)
  {
    var i :| 0 <= i < |s| && s[i] == x;
  }

  /** Two strictly sorted sequences with the same length and elements are the same sequence. */
  lemma {:induction false} StrictlySortedUnique(a: seq<string>, b: seq<string>)
    requires StrictlySorted(a) && StrictlySorted(b)
    requires |a| == |b|
    requires forall x :: x in a <==> x in b
    ensures a == b
    decreases |a|
  {
    if |a| > 0 {
      // the first element of each is the least element of both
      if a[0] != b[0] {
        FirstIsLeast(b, a[0]);
        FirstIsLeast(a, b[0]);
        LessAsymmetric(a[0], b[0]);
        assert false;
      }
      forall x
        ensures x in a[1..] <==> x in b[1..]
      {
        if x in a[1..] {
          var i :| 1 <= i < |a| && a[i] == x;
          LessIrreflexive(a[0]);
          assert x in b;
          var j :| 0 <= j < |b| && b[j] == x;
          assert b[1..][j - 1] == x;
        }
        if x in b[1..] {
          var j :| 1 <= j < |b| && b[j] == x;
          LessIrreflexive(b[0]);
          assert x in a;
          var i :| 0 <= i < |a| && a[i] == x;
          assert a[1..][i - 1] == x;
        }
      }
      StrictlySortedUnique(a[1..], b[1..]);
      assert a == [a[0]] + a[1..] && b == [b[0]] + b[1..];
    }
  }

  /** `m` is a key of `keys` and less than each of the others. */
  predicate IsLeast(m: string, keys: set<string>) {
    m in keys && forall k :: k in keys && k != m ==> Less(m, k)
  }

  /** A least key of a non-empty set. */
  lemma {:induction false} LeastExists(keys: set<string>)
    requires keys != {}
    ensures exists m :: IsLeast(m, keys)
    decreases keys
  {
    var x :| x in keys;
    if keys == {x} {
      assert IsLeast(x, keys);
    } else {
      var rest := keys - {x};
      LeastExists(rest);
      var m :| IsLeast(m, rest);
      assert keys == rest + {x};
      LeastOfAdded(m, rest, x);
    }
  }

  /** Adding a key to a set keeps its least key, or the new key is the least. */
  lemma LeastOfAdded(m: string, rest: set<string>, x: string)
    requires IsLeast(m, rest) && x !in rest
    ensures Less(m, x) ==> IsLeast(m, rest + {x})
    ensures !Less(m, x) ==> IsLeast(x, rest + {x})
  {
    LessTotal(m, x);
    if !Less(m, x) {
      forall k | k in rest + {x} && k != x
        ensures Less(x, k)
      {
        if k != m {
          LessTransitive(x, m, k);
        }
      }
    }
  }

  /** The keys of a set in increasing order: what `sort.Strings` makes of a map's keys. */
  ghost function SortedKeys(keys: set<string>): (r: seq<string>)
    ensures StrictlySorted(r)
    ensures |r| == |keys|
    ensures forall k :: k in r <==> k in keys
    decreases keys
  {
    if keys == {} then []
    else
      LeastExists(keys);
      var m :| IsLeast(m, keys);
      var rest := SortedKeys(keys - {m});
      assert forall k :: k in rest ==> Less(m, k);
      [m] + rest
  }

  /**
   * `sort.Strings`, as an insertion sort: afterwards the slice holds the same strings,
   * each adjacent pair in order.
   */
  method SortStrings(a: array<string>)
    modifies a
    ensures NonDecreasing(a[..])
    ensures multiset(a[..]) == multiset(old(a[..]))
  {
    var i := 0;
    while i < a.Length
      invariant 0 <= i <= a.Length
      invariant NonDecreasing(a[..i])
      invariant multiset(a[..]) == multiset(old(a[..]))
    {
      InsertAt(a, i);
      i := i + 1;
    }
    assert a[..a.Length] == a[..];
  }

  /** One insertion step: `a[i]` moves left past every greater string before it. */
  method InsertAt(a: array<string>, i: nat)
    requires i < a.Length
    requires NonDecreasing(a[..i])
    modifies a
    ensures NonDecreasing(a[..i + 1])
    ensures multiset(a[..]) == multiset(old(a[..]))
  {
    var j := i;
    assert a[j..i + 1] == [a[i]];
    while j > 0 && Less(a[j], a[j - 1])
      invariant 0 <= j <= i
      invariant NonDecreasing(a[..j])
      invariant NonDecreasing(a[j..i + 1])
      invariant 0 < j < i ==> !Less(a[j + 1], a[j - 1])
      invariant multiset(a[..]) == multiset(old(a[..]))
    {
      ghost var before := a[..];
      a[j - 1], a[j] := a[j], a[j - 1];
      InsertionStep(before, a[..], i, j);
      j := j - 1;
    }
    JoinAt(a[..], i, j);
  }

  /** The swap of one insertion step keeps both sorted runs and the multiset. */
  lemma InsertionStep(s: seq<string>, t: seq<string>, i: nat, j: nat)
    requires 0 < j <= i < |s| == |t|
    requires NonDecreasing(s[..j]) && NonDecreasing(s[j..i + 1])
    requires j < i ==> !Less(s[j + 1], s[j - 1])
    requires Less(s[j], s[j - 1])
    requires t == s[j - 1 := s[j]][j := s[j - 1]]
    ensures NonDecreasing(t[..j - 1]) && NonDecreasing(t[j - 1..i + 1])
    ensures 0 < j - 1 ==> !Less(t[j], t[j - 2])
    ensures multiset(t) == multiset(s)
  {
    LessAsymmetric(s[j], s[j - 1]);
    assert t[..j - 1] == s[..j - 1];
    forall k | j - 1 < k <= i
      ensures !Less(t[k], t[k - 1])
    {
      if k > j + 1 {
        assert s[j..i + 1][k - j] == s[k] && s[j..i + 1][k - j - 1] == s[k - 1];
      }
    }
    var u := t[j - 1..i + 1];
    forall k | 0 < k < |u|
      ensures !Less(u[k], u[k - 1])
    {
      assert u[k] == t[j - 1 + k] && u[k - 1] == t[j - 1 + k - 1];
    }
    if j - 1 > 0 {
      assert s[..j][j - 1] == s[j - 1] && s[..j][j - 2] == s[j - 2];
    }
    SwapKeepsMultiset(s, t, j - 1, j);
  }

  /** Where the insertion stops, the two sorted runs join into one. */
  lemma JoinAt(s: seq<string>, i: nat, j: nat)
    requires j <= i < |s|
    requires NonDecreasing(s[..j]) && NonDecreasing(s[j..i + 1])
    requires j < i && 0 < j ==> !Less(s[j + 1], s[j - 1])
    requires j > 0 ==> !Less(s[j], s[j - 1])
    ensures NonDecreasing(s[..i + 1])
  {
    var u := s[..i + 1];
    forall k | 0 < k < |u|
      ensures !Less(u[k], u[k - 1])
    {
      if k < j {
        assert s[..j][k] == s[k] && s[..j][k - 1] == s[k - 1];
      } else if k > j {
        assert s[j..i + 1][k - j] == s[k] && s[j..i + 1][k - j - 1] == s[k - 1];
      }
    }
  }

  /** Exchanging two entries keeps the multiset of a sequence. */
  lemma SwapKeepsMultiset(s: seq<string>, t: seq<string>, i: nat, j: nat)
    requires i < j < |s| == |t|
    requires t == s[i := s[j]][j := s[i]]
    ensures multiset(t) == multiset(s)
  {
    assert s == s[..i] + [s[i]] + s[i + 1..j] + [s[j]] + s[j + 1..];
    assert t == s[..i] + [s[j]] + s[i + 1..j] + [s[i]] + s[j + 1..];
  }

  /** A string present at two positions is counted twice. */
  lemma TwoCopies(s: seq<string>, i: nat, j: nat)
    requires i < j < |s| && s[i] == s[j]
    ensures multiset(s)[s[i]] >= 2
  {
    assert s == s[..i] + [s[i]] + s[i + 1..j] + [s[j]] + s[j + 1..];
  }

  /**
   * Sorting the keys of a map, collected in any order, gives `SortedKeys`: the result
   * depends only on the set of keys, never on the order the map was ranged over.
   */
  lemma SortedFromSet(s: seq<string>, keys: set<string>)
    requires multiset(s) == multiset(keys)
    requires NonDecreasing(s)
    ensures s == SortedKeys(keys)
  {
    forall i, j | 0 <= i < j < |s|
      ensures s[i] != s[j]
    {
      if s[i] == s[j] {
        TwoCopies(s, i, j);
        assert false;
      }
    }
    NonDecreasingDistinctIsStrict(s);
    var r := SortedKeys(keys);
    forall x
      ensures x in s <==> x in r
    {
      assert x in s <==> x in multiset(s);
    }
    assert |s| == |multiset(s)| == |multiset(keys)| == |keys|;
    StrictlySortedUnique(s, r);
  }
}

=== FILE: queryresult.dfy ===
/**
 * The state a `QueryResult` keeps on the Go side: a column-name cache filled on first
 * use, a closed flag that makes `Close` run the native destroy at most once, and the
 * row-count accessor that consults the cache.
 *
 * The native query result is seen through what it reports (its column names, in
 * column-index order, and its tuple count) and through the log of calls made on it.
 */
module Results {
  import opened Wrappers
  import opened Values

  /** The native calls a query result makes, in the order it makes them. */
  datatype ResultCall =
    | NumColumns                  // kuzu_query_result_get_num_columns
    | ColumnName(index: nat)      // kuzu_query_result_get_column_name
    | NumTuples                   // kuzu_query_result_get_num_tuples
    | DestroyResult               // kuzu_query_result_destroy

  /** Engine strings after `C.GoString`: each cut at its first NUL, in the same order. */
  function GoStrings(cs: seq<string>): (r: seq<string>)
    ensures |r| == |cs|
    ensures forall i :: 0 <= i < |cs| ==> r[i] == CStr(cs[i])
    ensures forall i :: 0 <= i < |r| ==> '\0' !in r[i]
  {
    if cs == [] then [] else GoStrings(cs[..|cs| - 1]) + [CStr(cs[|cs| - 1])]
  }

  /** The column-name requests for the first `n` columns, by increasing index. */
  function NameQueries(n: nat): (r: seq<ResultCall>)
    ensures |r| == n
    ensures forall j :: 0 <= j < n ==> r[j] == ColumnName(j)
  {
    if n == 0 then [] else NameQueries(n - 1) + [ColumnName(n - 1)]
  }

  /**
   * The answer of `GetNumberOfRows` as written: the length of the column-name cache once
   * that is filled, the engine's tuple count before.
   */
  function NumberOfRowsAsWritten(cache: Option<seq<string>>, tuples: nat): (n: nat)
    ensures cache.None? ==> n == tuples
    ensures cache.Some? ==> n == |cache.value|
  {
    match cache
    case None => tuples
    case Some(names) => |names|
  }

  /**
   * Once the column names are cached, `GetNumberOfRows` reports the number of columns,
   * not the number of tuples: a result with two columns and five rows answers 2.
   */
  lemma RowCountReportsColumns()
    ensures NumberOfRowsAsWritten(Some(GoStrings(["name", "age"])), 5) == 2
    ensures NumberOfRowsAsWritten(None, 5) == 5
  {
  }

  /** As written, the answer depends on the cache exactly when the column and tuple counts differ. */
  lemma RowCountDependsOnCache(columns: seq<string>, tuples: nat)
    ensures NumberOfRowsAsWritten(Some(GoStrings(columns)), tuples) == NumberOfRowsAsWritten(None, tuples)
            <==> |columns| == tuples
  {
  }

  class QueryResult {
    /** The column names the engine reports, by column index. */
    const engineColumns: seq<string>
    /** The number of tuples the engine reports. */
    const engineTuples: nat

    var isClosed: bool
    /** The Go `columnNames` slice: `None` while nil; an empty slice is a filled cache. */
    var columnNames: Option<seq<string>>
    /** The native calls made so far on this result. */
    var calls: seq<ResultCall>

    /** The cache, once filled, holds the engine's column names as Go strings. */
    ghost predicate Valid()
      reads this
    {
      columnNames.Some? ==> columnNames.value == GoStrings(engineColumns)
    }

    constructor (columns: seq<string>, tuples: nat)
      ensures Valid()
      ensures engineColumns == columns && engineTuples == tuples
      ensures !isClosed && columnNames.None? && calls == []
    {
      engineColumns, engineTuples := columns, tuples;
      isClosed, columnNames, calls := false, None, [];
    }

    /** `Close`: destroy the native result unless it is already closed. */
    method Close()
      modifies this
      ensures isClosed
      ensures calls == if old(isClosed) then old(calls) else old(calls) + [DestroyResult]
      ensures columnNames == old(columnNames)
    {
      if isClosed {
        return;
      }
      calls := calls + [DestroyResult];
      isClosed := true;
    }

    /**
     * `GetColumnNames`: the engine's column names in column-index order. The first call asks
     * the engine for the column count and then for each name, and fills the cache; every
     * later call answers from the cache without asking the engine anything.
     */
    method GetColumnNames() returns (names: seq<string>)
      requires Valid()
      modifies this
      ensures Valid()
      ensures names == GoStrings(engineColumns)
      ensures columnNames == Some(names)
      ensures old(columnNames).Some? ==> calls == old(calls)
      ensures old(columnNames).None? ==> calls == old(calls) + [NumColumns] + NameQueries(|engineColumns|)
      ensures isClosed == old(isClosed)
    {
      if columnNames.Some? {
        return columnNames.value;
      }
      var numColumns := |engineColumns|;
      calls := calls + [NumColumns];
      var columns := [];
      var i := 0;
      while i < numColumns
        invariant 0 <= i <= numColumns
        invariant columns == GoStrings(engineColumns[..i])
        invariant calls == old(calls) + [NumColumns] + NameQueries(i)
        invariant columnNames == old(columnNames) && isClosed == old(isClosed)
      {
        calls := calls + [ColumnName(i)];
        assert engineColumns[..i + 1][..i] == engineColumns[..i];
        columns := columns + [CStr(engineColumns[i])];
        i := i + 1;
      }
      assert engineColumns[..i] == engineColumns;
      columnNames := Some(columns);
      names := columns;
    }

    /** `GetNumberOfColumns`: always asks the engine, whatever the cache holds. */
    method GetNumberOfColumns() returns (n: nat)
      modifies this
      ensures n == |engineColumns|
      ensures calls == old(calls) + [NumColumns]
      ensures columnNames == old(columnNames) && isClosed == old(isClosed)
    {
      calls := calls + [NumColumns];
      n := |engineColumns|;
    }

    /**
     * `GetNumberOfRows` as written: the engine's tuple count while the cache is empty, but the
     * number of cached column names once `GetColumnNames` has run.
     */
    method GetNumberOfRows() returns (n: nat)
      requires Valid()
      modifies this
      ensures n == NumberOfRowsAsWritten(old(columnNames), engineTuples)
      ensures old(columnNames).Some? ==> n == |engineColumns| && calls == old(calls)
      ensures old(columnNames).None? ==> n == engineTuples && calls == old(calls) + [NumTuples]
      ensures columnNames == old(columnNames) && isClosed == old(isClosed)
    {
      if columnNames.Some? {
        return |columnNames.value|;
      }
      calls := calls + [NumTuples];
      n := engineTuples;
    }

    /** The row count `GetNumberOfRows` is documented to return: the engine's, cache or not. */
    method NumberOfRows() returns (n: nat)
      modifies this
      ensures n == engineTuples
      ensures calls == old(calls) + [NumTuples]
      ensures columnNames == old(columnNames) && isClosed == old(isClosed)
    {
      calls := calls + [NumTuples];
      n := engineTuples;
    }
  }
}

=== FILE: roundtrip.dfy ===
/**
 * What a Go parameter looks like when the engine hands it back: encoding with
 * `goValueToKuzuValue` and decoding with `kuzuValueToGoValue` gives the value back,
 * up to the normalisations the two directions make on purpose or by construction.
 */
module RoundTrip {
  import opened Wrappers
  import opened Temporal
  import opened Values
  import opened KeyOrder
  import opened Decoder
  import opened Encoder

  /**
   * The value a round trip gives back: Go `int` and `uint` come back as `int64` and
   * `uint64`, a string is cut at its first NUL, a duration loses its sub-microsecond part,
   * and composites are normalised element by element.
   */
  function Canonical(v: GoValue): (c: GoValue)
    decreases v
  {
    match v
    case Int(i) => Int64(i)
    case Uint(u) => Uint64(u)
    case Str(s) => Str(CStr(s))
    case Duration(d) => Duration(d - TruncRem(d, NanosPerMicro))
    case Slice(elems) => Slice(seq(|elems|, i requires 0 <= i < |elems| => Canonical(elems[i])))
    case StringMap(m) => StringMap(map k | k in m :: Canonical(m[k]))
    case MapItems(items) =>
      MapItems(seq(|items|, i requires 0 <= i < |items| =>
        var item := items[i];
        assert item.key < item && item.value < item;
        MapItem(Canonical(item.key), Canonical(item.value))))
    case _ => v
  }

  /**
   * The values whose round trip holds: times within Go's int64 nanosecond range (the
   * engine's accessors read 64-bit integers) and struct keys with no NUL (a NUL would
   * merge two keys once cut), recursively.
   */
  predicate Representable(v: GoValue)
    decreases v
  {
    match v
    case Time(t) => IsInt64(t)
    case Slice(elems) => forall i :: 0 <= i < |elems| ==> Representable(elems[i])
    case StringMap(m) => forall k :: k in m ==> '\0' !in k && Representable(m[k])
    case MapItems(items) =>
      forall i :: 0 <= i < |items| ==>
        var item := items[i];
        assert item.key < item && item.value < item;
        Representable(item.key) && Representable(item.value)
    case _ => true
  }

  /** A string already cut at its first NUL is not cut again. */
  lemma CStrIdempotent(s: string)
    ensures CStr(CStr(s)) == CStr(s)
  {
    PrefixBeforeWithoutStop(CStr(s), '\0');
  }

  /** A time within int64 decodes back to itself, on either of the two timestamp flavours. */
  lemma TimeRoundTrip(natives: Natives, t: int)
    requires IsInt64(t)
    ensures DecodeValue(natives, TimeToKuzuValue(t)) == Decoded(Time(t), None)
  {
    if !TimeHasNanoseconds(t) {
      assert IsInt64(TimeToKuzuTimestamp(t));
    }
  }

  /** The non-composite half of the round trip. */
  lemma ScalarRoundTrip(natives: Natives, v: GoValue)
    requires !IsComposite(v) && Representable(v)
    requires EncodeScalar(v).Success?
    ensures DecodeValue(natives, EncodeScalar(v).value) == Decoded(Canonical(v), None)
  {
    if v.Int? || v.Int64? || v.Int32? || v.Int16? || v.Int8? {
      SignedRoundTrip(natives, v);
    } else if v.Uint? || v.Uint64? || v.Uint32? || v.Uint16? || v.Uint8? {
      UnsignedRoundTrip(natives, v);
    } else if v.Str? {
      StrRoundTrip(natives, v.s);
    } else if v.Time? {
      TimeRoundTrip(natives, v.unixNano);
    } else if v.Duration? {
      DurationRoundTrip(natives, v.nanos);
    } else {
      assert v.Nil? || v.Bool? || v.Float64? || v.Float32?;
      PlainRoundTrip(natives, v);
    }
  }

  lemma StrRoundTrip(natives: Natives, s: string)
    ensures DecodeValue(natives, EncodeScalar(Str(s)).value) == Decoded(Canonical(Str(s)), None)
  {
    CStrIdempotent(s);
  }

  lemma DurationRoundTrip(natives: Natives, d: int)
    ensures DecodeValue(natives, EncodeScalar(Duration(d)).value) == Decoded(Canonical(Duration(d)), None)
  {
    IntervalRoundTrip(d);
  }

  lemma PlainRoundTrip(natives: Natives, v: GoValue)
    requires v.Nil? || v.Bool? || v.Float64? || v.Float32?
    ensures DecodeValue(natives, EncodeScalar(v).value) == Decoded(Canonical(v), None)
  {
  }

  lemma SignedRoundTrip(natives: Natives, v: GoValue)
    requires v.Int? || v.Int64? || v.Int32? || v.Int16? || v.Int8?
    ensures DecodeValue(natives, EncodeScalar(v).value) == Decoded(Canonical(v), None)
  {
  }

  lemma UnsignedRoundTrip(natives: Natives, v: GoValue)
    requires v.Uint? || v.Uint64? || v.Uint32? || v.Uint16? || v.Uint8?
    ensures DecodeValue(natives, EncodeScalar(v).value) == Decoded(Canonical(v), None)
  {
  }

  /**
   * Decoding an encoded parameter gives the parameter back, normalised: nothing the
   * encoder accepts is lost or changed on the way back except as `Canonical` says.
   */
  lemma {:induction false} EncodeDecodeRoundTrip(natives: Natives, v: GoValue)
    requires Representable(v)
    requires Encode(natives, v).Success?
    ensures DecodeValue(natives, Encode(natives, v).value) == Decoded(Canonical(v), None)
    decreases v, 1
  {
    if v.Slice? {
      ListRoundTrip(natives, v.elems);
    } else if v.StringMap? {
      StructRoundTrip(natives, v.m);
    } else if v.MapItems? {
      MapRoundTrip(natives, v.items);
    } else {
      ScalarRoundTrip(natives, v);
    }
  }

  lemma {:induction false} ListRoundTrip(natives: Natives, elems: seq<GoValue>)
    requires Representable(Slice(elems))
    requires Encode(natives, Slice(elems)).Success?
    ensures DecodeValue(natives, Encode(natives, Slice(elems)).value) == Decoded(Canonical(Slice(elems)), None)
    decreases Slice(elems), 0
  {
    var values := EncodeElements(natives, elems, |elems|).value;
    assert Encode(natives, Slice(elems)).value == ListValue(false, values);
    ElementsSucceed(natives, elems, |elems|);
    forall i | 0 <= i < |elems|
      ensures DecodeValue(natives, values[i]) == Decoded(Canonical(elems[i]), None)
    {
      EncodeDecodeRoundTrip(natives, elems[i]);
    }
    ElementsRoundTrip(natives, elems, values);
  }

  /** Elements that each decode to the normalised Go elements decode to the normalised slice. */
  lemma ElementsRoundTrip(natives: Natives, elems: seq<GoValue>, values: seq<KuzuValue>)
    requires |values| == |elems|
    requires forall i :: 0 <= i < |elems| ==> DecodeValue(natives, values[i]) == Decoded(Canonical(elems[i]), None)
    ensures DecodeValue(natives, ListValue(false, values)) == Decoded(Canonical(Slice(elems)), None)
  {
    ListDecoding(natives, false, values);
    var d := DecodeValue(natives, ListValue(false, values));
    assert d.value.elems == Canonical(Slice(elems)).elems;
  }

  /** NUL-free keys name themselves, so the names the decoder sees are the sorted keys. */
  lemma SortedNames(keys: seq<string>, values: seq<KuzuValue>)
    requires |keys| == |values|
    requires StrictlySorted(keys)
    requires forall i :: 0 <= i < |keys| ==> '\0' !in keys[i]
    ensures NamesOf(Fields(CNames(keys), values)) == keys
    ensures forall i, j :: 0 <= i < j < |keys| ==> keys[i] != keys[j]
  {
    CNamesOfNulFree(keys);
    var names := NamesOf(Fields(keys, values));
    forall i | 0 <= i < |keys|
      ensures names[i] == keys[i]
    {
      PrefixBeforeWithoutStop(keys[i], '\0');
    }
    forall i, j | 0 <= i < j < |keys|
      ensures keys[i] != keys[j]
    {
      LessIrreflexive(keys[i]);
    }
  }

  lemma {:induction false} StructRoundTrip(natives: Natives, m: map<string, GoValue>)
    requires Representable(StringMap(m))
    requires Encode(natives, StringMap(m)).Success?
    ensures DecodeValue(natives, Encode(natives, StringMap(m)).value) == Decoded(Canonical(StringMap(m)), None)
    decreases StringMap(m), 0
  {
    StructShape(natives, m);
    var keys := SortedKeys(m.Keys);
    var values := EncodeFieldValues(natives, m, keys, |keys|).value;
    var fields := Fields(CNames(keys), values);
    FieldValuesSucceed(natives, m, keys, |keys|);
    SortedNames(keys, values);
    var c := Canonical(StringMap(m)).m;
    forall i | 0 <= i < |fields|
      ensures DecodeValue(natives, fields[i].value) == Decoded(c[keys[i]], None)
    {
      EncodeDecodeRoundTrip(natives, m[keys[i]]);
    }
    DistinctNamesStruct(natives, fields, keys, c);
  }

  /** A struct whose field names are distinct decodes to the map from each name to its field's value. */
  lemma DistinctNamesStruct(natives: Natives, fields: seq<Field>, keys: seq<string>, c: map<string, GoValue>)
    requires NamesOf(fields) == keys
    requires forall i, j :: 0 <= i < j < |keys| ==> keys[i] != keys[j]
    requires forall k :: k in c <==> k in keys
    requires forall i :: 0 <= i < |fields| ==> DecodeValue(natives, fields[i].value) == Decoded(c[keys[i]], None)
    ensures DecodeValue(natives, StructValue(false, fields)) == Decoded(StringMap(c), None)
  {
    StructDecoding(natives, false, fields);
    var d := DecodeValue(natives, StructValue(false, fields));
    KeysAsSet(keys, c);
    forall k | k in c
      ensures d.value.m[k] == c[k]
    {
      var i :| 0 <= i < |keys| && keys[i] == k;
      assert NamesOf(fields)[i] == k;
    }
  }

  /** The set of the positions' names is the set of the map's keys. */
  lemma KeysAsSet(keys: seq<string>, c: map<string, GoValue>)
    requires forall k :: k in c <==> k in keys
    ensures (set i | 0 <= i < |keys| :: keys[i]) == c.Keys
  {
    forall k | k in c
      ensures k in (set i | 0 <= i < |keys| :: keys[i])
    {
      var i :| 0 <= i < |keys| && keys[i] == k;
    }
  }

  lemma {:induction false} MapRoundTrip(natives: Natives, items: seq<MapItem>)
    requires Representable(MapItems(items))
    requires Encode(natives, MapItems(items)).Success?
    ensures DecodeValue(natives, Encode(natives, MapItems(items)).value) == Decoded(Canonical(MapItems(items)), None)
    decreases MapItems(items), 0
  {
    var (keys, values) := EncodeItems(natives, items, |items|).value;
    var entries := Entries(keys, values);
    assert Encode(natives, MapItems(items)).value == MapValue(entries);
    ItemsSucceed(natives, items, |items|);
    forall i | 0 <= i < |items|
      ensures DecodeValue(natives, entries[i].key) == Decoded(Canonical(items[i].key), None)
      ensures DecodeValue(natives, entries[i].value) == Decoded(Canonical(items[i].value), None)
    {
      assert items[i] < MapItems(items);
      ItemRoundTrip(natives, items[i]);
    }
    EntriesRoundTrip(natives, items, entries);
  }

  /** Both halves of a map item come back from their own encodings. */
  lemma {:induction false} ItemRoundTrip(natives: Natives, item: MapItem)
    requires Representable(item.key) && Representable(item.value)
    requires Encode(natives, item.key).Success? && Encode(natives, item.value).Success?
    ensures DecodeValue(natives, Encode(natives, item.key).value) == Decoded(Canonical(item.key), None)
    ensures DecodeValue(natives, Encode(natives, item.value).value) == Decoded(Canonical(item.value), None)
    decreases item, 0
  {
    EncodeDecodeRoundTrip(natives, item.key);
    EncodeDecodeRoundTrip(natives, item.value);
  }

  /** Entries whose keys and values each decode to the normalised items decode to the normalised map. */
  lemma EntriesRoundTrip(natives: Natives, items: seq<MapItem>, entries: seq<Entry>)
    requires |entries| == |items|
    requires forall i :: 0 <= i < |items| ==>
               && DecodeValue(natives, entries[i].key) == Decoded(Canonical(items[i].key), None)
               && DecodeValue(natives, entries[i].value) == Decoded(Canonical(items[i].value), None)
    ensures DecodeValue(natives, MapValue(entries)) == Decoded(Canonical(MapItems(items)), None)
  {
    MapDecoding(natives, entries);
    var d := DecodeValue(natives, MapValue(entries));
    assert d.value.items == Canonical(MapItems(items)).items;
  }
}

=== FILE: temporal.dfy ===
/**
 * The temporal codec between Go's `time.Time` / `time.Duration` and the
 * engine's DATE, TIMESTAMP*, and INTERVAL representations.
 *
 * A Go time is modelled by its Unix time in nanoseconds (`UnixNano`), a
 * duration by its length in nanoseconds. Integers are unbounded: Go's int64
 * wrap-around is not reproduced, and the facts that depend on the int64
 * range are stated as lemmas whose hypotheses bound the inputs.
 */
module Temporal {
  import Binary64

  const NanosPerMicro: int := 1000
  const NanosPerMilli: int := 1_000_000
  const NanosPerSecond: int := 1_000_000_000
  const NanosPerHour: int := 3_600_000_000_000
  const NanosPerDay: int := 86_400_000_000_000
  const MicrosPerDay: int := 86_400_000_000

  /** A month counts as this many days when an interval becomes a duration. */
  const DaysPerMonth: int := 30

  predicate IsInt64(x: int) {
    -0x8000_0000_0000_0000 <= x < 0x8000_0000_0000_0000
  }

  predicate IsInt32(x: int) {
    -0x8000_0000 <= x < 0x8000_0000
  }

  /** The engine's `kuzu_interval_t`. */
  datatype Interval = Interval(months: int, days: int, micros: int)

  /** Go's integer division `a / b` for a positive divisor: it truncates toward zero. */
  function TruncDiv(a: int, b: int): (q: int)
    requires b > 0
    ensures 0 <= a ==> 0 <= a - q * b < b
    ensures a < 0 ==> -b < a - q * b <= 0
  {
    if a >= 0 then a / b else -((-a) / b)
  }

  /** What Go's truncating division leaves over: `a % b` in Go, which keeps the sign of `a`. */
  function TruncRem(a: int, b: int): int
    requires b > 0
  {
    a - TruncDiv(a, b) * b
  }

  /**
   * The day count `timeToKuzuDate` stands for: the whole days elapsed since the epoch,
   * rounded down. The code reaches it through float64 (`TimeToKuzuDateAsWritten`), which
   * differs just before a midnight (`DateRoundsUpBeforeMidnight`).
   */
  function TimeToKuzuDate(t: int): (days: int)
    ensures days * NanosPerDay <= t < (days + 1) * NanosPerDay
  {
    t / NanosPerDay
  }

  /**
   * Go's `Duration.Hours()`: the whole hours plus the remaining nanoseconds over 3.6e12,
   * each operation rounded to float64. Both integer parts convert to float64 exactly for
   * any int64 duration.
   */
  function Hours(d: int): real {
    HoursFromParts(TruncDiv(d, NanosPerHour), TruncRem(d, NanosPerHour))
  }

  /** `float64(hour) + float64(nsec)/3.6e12`, with Go's float64 rounding after each operation. */
  function HoursFromParts(hour: int, nsec: int): real {
    Binary64.RoundToDouble(hour as real + Binary64.RoundToDouble(nsec as real / 3_600_000_000_000.0))
  }

  /**
   * `timeToKuzuDate` as the code computes it: the float64 hours since the epoch, divided
   * by 24 in float64, then `math.Floor`. `TimeToKuzuDate` is the day count it stands for.
   */
  function TimeToKuzuDateAsWritten(t: int): int {
    Binary64.RoundToDouble(Hours(t) / 24.0).Floor
  }

  /** `kuzuDateToTime`: the epoch plus exactly `days` times 24 hours. */
  function KuzuDateToTime(days: int): (t: int)
    ensures t % NanosPerDay == 0
    ensures TimeToKuzuDate(t) == days
  {
    days * NanosPerDay
  }

  /** `timeToKuzuTimestamp`: `UnixNano / 1000`, truncating toward zero. */
  function TimeToKuzuTimestamp(t: int): (micros: int)
    ensures 0 <= t ==> 0 <= t - micros * NanosPerMicro < NanosPerMicro
    ensures t < 0 ==> -NanosPerMicro < t - micros * NanosPerMicro <= 0
  {
    TruncDiv(t, NanosPerMicro)
  }

  /** `timeToKuzuTimestampNs`: `UnixNano`, unchanged. */
  function TimeToKuzuTimestampNs(t: int): int {
    t
  }

  /** Go's `Time.Nanosecond()`: the offset within the second, always in [0, 10^9). */
  function Nanosecond(t: int): (n: int)
    ensures 0 <= n < NanosPerSecond
    ensures (t - n) % NanosPerSecond == 0
  {
    t % NanosPerSecond
  }

  /** `timeHasNanoseconds`: the within-second nanosecond field is not zero. */
  predicate TimeHasNanoseconds(t: int) {
    Nanosecond(t) != 0
  }

  /** `durationToKuzuInterval`: months and days stay zero, micros is `d / 1000` truncated. */
  function DurationToKuzuInterval(d: int): (iv: Interval)
    ensures iv.months == 0 && iv.days == 0
    ensures 0 <= d ==> 0 <= d - iv.micros * NanosPerMicro < NanosPerMicro
    ensures d < 0 ==> -NanosPerMicro < d - iv.micros * NanosPerMicro <= 0
  {
    Interval(0, 0, TruncDiv(d, NanosPerMicro))
  }

  /** `kuzuIntervalToDuration`: ((days + 30 * months) days + micros) in nanoseconds. */
  function KuzuIntervalToDuration(iv: Interval): int {
    var totalDays := iv.days + iv.months * DaysPerMonth;
    var totalSeconds := totalDays * 24 * 60 * 60;
    var totalMicros := totalSeconds * 1_000_000 + iv.micros;
    totalMicros * 1000
  }

  // Decoding of the engine's timestamp flavours (value_helper.go, the TIMESTAMP* cases).

  function KuzuTimestampToTime(micros: int): int { micros * NanosPerMicro }
  function KuzuTimestampNsToTime(nanos: int): int { nanos }
  function KuzuTimestampMsToTime(millis: int): int { millis * NanosPerMilli }
  function KuzuTimestampSecToTime(seconds: int): int { seconds * NanosPerSecond }
  function KuzuTimestampTzToTime(micros: int): int { micros * NanosPerMicro }

  // ---------------------------------------------------------------- lemmas

  /** A date becomes a time at midnight of that day: the time is rounded down to a whole day. */
  lemma DateOfTimeIsMidnight(t: int)
    ensures KuzuDateToTime(TimeToKuzuDate(t)) == t - t % NanosPerDay
    ensures KuzuDateToTime(TimeToKuzuDate(t)) <= t < KuzuDateToTime(TimeToKuzuDate(t)) + NanosPerDay
  {
  }

  /** 36 hours after the epoch is day 1; one nanosecond before it is day -1. */
  lemma DateExamples()
    ensures TimeToKuzuDate(36 * NanosPerHour) == 1
    ensures KuzuDateToTime(TimeToKuzuDate(36 * NanosPerHour)) == 24 * NanosPerHour
    ensures TimeToKuzuDate(-1) == -1
  {
  }

  /**
   * One nanosecond before midnight of day 20000 the float64 hour count rounds up to
   * exactly 480000, so the code as written answers day 20000 for a time in day 19999;
   * one nanosecond before day -20000 begins it answers -20000 for a time in day -20001.
   */
  lemma DateRoundsUpBeforeMidnight()
    ensures TimeToKuzuDateAsWritten(20000 * NanosPerDay - 1) == 20000
    ensures TimeToKuzuDate(20000 * NanosPerDay - 1) == 19999
    ensures TimeToKuzuDateAsWritten(-20000 * NanosPerDay - 1) == -20000
    ensures TimeToKuzuDate(-20000 * NanosPerDay - 1) == -20001
  {
    WholeDaysAreDoubles();
    HoursJustBeforeDay20000();
    AsWrittenDay(20000 * NanosPerDay - 1, 480000.0, 20000);
    HoursJustBeforeDayMinus20000();
    AsWrittenDay(-20000 * NanosPerDay - 1, -480000.0, -20000);
  }

  /** The code's answer follows from the float64 hours and their rounded quotient by 24. */
  lemma AsWrittenDay(t: int, hours: real, day: int)
    requires Hours(t) == hours
    requires Binary64.RoundToDouble(hours / 24.0) == day as real
    ensures TimeToKuzuDateAsWritten(t) == day
  {
  }

  /** Plus and minus 20000 are doubles already: dividing 480000 hours by 24 is exact. */
  lemma WholeDaysAreDoubles()
    ensures Binary64.RoundToDouble(480000.0 / 24.0) == 20000.0
    ensures Binary64.RoundToDouble(-480000.0 / 24.0) == -20000.0
  {
    Binary64.PowersOfTwo();
    assert Binary64.Pow2(14) == 16384.0 && Binary64.Pow2(15) == 32768.0;
    assert Binary64.Pow2(14 - 52) == 1.0 / 274_877_906_944.0;
    Binary64.RoundsTo(20000.0, 14, 1.0 / 274_877_906_944.0, 5_497_558_138_880_000);
    Binary64.RoundsTo(-20000.0, 14, 1.0 / 274_877_906_944.0, -5_497_558_138_880_000);
  }

  /** The float64 hours of the last nanosecond of day 19999: the fraction rounds into the next hour. */
  lemma HoursJustBeforeDay20000()
    ensures Hours(20000 * NanosPerDay - 1) == 480000.0
  {
    assert TruncDiv(20000 * NanosPerDay - 1, NanosPerHour) == 479999;
    HoursOf(20000 * NanosPerDay - 1, 479999, 3_599_999_999_999);
    RoundsJustBelowOne();
    SumRoundsUp();
  }

  /** The float64 hours of the last nanosecond of day -20001, rounded the same way. */
  lemma HoursJustBeforeDayMinus20000()
    ensures Hours(-20000 * NanosPerDay - 1) == -480000.0
  {
    assert TruncDiv(-20000 * NanosPerDay - 1, NanosPerHour) == -480000;
    HoursOf(-20000 * NanosPerDay - 1, -480000, -1);
    RoundsJustBelowZero();
    SumRoundsDown();
  }

  /** `Hours()` from Go's whole hours and remaining nanoseconds. */
  lemma HoursOf(d: int, hour: int, nsec: int)
    requires TruncDiv(d, NanosPerHour) == hour && d == hour * NanosPerHour + nsec
    ensures Hours(d) == HoursFromParts(hour, nsec)
  {
  }

  /** 3599999999999 / 3.6e12 rounded to float64. */
  lemma RoundsJustBelowOne()
    ensures Binary64.RoundToDouble(3_599_999_999_999 as real / 3_600_000_000_000.0)
         == 9_007_199_254_738_490.0 / 9_007_199_254_740_992.0
  {
    Binary64.PowersOfTwo();
    assert Binary64.Pow2(-1) == 0.5 && Binary64.Pow2(0) == 1.0;
    assert Binary64.Pow2(-1 - 52) == 1.0 / 9_007_199_254_740_992.0;
    Binary64.RoundsTo(3_599_999_999_999.0 / 3_600_000_000_000.0, -1, 1.0 / 9_007_199_254_740_992.0, 9_007_199_254_738_490);
  }

  /** -1 / 3.6e12 rounded to float64. */
  lemma RoundsJustBelowZero()
    ensures Binary64.RoundToDouble(-1 as real / 3_600_000_000_000.0)
         == -5_501_955_730_157_246.0 / 19_807_040_628_566_084_398_385_987_584.0
  {
    Binary64.PowersOfTwo();
    assert Binary64.Pow2(-42) == 1.0 / 4_398_046_511_104.0;
    assert Binary64.Pow2(-41) == 1.0 / 2_199_023_255_552.0;
    assert Binary64.Pow2(-42 - 52) == 1.0 / 19_807_040_628_566_084_398_385_987_584.0;
    Binary64.RoundsTo(-1.0 / 3_600_000_000_000.0, -42, 1.0 / 19_807_040_628_566_084_398_385_987_584.0, -5_501_955_730_157_246);
  }

  /** 479999 plus the rounded fraction is within half a spacing of 480000. */
  lemma SumRoundsUp()
    ensures Binary64.RoundToDouble(479999.0 + 9_007_199_254_738_490.0 / 9_007_199_254_740_992.0) == 480000.0
  {
    Binary64.PowersOfTwo();
    assert Binary64.Pow2(18) == 262144.0 && Binary64.Pow2(19) == 524288.0;
    assert Binary64.Pow2(18 - 52) == 1.0 / 17_179_869_184.0;
    Binary64.RoundsTo(479999.0 + 9_007_199_254_738_490.0 / 9_007_199_254_740_992.0, 18,
                      1.0 / 17_179_869_184.0, 8_246_337_208_320_000);
  }

  /** -480000 plus the rounded fraction is within half a spacing of -480000. */
  lemma SumRoundsDown()
    ensures Binary64.RoundToDouble(-480000.0 + -5_501_955_730_157_246.0 / 19_807_040_628_566_084_398_385_987_584.0)
         == -480000.0
  {
    Binary64.PowersOfTwo();
    assert Binary64.Pow2(18) == 262144.0 && Binary64.Pow2(19) == 524288.0;
    assert Binary64.Pow2(18 - 52) == 1.0 / 17_179_869_184.0;
    Binary64.RoundsTo(-480000.0 + -5_501_955_730_157_246.0 / 19_807_040_628_566_084_398_385_987_584.0, 18,
                      1.0 / 17_179_869_184.0, -8_246_337_208_320_000);
  }

  /** Every int64 time gives a day count that fits the engine's int32 `days` field. */
  lemma DateFitsInt32(t: int)
    requires IsInt64(t)
    ensures IsInt32(TimeToKuzuDate(t))
  {
  }

  /**
   * The code's float64 path is exact on whole days: 24 times the day count is an exact
   * double and so is its quotient by 24, so date to time to date is the identity as written.
   * The day count is one whose time Go's int64 `Duration` holds (`DateTimeIsInt64`).
   */
  lemma AsWrittenDateOfDate(d: int)
    requires -106_751 <= d <= 106_751
    ensures TimeToKuzuDateAsWritten(KuzuDateToTime(d)) == d
  {
    WholeDayHours(d);
    AsWrittenOfWholeHours(KuzuDateToTime(d), d);
  }

  /** The days whose time `kuzuDateToTime` computes without int64 wrap-around. */
  lemma DateTimeIsInt64(d: int)
    ensures IsInt64(KuzuDateToTime(d)) <==> -106_751 <= d <= 106_751
  {
  }

  /** A time whose float64 hours are exactly 24 times `d` is dated `d` as written. */
  lemma AsWrittenOfWholeHours(t: int, d: int)
    requires IsInt32(d) && Hours(t) == (24 * d) as real
    ensures TimeToKuzuDateAsWritten(t) == d
  {
    DayOfWholeHours(d, Hours(t));
  }

  /** The float64 hours of a whole number of days is exactly 24 per day. */
  lemma WholeDayHours(d: int)
    requires IsInt32(d)
    ensures Hours(KuzuDateToTime(d)) == (24 * d) as real
  {
    WholeDayParts(d);
    HoursOf(d * NanosPerDay, 24 * d, 0);
    WholeHoursAreExact(24 * d);
  }

  /** A whole number of days is a whole number of hours with nothing left over. */
  lemma WholeDayParts(d: int)
    ensures TruncDiv(d * NanosPerDay, NanosPerHour) == 24 * d
  {
  }

  /** Whole hours and no nanoseconds give exactly that many hours in float64. */
  lemma WholeHoursAreExact(h: int)
    requires -0x1_0000_0000_0000 < h < 0x1_0000_0000_0000
    ensures HoursFromParts(h, 0) == h as real
  {
    Binary64.IntegerIsDouble(0);
    assert 0 as real / 3_600_000_000_000.0 == 0 as real;
    Binary64.IntegerIsDouble(h);
  }

  /** Dividing 24 times a day count by 24 in float64, then `math.Floor`, gives the day count. */
  lemma DayOfWholeHours(d: int, h: real)
    requires IsInt32(d) && h == (24 * d) as real
    ensures Binary64.RoundToDouble(h / 24.0).Floor == d
  {
    assert h / 24.0 == d as real;
    Binary64.IntegerIsDouble(d);
  }

  /** As written too, every int64 time gives a day count that fits the engine's int32. */
  lemma AsWrittenDateFitsInt32(t: int)
    requires IsInt64(t)
    ensures IsInt32(TimeToKuzuDateAsWritten(t))
  {
    HoursBound(t);
    DayBound(Hours(t));
  }

  /** Float64 hours below 2562050 either way give a floored day count within int32. */
  lemma DayBound(h: real)
    requires -2_562_050.0 < h < 2_562_050.0
    ensures IsInt32(Binary64.RoundToDouble(h / 24.0).Floor)
  {
    Binary64.RoundingBound(h / 24.0);
  }

  /** An int64 duration is fewer than 2562050 hours either way, also after float64 rounding. */
  lemma HoursBound(d: int)
    requires IsInt64(d)
    ensures -2_562_050.0 < Hours(d) < 2_562_050.0
  {
    HourPartsBound(d);
    PartsBound(TruncDiv(d, NanosPerHour), TruncRem(d, NanosPerHour));
  }

  /** Go's whole hours of an int64 duration and the nanoseconds left over. */
  lemma HourPartsBound(d: int)
    requires IsInt64(d)
    ensures -2_562_047 <= TruncDiv(d, NanosPerHour) <= 2_562_047
    ensures -NanosPerHour < TruncRem(d, NanosPerHour) < NanosPerHour
  {
  }

  /** `float64(hour) + float64(nsec)/3.6e12` stays within an hour and a half of `hour`. */
  lemma PartsBound(hour: int, nsec: int)
    requires -2_562_047 <= hour <= 2_562_047
    requires -NanosPerHour < nsec < NanosPerHour
    ensures -2_562_050.0 < HoursFromParts(hour, nsec) < 2_562_050.0
  {
    var f := nsec as real / 3_600_000_000_000.0;
    FractionBound(nsec);
    RoundedFractionBound(f);
    RoundedSumBound(hour as real, Binary64.RoundToDouble(f));
  }

  /** A fraction of an hour rounds to at most an hour and a half. */
  lemma RoundedFractionBound(f: real)
    requires -1.0 < f < 1.0
    ensures -1.5 <= Binary64.RoundToDouble(f) <= 1.5
  {
    Binary64.RoundingBound(f);
  }

  /** The whole hours plus the rounded fraction, rounded again, stay below 2562050. */
  lemma RoundedSumBound(hour: real, r: real)
    requires -2_562_047.0 <= hour <= 2_562_047.0
    requires -1.5 <= r <= 1.5
    ensures -2_562_050.0 < Binary64.RoundToDouble(hour + r) < 2_562_050.0
  {
    Binary64.RoundingBound(hour + r);
  }

  /** The nanoseconds left over are less than an hour. */
  lemma FractionBound(nsec: int)
    requires -NanosPerHour < nsec < NanosPerHour
    ensures -1.0 < nsec as real / 3_600_000_000_000.0 < 1.0
  {
  }

  /** As written, the day count of an int64 time is at most one day off the intended one. */
  lemma AsWrittenWithinADay(t: int)
    requires IsInt64(t)
    ensures -1 <= TimeToKuzuDateAsWritten(t) - TimeToKuzuDate(t) <= 1
  {
    RoundedDayNear(t);
    AsWrittenOfRoundedDay(t);
  }

  /** The floored float64 quotient of the hours by 24 is within a day of the intended count. */
  lemma RoundedDayNear(t: int)
    requires IsInt64(t)
    ensures -1 <= Binary64.RoundToDouble(Hours(t) / 24.0).Floor - TimeToKuzuDate(t) <= 1
  {
    DayNearOfHours(t, Hours(t), TimeToKuzuDate(t));
  }

  /** The float64 hours `h` of `t`, divided by 24, rounded and floored, are within a day of `days`. */
  lemma DayNearOfHours(t: int, h: real, days: int)
    requires IsInt64(t) && h == Hours(t) && days == TimeToKuzuDate(t)
    ensures -1 <= Binary64.RoundToDouble(h / 24.0).Floor - days <= 1
  {
    HoursNear(t);
    DayNear(t, h, days);
  }

  /** `timeToKuzuDate` as written is that floored quotient. */
  lemma AsWrittenOfRoundedDay(t: int)
    requires -1 <= Binary64.RoundToDouble(Hours(t) / 24.0).Floor - TimeToKuzuDate(t) <= 1
    ensures -1 <= TimeToKuzuDateAsWritten(t) - TimeToKuzuDate(t) <= 1
  {
  }

  /** `h` is within an hour of the exact hours `t / 3.6e12`. */
  predicate NearHours(t: int, h: real) {
    t as real / 3_600_000_000_000.0 - 1.0 <= h <= t as real / 3_600_000_000_000.0 + 1.0
  }

  /** The float64 hours are within an hour of the exact hours. */
  lemma HoursNear(t: int)
    requires IsInt64(t)
    ensures NearHours(t, Hours(t))
  {
    HourPartsBound(t);
    var hour := TruncDiv(t, NanosPerHour);
    var nsec := TruncRem(t, NanosPerHour);
    ExactHours(t, hour, nsec);
    PartsNear(hour, nsec);
  }

  /** The exact hours are the whole hours plus the nanoseconds left over, over 3.6e12. */
  lemma ExactHours(t: int, hour: int, nsec: int)
    requires t == hour * NanosPerHour + nsec
    ensures t as real / 3_600_000_000_000.0 == hour as real + nsec as real / 3_600_000_000_000.0
  {
    assert (hour * NanosPerHour) as real == hour as real * 3_600_000_000_000.0;
  }

  /** Each of the two roundings in `Hours()` moves the result by at most half an hour. */
  lemma PartsNear(hour: int, nsec: int)
    requires -2_562_047 <= hour <= 2_562_047
    requires -NanosPerHour < nsec < NanosPerHour
    ensures var x := hour as real + nsec as real / 3_600_000_000_000.0;
      x - 1.0 <= HoursFromParts(hour, nsec) <= x + 1.0
  {
    var f := nsec as real / 3_600_000_000_000.0;
    FractionBound(nsec);
    Binary64.RoundingBound(f);
    SumNear(hour as real, f, Binary64.RoundToDouble(f));
  }

  /** Rounding the whole hours plus a fraction rounded within a half stays within an hour. */
  lemma SumNear(hour: real, f: real, r: real)
    requires -2_562_047.0 <= hour <= 2_562_047.0
    requires -1.0 < f < 1.0 && f - 0.5 <= r <= f + 0.5
    ensures hour + f - 1.0 <= Binary64.RoundToDouble(hour + r) <= hour + f + 1.0
  {
    Binary64.RoundingBound(hour + r);
  }

  /**
   * Hours within an hour of the exact ones, divided by 24 and rounded, floor to within a day
   * of the whole days elapsed.
   */
  lemma DayNear(t: int, h: real, days: int)
    requires IsInt64(t) && NearHours(t, h) && days == TimeToKuzuDate(t)
    ensures -1 <= Binary64.RoundToDouble(h / 24.0).Floor - days <= 1
  {
    var x := t as real / 86_400_000_000_000.0;
    DaysBracket(t, days);
    assert x - 0.05 <= h / 24.0 <= x + 0.05;
    Binary64.RoundingBound(h / 24.0);
  }

  /** The whole days elapsed bracket the exact days `t / 86400e9`. */
  lemma DaysBracket(t: int, days: int)
    requires days * NanosPerDay <= t < (days + 1) * NanosPerDay
    ensures days as real <= t as real / 86_400_000_000_000.0 < days as real + 1.0
  {
    assert (days * NanosPerDay) as real == days as real * 86_400_000_000_000.0;
    assert ((days + 1) * NanosPerDay) as real == (days as real + 1.0) * 86_400_000_000_000.0;
  }

  /** Time to microsecond timestamp and back loses exactly Go's truncation remainder. */
  lemma TimestampRoundTrip(t: int)
    ensures KuzuTimestampToTime(TimeToKuzuTimestamp(t)) == t - TruncRem(t, NanosPerMicro)
    ensures t % NanosPerMicro == 0 ==> KuzuTimestampToTime(TimeToKuzuTimestamp(t)) == t
  {
    if t % NanosPerMicro == 0 {
      var k := t / NanosPerMicro;
      assert t == k * NanosPerMicro;
      if t < 0 {
        assert -t == (-k) * NanosPerMicro;
        assert (-t) / NanosPerMicro == -k;
      }
    }
  }

  /** The nanosecond timestamp keeps the time exactly. */
  lemma TimestampNsRoundTrip(t: int)
    ensures KuzuTimestampNsToTime(TimeToKuzuTimestampNs(t)) == t
  {
  }

  /** A whole second is a whole microsecond, so the microsecond path is exact for it. */
  lemma WholeSecondIsWholeMicro(t: int)
    requires !TimeHasNanoseconds(t)
    ensures t % NanosPerMicro == 0
  {
    var k := t / NanosPerSecond;
    assert t == k * NanosPerSecond;
    assert t == (k * 1_000_000) * NanosPerMicro;
  }

  /** 3 ms past a whole second still counts as "has nanoseconds". */
  lemma MillisecondsCountAsNanoseconds()
    ensures TimeHasNanoseconds(3 * NanosPerMilli)
    ensures !TimeHasNanoseconds(-2 * NanosPerSecond)
    ensures TimeHasNanoseconds(-1)
  {
  }

  /** Duration to interval and back loses exactly the sub-microsecond remainder. */
  lemma IntervalRoundTrip(d: int)
    ensures KuzuIntervalToDuration(DurationToKuzuInterval(d)) == d - TruncRem(d, NanosPerMicro)
    ensures d % NanosPerMicro == 0 ==> KuzuIntervalToDuration(DurationToKuzuInterval(d)) == d
  {
    TimestampRoundTrip(d);
  }

  /** Decoding counts one month as exactly 30 days. */
  lemma MonthIsThirtyDays(months: int, days: int, micros: int)
    ensures KuzuIntervalToDuration(Interval(months, days, micros))
         == KuzuIntervalToDuration(Interval(0, days + DaysPerMonth * months, micros))
    ensures KuzuIntervalToDuration(Interval(months, days, micros))
         == (days + DaysPerMonth * months) * NanosPerDay + micros * NanosPerMicro
  {
  }

  /** A two-day interval decodes to exactly two days. */
  lemma TwoDayInterval()
    ensures KuzuIntervalToDuration(Interval(0, 2, 0)) == 2 * 24 * NanosPerHour
    ensures KuzuIntervalToDuration(DurationToKuzuInterval(2 * 24 * NanosPerHour)) == 2 * 24 * NanosPerHour
  {
  }
}

=== FILE: values.dfy ===
/**
 * The two value worlds the binding moves between: the engine's tagged values
 * (`kuzu_value`, as the binding observes them through the C API) and Go's
 * dynamically typed values (`any`), together with the Go record types the
 * binding defines (InternalID, Node, Relationship, RecursiveRelationship,
 * MapItem) and the errors the codec reports.
 */
module Values {
  import opened Wrappers
  import opened Temporal

  type byte = x: int | 0 <= x < 0x100

  type int8 = x: int | -0x80 <= x < 0x80
  type int16 = x: int | -0x8000 <= x < 0x8000
  type int32 = x: int | -0x8000_0000 <= x < 0x8000_0000
  type int64 = x: int | -0x8000_0000_0000_0000 <= x < 0x8000_0000_0000_0000
  type uint8 = x: int | 0 <= x < 0x100
  type uint16 = x: int | 0 <= x < 0x1_0000
  type uint32 = x: int | 0 <= x < 0x1_0000_0000
  type uint64 = x: int | 0 <= x < 0x1_0000_0000_0000_0000

  /** The engine's success / error codes (`KuzuSuccess`, `KuzuError`). */
  const KuzuSuccess: int := 0
  const KuzuError: int := 1

  predicate IsInt8(x: int) { -0x80 <= x < 0x80 }
  predicate IsInt16(x: int) { -0x8000 <= x < 0x8000 }
  predicate IsInt128(x: int) { -0x8000_0000_0000_0000_0000_0000_0000_0000 <= x < 0x8000_0000_0000_0000_0000_0000_0000_0000 }
  predicate IsUint8(x: int) { 0 <= x < 0x100 }
  predicate IsUint16(x: int) { 0 <= x < 0x1_0000 }
  predicate IsUint32(x: int) { 0 <= x < 0x1_0000_0000 }
  predicate IsUint64(x: int) { 0 <= x < 0x1_0000_0000_0000_0000 }

  /** The engine's logical type ids; `FutureType` stands for ids this binding does not know. */
  datatype TypeId =
    | ANY | NODE | REL | RECURSIVE_REL | SERIAL | BOOL
    | INT64 | INT32 | INT16 | INT8 | UINT64 | UINT32 | UINT16 | UINT8 | INT128
    | DOUBLE | FLOAT | DATE | TIMESTAMP | TIMESTAMP_SEC | TIMESTAMP_MS | TIMESTAMP_NS | TIMESTAMP_TZ
    | INTERVAL | DECIMAL | INTERNAL_ID | STRING | BLOB
    | LIST | ARRAY | STRUCT | MAP | UNION | PTR | UUID
    | FutureType(id: int)

  predicate IsCompositeType(t: TypeId) {
    t.NODE? || t.REL? || t.RECURSIVE_REL? || t.LIST? || t.ARRAY? || t.STRUCT? || t.UNION? || t.MAP?
  }

  /** The type ids of values without child values. */
  type ScalarTypeId = t: TypeId | !IsCompositeType(t) witness BOOL

  datatype InternalID = InternalID(tableId: uint64, offset: uint64)

  /** An IEEE float, carried by its bit pattern and never interpreted. */
  datatype FloatBits = FloatBits(bits: nat)

  /** A 128-bit UUID as its 16 bytes (google/uuid's `uuid.UUID`). */
  datatype UuidValue = UuidValue(bytes: seq<byte>)

  /** shopspring's `decimal.Decimal`: coefficient times ten to the exponent. */
  datatype DecimalValue = DecimalValue(coefficient: int, exponent: int)

  /**
   * What a scalar accessor (`kuzu_value_get_bool`, `..._get_int32`, ...) can read out of a
   * value. UUID and DECIMAL reach the binding as the engine's text rendering.
   */
  datatype Payload =
    | BoolP(b: bool)
    | IntP(i: int)
    | FloatP(f: FloatBits)
    | TextP(s: string)
    | BlobP(bytes: seq<byte>)
    | IntervalP(interval: Interval)
    | IdP(id: InternalID)

  /** An engine value. A null value of any type is `NullValue`: the binding never looks past nullness. */
  datatype KuzuValue =
    | NullValue
    | ScalarValue(tag: ScalarTypeId, payload: Payload)
    | ListValue(isArray: bool, elems: seq<KuzuValue>)
    | StructValue(isUnion: bool, fields: seq<Field>)
    | MapValue(entries: seq<Entry>)
    | NodeValue(node: KuzuNode)
    | RelValue(rel: KuzuRel)
    | RecursiveRelValue(nodes: seq<KuzuNode>, rels: seq<KuzuRel>)

  /** A named child: a STRUCT field or a node / relationship property. */
  datatype Field = Field(name: string, value: KuzuValue)

  datatype Entry = Entry(key: KuzuValue, value: KuzuValue)

  /** The engine side of a node: its id and label values and its properties. */
  datatype KuzuNode = KuzuNode(id: InternalID, labelName: string, props: seq<Field>)

  datatype KuzuRel = KuzuRel(src: InternalID, dst: InternalID, labelName: string, props: seq<Field>)

  /** `kuzu_data_type_get_id` of a non-null value. */
  function TypeIdOf(v: KuzuValue): (t: TypeId)
    requires !v.NullValue?
    ensures v.ScalarValue? <==> !IsCompositeType(t)
  {
    match v
    case ScalarValue(tag, _) => tag
    case ListValue(isArray, _) => if isArray then ARRAY else LIST
    case StructValue(isUnion, _) => if isUnion then UNION else STRUCT
    case MapValue(_) => MAP
    case NodeValue(_) => NODE
    case RelValue(_) => REL
    case RecursiveRelValue(_, _) => RECURSIVE_REL
  }

  /** A Go value (`any`), restricted to the shapes the codec distinguishes. */
  datatype GoValue =
    | Nil
    | Bool(b: bool)
    | Int(i: int64)                 // Go `int`, 64 bits wide
    | Int64(i64: int64)
    | Int32(i32: int32)
    | Int16(i16: int16)
    | Int8(i8: int8)
    | Uint(u: uint64)               // Go `uint`, 64 bits wide
    | Uint64(u64: uint64)
    | Uint32(u32: uint32)
    | Uint16(u16: uint16)
    | Uint8(u8: uint8)
    | Float64(f: FloatBits)
    | Float32(f32: FloatBits)
    | Str(s: string)
    | Bytes(bytes: seq<byte>)       // []byte
    | BigInt(n: Option<int>)        // *big.Int; None is a nil pointer
    | Decimal(d: DecimalValue)
    | Uuid(uuid: UuidValue)
    | Time(unixNano: int)           // time.Time
    | Duration(nanos: int)          // time.Duration
    | Id(id: InternalID)
    | NodeRecord(node: Node)
    | RelRecord(rel: Relationship)
    | PathRecord(path: RecursiveRelationship)
    | Slice(elems: seq<GoValue>)    // []any
    | StringMap(m: map<string, GoValue>)   // map[string]any
    | MapItems(items: seq<MapItem>) // []MapItem
    | Other(typeName: string)       // any other Go type, by its %T name

  datatype Node = Node(id: InternalID, labelName: string, properties: map<string, GoValue>)

  datatype Relationship =
    Relationship(sourceId: InternalID, destinationId: InternalID, labelName: string, properties: map<string, GoValue>)

  datatype RecursiveRelationship = RecursiveRelationship(nodes: seq<Node>, relationships: seq<Relationship>)

  datatype MapItem = MapItem(key: GoValue, value: GoValue)

  /** The composite kinds the encoder builds. */
  datatype Composite = LIST_KIND | STRUCT_KIND | MAP_KIND

  /** Which child an encoder was converting when it failed. */
  datatype ChildPart = ValueInMap | KeyInSlice | ValueInSlice

  datatype Error =
    // decoding (value_helper.go)
    | AccessorFailed(tag: TypeId, status: int)      // failed to get <type> value with status
    | Int128ToStringFailed(status: int)              // failed to convert int128 to string with status
    | BigIntParseFailed                              // failed to convert string to big.Int
    | UuidParseFailed(text: string)                  // the error of uuid.Parse
    | DecimalParseFailed(text: string)               // failed to convert decimal value with error
    | UnsupportedDataType(tag: TypeId)               // unsupported data type ... force-casted to string
    | ChildrenFailed(errs: seq<Error>)               // failed to get values: [...]
    // encoding (value_helper.go)
    | UnsupportedGoType(typeName: string)            // unsupported type: %T
    | EmptyComposite(kind: Composite)                // failed to create ... because the map/slice is empty
    | ChildConversionFailed(part: ChildPart, cause: Error)  // failed to convert ... with error: %w
    | CreateFailed(kind: Composite, status: int)     // failed to create LIST/STRUCT/MAP value with status
    // parameter binding (connection.go)
    | BindNullFailed(status: int)                    // failed to bind null value with status
    | BindFailed(status: int)                        // failed to bind value with status
    | BindUnsupportedType                            // unsupported type
    | QueryFailed(message: string)                   // the engine's error message
    // database/sql glue (driver.go)
    | OnlyNamedArguments                             // only support named arguments
    | ParseUintSyntax(text: string)                  // strconv.ErrSyntax
    | ParseUintRange(text: string)                   // strconv.ErrRange
    | EndOfRows                                      // io.EOF

  /** The `%T` name Go prints for a value's dynamic type. */
  function GoTypeName(v: GoValue): string {
    match v
    case Nil => "<nil>"
    case Bool(_) => "bool"
    case Int(_) => "int"
    case Int64(_) => "int64"
    case Int32(_) => "int32"
    case Int16(_) => "int16"
    case Int8(_) => "int8"
    case Uint(_) => "uint"
    case Uint64(_) => "uint64"
    case Uint32(_) => "uint32"
    case Uint16(_) => "uint16"
    case Uint8(_) => "uint8"
    case Float64(_) => "float64"
    case Float32(_) => "float32"
    case Str(_) => "string"
    case Bytes(_) => "[]uint8"
    case BigInt(_) => "*big.Int"
    case Decimal(_) => "decimal.Decimal"
    case Uuid(_) => "uuid.UUID"
    case Time(_) => "time.Time"
    case Duration(_) => "time.Duration"
    case Id(_) => "kuzu.InternalID"
    case NodeRecord(_) => "kuzu.Node"
    case RelRecord(_) => "kuzu.Relationship"
    case PathRecord(_) => "kuzu.RecursiveRelationship"
    case Slice(_) => "[]interface {}"
    case StringMap(_) => "map[string]interface {}"
    case MapItems(_) => "[]kuzu.MapItem"
    case Other(name) => name
  }

  /**
   * The behaviour of code outside the binding that the codec calls: the engine's own
   * string rendering and composite constructors, and the Go libraries that parse text.
   * The constructors' checks are the engine's (all elements of one type, all keys of
   * one type, ...); the binding only reports the status they return.
   */
  datatype Natives = Natives(
    render: (TypeId, Payload) -> string,                        // kuzu_value_to_string
    int128ToString: int -> Option<string>,                      // kuzu_int128_t_to_string
    parseBigInt: string -> Option<int>,                         // big.Int.SetString(s, 10)
    parseUuid: string -> (UuidValue, bool),                     // uuid.Parse: the UUID it filled, and success
    parseDecimal: string -> Option<DecimalValue>,               // decimal.NewFromString
    listAccepts: seq<KuzuValue> -> bool,                        // kuzu_value_create_list
    structAccepts: (seq<string>, seq<KuzuValue>) -> bool,       // kuzu_value_create_struct
    mapAccepts: (seq<KuzuValue>, seq<KuzuValue>) -> bool)       // kuzu_value_create_map

  /** A decode result: Go returns the value and the error side by side. */
  datatype Decoded = Decoded(value: GoValue, err: Option<Error>)

  /** The part of `s` before the first `stop`: what C's strlen sees of a buffer. */
  function PrefixBefore<T(==)>(s: seq<T>, stop: T): (r: seq<T>)
    ensures r <= s
    ensures stop !in r
    ensures |r| < |s| ==> s[|r|] == stop
  {
    if s == [] || s[0] == stop then [] else [s[0]] + PrefixBefore(s[1..], stop)
  }

  /** A string after crossing the C boundary (C.CString / C.GoString): cut at the first NUL. */
  function CStr(s: string): string {
    PrefixBefore(s, '\0')
  }

  lemma PrefixBeforeWithoutStop<T>(s: seq<T>, stop: T)
    requires stop !in s
    ensures PrefixBefore(s, stop) == s
  {
  }
}

=== FILE: wrappers.dfy ===
/** Option and Result, the two failure-carrying shapes used throughout the model. */
module Wrappers {

  datatype Option<+T> = None | Some(value: T)

  /** A Go `(value, error)` return where the value is meaningless on error. */
  datatype Result<+R, +E> = Success(value: R) | Failure(error: E)
}
